=== FILE: README.md ===
# TenderAI MCP server — a verified model of its core

TenderAI is an MCP server that helps a bid team answer public tenders. Its tools parse an RFP,
write and check proposal documents, track partners, and keep an index of past proposals that can
be searched by keyword, by embedding, or by both. This project models in Dafny the logic of
those tools and proves what they promise.

- **Past-proposal index** (`app/tools/indexing.py`):
  - Reciprocal Rank Fusion of a lexical and a vector result list (`RankFusion`).
  - Search-mode resolution, the sector post-filter and result selection of
    `search_past_proposals` (`ProposalSearch`).
  - Ingestion of a proposal folder by `index_past_proposal` (`ProposalIngestion`): file
    selection, the character budget of the LLM context, stripping of code fences, the degraded
    entry, and the upsert into an `IndexStore` class (`ProposalIndex`).
  - The aggregates of `list_indexed_proposals` (`ProposalListing`).
- **Document tools** (`app/tools/document.py`, `DocumentTools`): the JSON fence fallback of
  `parse_tender_rfp`, the per-requirement responses of `generate_compliance_matrix`, the
  urgency band and milestones of `check_submission_deadline`, and the mandatory-section check
  of `validate_document_completeness`.
- **Partner tools** (`app/tools/partners.py`, `PartnerTools`): the NDA checklist, the
  deliverable-type classifier, and the choice of the proposal a deliverable attaches to.
- **Technical tools** (`app/tools/technical.py`, `TechnicalTools`): the section id, the
  template lookup, the default section list, the word count, and the replace-or-append of a
  section.
- **Document writer** (`app/services/docwriter.py`, `DocWriter`):
  - The technical proposal: cover, front matter, table of contents, body.
  - Paragraph classification of section content.
  - The compliance matrix rows.
  - The financial proposal: items grouped by category, with subtotals and a grand total.
  - The cell layout of the bill-of-materials spreadsheet.
  - A document is a `Document` class whose block list grows; a sheet is a `Worksheet` class
    whose cell map grows.
- **Bearer authentication** (`app/middleware/auth.py`, `Auth`): the `Authorization` header
  check. It is a loose form of the bearer scheme of section 2.1 of RFC 6750.

Shared helpers:

- `Text` models Python `str` operations: `lower` (ASCII), `strip`, `startswith`, `in`/`find`,
  `split`, `join`.
- `Collections` holds `Filter`, `Distinct`, `Tally` and map lemmas.
- `Wrappers` holds `Option` and `Result`.

The outside world is passed in as function-typed parameters:

- the store's queries;
- the LLM;
- the embedder;
- the JSON decoder;
- the date parser;
- the folder listing and the file reader.

Store writes of the partner and technical tools are returned as a list of `StoreWrite` values.
The index store is a class with `modifies` clauses. Python dicts whose key order is observable
are modelled as a map together with its key order. Scores and prices are `real`.

## Model

| member | source | states |
|---|---|---|
| RankFusion.ListScoreAbsent | app/tools/indexing.py:50-59 | an id missing from a list gets nothing from that list |
| RankFusion.ListScoreOnce | app/tools/indexing.py:50-57 | an id held once at 0-based rank r gets exactly weight / (60 + r + 1) from that list |
| RankFusion.FirstIndex | app/tools/indexing.py:55-59 | the first vector position holding an id: it holds the id and no earlier one does |
| RankFusion.LastIndex | app/tools/indexing.py:50-53 | the last lexical position holding an id: it holds the id and no later one does |
| RankFusion.Carried | app/tools/indexing.py:50-59 | the record carried for an id has that id: the last lexical record, else the first vector one |
| RankFusion.Scored | app/tools/indexing.py:47-59 | every (id, score) pair comes from one of the lists and its score is the id's fused score |
| RankFusion.ScoredKeys | app/tools/indexing.py:47-59 | the scored ids are the distinct ids of both lists in first-encounter order, lexical first |
| RankFusion.SortDesc | app/tools/indexing.py:62 | sorting keeps the length and is a permutation of the pairs |
| RankFusion.InsertSorted | app/tools/indexing.py:62 | inserting into a descending list keeps it descending |
| RankFusion.SortDescSorted | app/tools/indexing.py:62 | the sorted pairs are in non-increasing score order |
| RankFusion.SortDescStable | app/tools/indexing.py:62 | the pairs of any one score keep their relative order, as Python's stable sort does |
| RankFusion.SortDescKeys | app/tools/indexing.py:62 | sorting keeps the multiset of ids |
| RankFusion.LexicalLoop | app/tools/indexing.py:50-53 | the lexical loop leaves the scores, the carried records and the key order of the lexical pass |
| RankFusion.VectorLoop | app/tools/indexing.py:55-59 | the vector loop adds each vector term and records a vector record only for an id not yet seen |
| RankFusion.LexicalPassAccumulates | app/tools/indexing.py:50-53 | after the lexical pass every key holds its partial fused score and its last lexical record, keys in first-seen order |
| RankFusion.VectorPassAccumulates | app/tools/indexing.py:55-59 | after both passes every key holds its fused score and its carried record, keys in first-seen order |
| RankFusion.AccumulatorsComplete | app/tools/indexing.py:47-59 | the final dicts list exactly the scored pairs in key order, and hold the carried record of every input id |
| RankFusion.PassesFuse | app/tools/indexing.py:62-66 | sorting the accumulated items and attaching the records gives the fused list |
| RankFusion.RrfCombine | app/tools/indexing.py:36-66 | `_rrf_combine` returns exactly the fused list |
| RankFusion.FuseEntries | app/tools/indexing.py:63-66 | each fused hit is an input id with its carried record and its fused score |
| RankFusion.FuseMembership | app/tools/indexing.py:47-66 | every id of either list occurs exactly once in the fused list, and no other id occurs |
| RankFusion.FuseOrdered | app/tools/indexing.py:62 | the fused list is ordered by score, highest first |
| RankFusion.FuseTiesStable | app/tools/indexing.py:62 | ids with equal scores keep first-encounter order, lexical ids before vector-only ids |
| RankFusion.FuseLexicalTop | app/tools/indexing.py:50-53 | a lone lexical hit at rank 0 scores 1/61 |
| RankFusion.FuseBothTop | app/tools/indexing.py:50-59 | an id at rank 0 of both lists scores 2/61 and keeps the lexical record |
| ProposalSearch.ResolveModeNeedsVectors | app/tools/indexing.py:286-292 | a vector mode is resolved only when vectors are available, and "auto" never survives |
| ProposalSearch.ResolveModeIdempotent | app/tools/indexing.py:286-292 | resolving a resolved mode changes nothing |
| ProposalSearch.SectorFilter | app/tools/indexing.py:314-318 | an empty sector keeps every vector hit |
| ProposalSearch.SectorFilterExact | app/tools/indexing.py:314-318 | when every hit has a sector, a non-empty filter keeps exactly the hits whose sector equals it ignoring case; when some hit has none, lowercasing it raises, the exception is swallowed and every hit is kept |
| ProposalSearch.SearchSectorFilter | app/tools/indexing.py:307-320 | with a non-empty sector filter, vector hits that all carry a sector are all in that sector; if a fetched hit has no sector, the search keeps every fetched hit unfiltered |
| ProposalSearch.Plain | app/tools/indexing.py:326-328 | an unfused result takes each row over, in order, with no fused score |
| ProposalSearch.FetchLexical | app/tools/indexing.py:297-304 | the lexical index is queried for 2 × limit rows in keyword and hybrid modes; a raising call gives no hits |
| ProposalSearch.FetchVector | app/tools/indexing.py:306-320 | the query is embedded and the vector index queried only in a vector mode with vectors; a raising call gives no hits; the fetched hits are then sector-filtered, or kept unfiltered when one has no sector |
| ProposalSearch.CombineHits | app/tools/indexing.py:322-328 | the combined list is chosen as the three branches choose it |
| ProposalSearch.BuildMatches | app/tools/indexing.py:330-346 | one match per combined hit, in order |
| ProposalSearch.SearchPastProposals | app/tools/indexing.py:261-355 | the reply reports the resolved mode and counts its own matches; the store calls are made in order |
| ProposalSearch.SearchWithinLimit | app/tools/indexing.py:323-353 | a non-negative limit bounds the result count in every branch |
| ProposalSearch.KeywordNeverQueriesVectors | app/tools/indexing.py:307 | in keyword mode, or without vectors, only the lexical index is queried |
| ProposalSearch.FusionOnlyWhenHybrid | app/tools/indexing.py:323-324 | fused scores appear only in hybrid mode with both lists non-empty, and then the result is the fused list cut to the limit |
| ProposalSearch.SelectionWithoutFusion | app/tools/indexing.py:325-328 | otherwise the result is the vector list (semantic with hits) or the lexical list, cut to the limit |
| ProposalIndex.IndexStore.constructor | app/tools/indexing.py:209-242 | a new store is empty and consistent |
| ProposalIndex.IndexStore.UpsertProposalIndex | app/tools/indexing.py:209-225 | the folder's entry is inserted or replaced, keeping the id of an existing entry; one entry per folder |
| ProposalIndex.IndexStore.UpsertProposalVector | app/tools/indexing.py:241-242 | the folder's vector is set and nothing else changes |
| ProposalIngestion.LastIndexOfChar | app/tools/indexing.py:121 | the last position of a character, or none when it does not occur |
| ProposalIngestion.SuffixShape | app/tools/indexing.py:121 | a file suffix is empty or a proper tail of the name made of one dot and at least one other character |
| ProposalIngestion.SortNamesAscending | app/tools/indexing.py:118 | `sorted` yields names in ascending code-point order |
| ProposalIngestion.SelectFilesSpec | app/tools/indexing.py:118-125 | the file list is sorted and holds exactly the regular files with a parseable extension (any case) not starting with "_" |
| ProposalIngestion.FinancialSource | app/tools/indexing.py:133-138 | every financial text is the tagged text of a spreadsheet with content |
| ProposalIngestion.OtherSource | app/tools/indexing.py:133-140 | every other text is the tagged text of a non-spreadsheet file with content |
| ProposalIngestion.CollectComplete | app/tools/indexing.py:133-140 | every file with content contributes its tagged text to its list |
| ProposalIngestion.CollectTexts | app/tools/indexing.py:130-140 | the per-file loop gathers exactly the collected texts |
| ProposalIngestion.BudgetBounds | app/tools/indexing.py:146-152 | financial text keeps at most 8000 characters and the narrative at most max(25000 − financial, 5000), or 25000 without financial text; both are prefixes and together fit 25000 |
| ProposalIngestion.FinancialLast | app/tools/indexing.py:154-156 | financial data, when present, ends the context right after its marker |
| ProposalIngestion.StripFencesSpec | app/tools/indexing.py:171-176 | a fenced reply keeps no fence line; an unfenced reply is only trimmed |
| ProposalIngestion.StripFencesKeepsContent | app/tools/indexing.py:174-176 | the surviving lines are exactly the non-fence lines, in order |
| ProposalIngestion.DegradedEntry | app/tools/indexing.py:178-225 | a reply that is not JSON still yields an entry titled by the folder, summarised by the first 1000 characters of the raw reply; tender number, client, sector, country, technical and pricing summaries and margin are empty, the price is 0 and the lists are empty |
| ProposalIngestion.EmbedText | app/tools/indexing.py:233-241 | the embedded text has at most 8000 characters |
| ProposalIngestion.IndexPastProposal | app/tools/indexing.py:96-258 | a missing folder or no parseable file fails and changes nothing; otherwise the entry is upserted, keeping the folder's id, and the vector is stored only when embedding is configured, enabled and succeeds |
| ProposalIngestion.StoreExtracted | app/tools/indexing.py:209-257 | the upsert, the optional vector and the reply, given the extracted fields |
| ProposalListing.ListIndexedProposals | app/tools/indexing.py:358-397 | the reply carries the loop's aggregates and counts its own proposals |
| ProposalListing.AggregateProposals | app/tools/indexing.py:371-383 | one summary per row, in order |
| ProposalListing.AggregateCounters | app/tools/indexing.py:384-387 | the sector and country dicts count the rows' keys, "unknown" when missing |
| ProposalListing.CountAllCounts | app/tools/indexing.py:385 | counting gives each key its number of occurrences |
| ProposalListing.CountAllKeys | app/tools/indexing.py:385 | counting records keys in first-seen order |
| ProposalListing.AggregateTotal | app/tools/indexing.py:388 | the total value is the sum of the prices, a missing price counting as 0 |
| ProposalListing.SectorCounts | app/tools/indexing.py:384-392 | a sector is a key exactly when some row has it, with its number of rows, keys in first-seen order |
| DocumentTools.FenceBodySpec | app/tools/document.py:77-82 | the fence payload starts right after the first opening fence, contains no fence, and runs to the next fence or the end |
| DocumentTools.ParseStructured | app/tools/document.py:73-84 | a stripped reply that decodes is the result; otherwise, with a fence, the result is exactly the decoding of the payload after "```json" (else the first fence), or a failure carrying that payload; with no fence the call fails with the first 200 characters |
| DocumentTools.Responses | app/tools/document.py:145-159 | one response per requirement, in order |
| DocumentTools.ComplianceResponses | app/tools/document.py:136-159 | a missing RFP or an empty requirement list fails; otherwise one "Compliant" response per requirement |
| DocumentTools.StatusMonotone | app/tools/document.py:212-223 | more days left never gives a more pressing status |
| DocumentTools.DaysRemaining | app/tools/document.py:209-210 | the days left are the floor of the time to the deadline in days |
| DocumentTools.MilestonesSpec | app/tools/document.py:226-244 | seven milestones 14, 10, 7, 5, 3, 1 and 0 days before the deadline, each dated deadline minus its offset; completion is monotone |
| DocumentTools.BuildMilestones | app/tools/document.py:236-244 | the milestone loop builds exactly the milestones |
| DocumentTools.CheckSubmissionDeadline | app/tools/document.py:172-252 | a missing RFP fails; no deadline gives "unknown" and an unparseable one "unparseable", both without milestones, with the no-deadline message (and no deadline) or the could-not-parse message naming the text; otherwise the RFP title, the deadline text, no message, the band of the days left and the milestones |
| DocumentTools.SectionTitlesSpec | app/tools/document.py:289-290 | the titles set holds exactly the lowercased titles of the sections |
| DocumentTools.ProposalTitlesSpec | app/tools/document.py:284-290 | a title is present exactly when some section of some proposal has it, lowercased |
| DocumentTools.ExistingSections | app/tools/document.py:285-293 | the nested loop builds exactly that set |
| DocumentTools.SectionStates | app/tools/document.py:295-299 | one state per mandatory section, present exactly when its lowercased title exists |
| DocumentTools.CheckSections | app/tools/document.py:295-301 | the status list, and the missing sections in mandatory order |
| DocumentTools.NoProposalInDeadlineWarning | app/tools/document.py:305-312 | the missing-deadline warning does not mention "No proposal" |
| DocumentTools.NoProposalInRequirementsWarning | app/tools/document.py:307-312 | the missing-requirements warning does not mention "No proposal" |
| DocumentTools.NoProposalInProposalsWarning | app/tools/document.py:309-312 | the no-proposal warning does mention it |
| DocumentTools.CompleteIff | app/tools/document.py:303-312 | complete exactly when nothing is missing and a proposal exists |
| DocumentTools.ValidateDocumentCompleteness | app/tools/document.py:255-322 | a missing RFP fails; otherwise the report carries the RFP's title, the present/missing state of each of the 7 mandatory sections against the proposals' titles, the missing ones in order, 7 − missing completed, the warnings, and a completeness flag that holds exactly when nothing is missing and a proposal exists |
| PartnerTools.NdaChecklistSpec | app/tools/partners.py:96-160 | a missing RFP fails; otherwise eight pending items in order, the partner created when absent, its NDA status set to "sent" |
| PartnerTools.ClassifyPriority | app/tools/partners.py:204-216 | each of pricing, CV, certification, reference letter and technical input is chosen exactly when its keyword group matches and no earlier group does (so reference beats technical); "document" when none matches |
| PartnerTools.ClassifyIgnoresCase | app/tools/partners.py:204 | an item and its lowercase form get the same type |
| PartnerTools.QuoteIsPricing | app/tools/partners.py:205-206 | an item mentioning "quote" is pricing, whatever else it mentions |
| PartnerTools.TrackSpec | app/tools/partners.py:180-241 | the last write creates the deliverable for the reply's partner and proposal with the item, its classified type, the due date and status "requested"; the reply carries the new deliverable id and the deadline; an existing partner is reused and none is created, else the partner is created first; it attaches to the first proposal, and a technical proposal is created only when none exists |
| TechnicalTools.SectionId | app/tools/technical.py:214 | the id is the name lowercased with spaces turned into underscores |
| TechnicalTools.SectionIdNormal | app/tools/technical.py:214 | an id has no spaces and is its own id |
| TechnicalTools.TemplateKey | app/tools/technical.py:181 | a known section name gets its template, and "general" exactly for unknown names |
| TechnicalTools.DefaultTemplates | app/tools/technical.py:19-44 | the names with a template of their own are exactly the nine default sections |
| TechnicalTools.SectionList | app/tools/technical.py:268 | a missing or empty list means the nine defaults, otherwise the list given |
| TechnicalTools.WordsCount | app/tools/technical.py:238 | the word count is the number of places where a non-space run starts |
| TechnicalTools.WordsConcat | app/tools/technical.py:238 | the words put back together are the text without its whitespace |
| TechnicalTools.UpsertShape | app/tools/technical.py:217-234 | the first section with the id is replaced in place with its index as order, all else unchanged; otherwise one section is appended with the old length as order |
| TechnicalTools.UpsertFound | app/tools/technical.py:217-234 | afterwards the section is found under its id with the new title and content |
| TechnicalTools.UpsertIdempotent | app/tools/technical.py:217-234 | writing the same section twice is the same as writing it once |
| TechnicalTools.UpsertSection | app/tools/technical.py:216-234 | the loop with its `updated` flag computes the upsert |
| TechnicalTools.WriteTechnicalSection | app/tools/technical.py:157-246 | a missing RFP fails; otherwise the stripped text, its word count, and the section upserted into the first technical proposal (a new one when none exists) |
| DocWriter.Document.constructor | app/services/docwriter.py:39-61 | a new document has no blocks and no footer |
| DocWriter.Document.Add | app/services/docwriter.py:66-104 | a block is appended and nothing else changes |
| DocWriter.Document.SetFooter | app/services/docwriter.py:196-203 | the footer is set and the blocks are unchanged |
| DocWriter.AddCoverPage | app/services/docwriter.py:63-104 | the cover (title, then client, company and RFP reference when given) and a page break are appended |
| DocWriter.LStripHeading | app/services/docwriter.py:148-150 | the leading '#' and ' ' characters are removed and nothing else |
| DocWriter.ChunkBlock | app/services/docwriter.py:147-152 | "### " gives a level-3 heading, else "## " a level-2 heading, else a paragraph of the text |
| DocWriter.ChunkBlocksShape | app/services/docwriter.py:143-152 | at most one block per chunk, each a level-2 or level-3 heading or a paragraph |
| DocWriter.ContentSingleBlock | app/services/docwriter.py:143-146 | a non-blank text with no blank line is one block |
| DocWriter.AddSectionContent | app/services/docwriter.py:141-152 | the content's blocks are appended, blank paragraphs skipped |
| DocWriter.PartitionSections | app/services/docwriter.py:172-178 | front matter and body are the sections filtered by title |
| DocWriter.PartitionSplits | app/services/docwriter.py:139-178 | every section lands in exactly one part, and the front matter holds exactly the "Company Profile" and "Past Successful Projects" sections |
| DocWriter.AddSection | app/services/docwriter.py:182-193 | a section's heading and content, and a page break in the front matter |
| DocWriter.AddSections | app/services/docwriter.py:182-193 | each section's blocks are appended in order |
| DocWriter.AddToc | app/services/docwriter.py:106-113 | the contents heading, its note and a page break are appended |
| DocWriter.CreateTechnicalProposal | app/services/docwriter.py:154-209 | the document is the cover, front matter, contents and body, with the company footer |
| DocWriter.SectionOutline | app/services/docwriter.py:182-193 | the level-1 headings of the sections are their titles, in order |
| DocWriter.TechnicalOutline | app/services/docwriter.py:168-193 | the outline is the front-matter titles, then "Table of Contents", then the body titles |
| DocWriter.ComplianceRows | app/services/docwriter.py:229-234 | one row per (requirement, response) pair, numbered from 1, status "Compliant" by default |
| DocWriter.CreateComplianceMatrix | app/services/docwriter.py:215-249 | a heading, the time stamp, and a table of min(requirements, responses) rows; row i is numbered i + 1 and carries the i-th requirement's text (else its string form), the i-th response's status (default "Compliant") and its narrative (default empty) |
| DocWriter.GroupByCategory | app/services/docwriter.py:266-269 | the loop builds the category grouping |
| DocWriter.GroupKeys | app/services/docwriter.py:266-269 | the groups are exactly the categories ("General" by default), in first-seen order |
| DocWriter.GroupOf | app/services/docwriter.py:268-269 | a category's group is exactly its items in their original order |
| DocWriter.GroupMembers | app/services/docwriter.py:266-269 | every group holds exactly its items in their original order |
| DocWriter.GrandTotalIsSum | app/services/docwriter.py:282-303 | the sum of the category subtotals is the sum of all line totals |
| DocWriter.PricingRows | app/services/docwriter.py:282-291 | one row per item and the subtotal of their line totals, a missing total counting as 0 |
| DocWriter.FinancialGrandTotal | app/services/docwriter.py:305-308 | the stated grand total is the sum of all line totals |
| DocWriter.AddCategory | app/services/docwriter.py:274-302 | a category heading and its table with the subtotal; the footer is unchanged |
| DocWriter.AddCategories | app/services/docwriter.py:274-303 | one heading and table per category in first-seen order; the grand total adds the subtotals; the footer is unchanged |
| DocWriter.AddTerms | app/services/docwriter.py:313-323 | the terms heading and the five terms, the first naming the currency; the footer is unchanged |
| DocWriter.CreateFinancialProposal | app/services/docwriter.py:255-329 | the document is the cover, pricing summary, grand total and terms, and it has no footer |
| DocWriter.Worksheet.constructor | app/services/docwriter.py:337-338 | a new sheet is empty |
| DocWriter.Worksheet.Set | app/services/docwriter.py:386 | one cell is set and nothing else changes |
| DocWriter.RowCellsAt | app/services/docwriter.py:385-386 | a row's values fill columns 1 to n of that row and nothing else |
| DocWriter.WriteRow | app/services/docwriter.py:385-390 | the row's cells are written |
| DocWriter.WriteItems | app/services/docwriter.py:372-391 | the item rows are written from row 4, and the next row number is 4 + the number of items |
| DocWriter.CreateBomSpreadsheet | app/services/docwriter.py:335-409 | the sheet holds the title, headers, item rows and grand total |
| DocWriter.DataCellsKeys | app/services/docwriter.py:372-391 | the data cells are exactly columns 1 to 9 of rows 4 to 3 + the number of items |
| DocWriter.SheetItemCell | app/services/docwriter.py:372-391 | item i fills columns 1 to 9 of row 4 + i |
| DocWriter.SheetBlankRow | app/services/docwriter.py:391-395 | the row after the last item is empty |
| DocWriter.SheetGrandTotal | app/services/docwriter.py:393-396 | the row after that holds "Grand Total:" and the sum of the line totals |
| TechnicalTools.FirstWithId | app/tools/technical.py:218-227 | the index of the first section stored under the id: it has the id and no earlier one does, or none has it |
| Text.Lower | app/tools/partners.py:204 | lowercasing keeps the length and maps each character |
| Text.Strip | app/services/docwriter.py:144 | the stripped text is no longer than the input and has no white space at either end |
| Text.StripSpan | app/services/docwriter.py:144 | the stripped text is the contiguous run of the input left after cutting leading and trailing white space: every character before and after it is white space, so only a blank input strips to empty |
| Text.SplitPiecesClear | app/services/docwriter.py:143 | no piece of a split contains the separator |
| Text.JoinSplit | app/tools/indexing.py:174-176 | joining the pieces of a split with the same separator gives back the text |
| Text.SplitJoin | app/tools/indexing.py:174-176 | splitting a join of pieces free of a one-character separator gives back the pieces |
| Auth.SplitOnce | app/middleware/auth.py:30 | `split(sep, 1)`: two parts around the first separator exactly when it occurs, else the text alone |
| Auth.Authenticate | app/middleware/auth.py:23-35 | acceptance returns true; a missing-token error exactly when the header lacks "Bearer " |
| Auth.BearerToken | app/middleware/auth.py:30 | the token is everything after "Bearer ", spaces included |
| Auth.AuthenticateAccepts | app/middleware/auth.py:25-35 | accepted exactly when the header is "Bearer " followed by the expected key |
| Auth.AuthenticateRejects | app/middleware/auth.py:25-33 | a wrong token is invalid; a lowercase prefix or a missing header is a missing token |

## Left out

- `draft_partner_brief` (app/tools/partners.py:26) is not modelled: it is prompt assembly around an LLM call.
- `build_full_technical_proposal`: only its section list is modelled. The loop that calls the writer is left out, and so is the update of the output path.
- `generate_architecture_description` and `write_compliance_narrative` are left out: they are prompt assembly around LLM calls.
- `parse_tender_rfp`: only the JSON fence fallback is modelled. The store defaults and the copy of the file are left out.
- The `_summary.md` file that `index_past_proposal` writes is left out.
- `_load_context_docs` and `_load_company_profile` are left out: they read files.
- The SQL of the store, FTS5/BM25 ranking, embeddings and vector distance are left out. Ranked lists come from oracle functions. The index-store methods are not in app/db/database.py, so `IndexStore` is a map keyed by folder name.
- Python floats are modelled as exact `real`s, so rounding of near-equal scores and sums is not modelled.
- The `output_format` branch that returns JSON text is left out.
- Logging, async/await and `datetime.now()` are left out. The clock is a parameter (microseconds since the epoch), and dates are day numbers parsed by an oracle.
- The `strftime` text of milestone dates is left out.
- python-docx and openpyxl styling (fonts, colours, widths, merged cells, number formats) is left out, and so is the saving of files.
- Text.Lower: lowercases ASCII letters only; Python's `str.lower` also maps other Unicode letters.
- DocWriter.AddCoverPage: the date line of the cover (month and year) is not modelled.
- ProposalIngestion.IndexPastProposal: when `json.loads` returns something other than an object, the model does not follow it. The decoder oracle returns the extracted fields or `None`.
- ProposalIngestion.IndexPastProposal: the model assumes `upsert_proposal_vector` reports success whenever it is called. An exception while embedding is modelled as the embedder returning `None`.
- DocumentTools.ComplianceResponses: `llm.generate_section` is called without a `try` (app/tools/document.py:148-154); an exception there aborts the tool, and the model's generator always returns a reply, so that failure path is not represented.
- TechnicalTools.WriteTechnicalSection: `llm.generate_section` is called without a `try` (app/tools/technical.py:195-197); an exception there aborts the tool before any store write, and the model's generator always returns a reply, so that failure path is not represented.
- ProposalIngestion.IndexPastProposal: `read_text` on a `.md` or `.txt` file (app/tools/indexing.py:84-85) is not guarded; the model's reader oracle always returns text, so a read error that aborts the tool is not modelled.
- ProposalIngestion.IndexPastProposal: an exception raised by the language-model call (app/tools/indexing.py:166-168) propagates out of the tool; the model's oracle always returns a reply, so that failure path is not modelled.
- ProposalIngestion.IndexPastProposal: `float(...)` on `total_price` (app/tools/indexing.py:218) raises when the field is `null` or a non-numeric string; the model's decoded `totalPrice` is already a number or absent, so that failure is not modelled.
- ProposalIngestion.IndexPastProposal: a field present in the reply with value `null` is stored as `None` by the source, since `.get` returns the default only for a missing key; the model treats a `null` field as absent and stores the default.
- ProposalListing.ListIndexedProposals: `r.get(..., "unknown")` is modelled as a missing key counting as "unknown". A key that is present but set to `None` is not distinguished.
- DocWriter.CreateFinancialProposal: only `total_cost` distinguishes a `None` value from a missing key. For the other BOM fields, an explicit `None` is not modelled.
- PartnerTools.NdaChecklistSpec: an RFP whose `country` is stored as `None` would print "None". The model treats it like a missing country, which prints "OM".
- `get_proposals_for_rfp` always returns a list (app/db/database.py:145-157), so the branches of the tools that handle a dict result are not modelled.
- The header lookup of `auth_middleware` is case-insensitive in the web framework. The model receives the header value directly, as an `Option`.

=== FILE: auth.dfy ===
/**
 * The bearer-token check of the HTTP transport (`auth_middleware`): the `Authorization` header
 * must start with "Bearer " and the token after the first space must be the configured key.
 * The two `PermissionError`s the check raises are the two `AuthError`s.
 */
module Auth {
  import opened Wrappers
  import opened Text

  const BearerPrefix: string := "Bearer "

  datatype AuthError =
    | MissingBearerToken   // no header, or one without the "Bearer " prefix
    | InvalidBearerToken   // the token is not the expected key

  /** `s.split(sep, 1)`: the text before the first occurrence of `sep` and the text after it, or
   *  `s` alone when `sep` does not occur. */
  function SplitOnce(s: string, sep: string): (parts: seq<string>)
    requires |sep| > 0
    ensures 1 <= |parts| <= 2
    ensures |parts| == 2 <==> Contains(s, sep)
    ensures |parts| == 1 ==> parts[0] == s
    ensures |parts| == 2 ==> parts[0] + sep + parts[1] == s && !Contains(parts[0], sep)
  {
    match Find(s, sep)
    case None => [s]
    case Some(i) =>
      NoOccurrenceInPrefix(s, sep, i);
      assert s == s[..i] + sep + s[i + |sep|..];
      [s[..i], s[i + |sep|..]]
  }

  /** A header with the prefix has a space at index 6, so the split has two parts. */
  lemma PrefixHasSpace(h: string)
    requires StartsWith(h, BearerPrefix)
    ensures OccursAt(h, " ", 6) && Contains(h, " ")
  {
    assert h[6..7] == h[..7][6..7];
    ContainsAt(h, " ", 6);
  }

  /** `auth_middleware`: `Ok(true)` for an accepted request, otherwise the error it raises. */
  function Authenticate(header: Option<string>, expectedKey: string): (r: Result<bool, AuthError>)
    ensures r.Ok? ==> r.value
    ensures r == Err(MissingBearerToken) <==> !StartsWith(header.GetOr(""), BearerPrefix)
  {
    var h := header.GetOr("");
    if !StartsWith(h, BearerPrefix) then Err(MissingBearerToken)
    else
      PrefixHasSpace(h);
      var token := SplitOnce(h, " ")[1];
      if token != expectedKey then Err(InvalidBearerToken) else Ok(true)
  }

  /** The token is everything after "Bearer ", spaces included. */
  lemma BearerToken(h: string)
    requires StartsWith(h, BearerPrefix)
    ensures SplitOnce(h, " ") == ["Bearer", h[7..]]
  {
    PrefixHasSpace(h);
    forall j: nat | j < 6 ensures !OccursAt(h, " ", j) {
      assert h[j] == BearerPrefix[j];
      assert h[j..j + 1][0] == h[j];
    }
    assert Find(h, " ") == Some(6);
    assert h[..6] == h[..7][..6] == BearerPrefix[..6] == "Bearer";
  }

  /** A request is accepted exactly when its header is "Bearer " followed by the expected key;
   *  a missing header counts as empty and is refused. */
  lemma AuthenticateAccepts(header: Option<string>, expectedKey: string)
    ensures Authenticate(header, expectedKey).Ok? <==> header == Some(BearerPrefix + expectedKey)
  {
    var h := header.GetOr("");
    if StartsWith(h, BearerPrefix) {
      BearerToken(h);
      assert h == BearerPrefix + h[7..];
    }
    if header == Some(BearerPrefix + expectedKey) {
      assert h[..7] == BearerPrefix;
      BearerToken(h);
      assert h[7..] == expectedKey;
    }
  }

  /** A header with the right prefix but another token is refused as invalid; the prefix test is
   *  case-sensitive. */
  lemma AuthenticateRejects(header: Option<string>, expectedKey: string)
    ensures StartsWith(header.GetOr(""), BearerPrefix) && header.GetOr("")[7..] != expectedKey
            ==> Authenticate(header, expectedKey) == Err(InvalidBearerToken)
    ensures Authenticate(Some("bearer " + expectedKey), expectedKey) == Err(MissingBearerToken)
    ensures Authenticate(None, expectedKey) == Err(MissingBearerToken)
  {
    var h := header.GetOr("");
    if StartsWith(h, BearerPrefix) {
      BearerToken(h);
    }
    var lower := "bearer " + expectedKey;
    assert lower[0] == 'b';
  }
}

=== FILE: collections.dfy ===
/** Sequence and map helpers that mirror Python list and dict idioms used by the tools. */
module Collections {

  function Min(a: int, b: int): int { if a <= b then a else b }
  function Max(a: int, b: int): int { if a >= b then a else b }

  /** Python's `xs[:n]` for any integer `n`: a negative `n` counts from the end. */
  function SliceTo<T>(xs: seq<T>, n: int): (r: seq<T>)
    ensures n >= 0 ==> |r| == Min(n, |xs|)
    ensures n < 0 ==> |r| == Max(0, |xs| + n)
    ensures r == xs[..|r|]
  {
    if n >= 0 then (if n <= |xs| then xs[..n] else xs)
    else if -n <= |xs| then xs[..|xs| + n]
    else []
  }

  /** No element occurs twice. */
  predicate NoDups<T(==)>(xs: seq<T>) {
    forall i, j :: 0 <= i < j < |xs| ==> xs[i] != xs[j]
  }

  lemma NoDupsAppend<T>(xs: seq<T>, x: T)
    requires NoDups(xs) && x !in xs
    ensures NoDups(xs + [x])
  {
  }

  lemma NoDupsCount<T>(xs: seq<T>, x: T)
    requires NoDups(xs)
    ensures multiset(xs)[x] == if x in xs then 1 else 0
  {
    if xs != [] {
      var init := xs[..|xs| - 1];
      assert xs == init + [xs[|xs| - 1]];
      assert NoDups(init);
      NoDupsCount(init, x);
    }
  }

  /**
   * The distinct elements of `xs` in order of first occurrence: the key order of a
   * Python dict filled by inserting the elements of `xs` one by one.
   */
  function Distinct<T(==,!new)>(xs: seq<T>): (d: seq<T>)
    ensures forall x :: x in d <==> x in xs
    ensures NoDups(d)
  {
    if xs == [] then []
    else
      var d := Distinct(xs[..|xs| - 1]);
      var x := xs[|xs| - 1];
      assert forall y :: y in xs <==> y in xs[..|xs| - 1] || y == x by {
        assert xs == xs[..|xs| - 1] + [x];
      }
      if x in d then d else NoDupsAppend(d, x); d + [x]
  }

  lemma DistinctAppend<T(!new)>(xs: seq<T>, x: T)
    ensures Distinct(xs + [x]) == if x in xs then Distinct(xs) else Distinct(xs) + [x]
  {
    assert (xs + [x])[..|xs|] == xs;
  }

  /** The elements of `xs` that satisfy `p`, in order (a list comprehension with an `if`). */
  function Filter<T(!new)>(p: T -> bool, xs: seq<T>): (r: seq<T>)
    ensures |r| <= |xs|
    ensures forall x :: x in r <==> x in xs && p(x)
  {
    if xs == [] then []
    else
      var x := xs[|xs| - 1];
      assert forall y :: y in xs <==> y in xs[..|xs| - 1] || y == x by {
        assert xs == xs[..|xs| - 1] + [x];
      }
      Filter(p, xs[..|xs| - 1]) + if p(x) then [x] else []
  }

  lemma {:induction false} FilterAppend<T(!new)>(p: T -> bool, a: seq<T>, b: seq<T>)
    ensures Filter(p, a + b) == Filter(p, a) + Filter(p, b)
    decreases |b|
  {
    if b != [] {
      var b' := b[..|b| - 1];
      assert (a + b)[..|a + b| - 1] == a + b';
      FilterAppend(p, a, b');
    } else {
      assert a + b == a;
    }
  }

  lemma FilterSnoc<T(!new)>(p: T -> bool, xs: seq<T>, x: T)
    ensures Filter(p, xs + [x]) == Filter(p, xs) + if p(x) then [x] else []
  {
    assert (xs + [x])[..|xs|] == xs;
  }

  lemma {:induction false} FilterNone<T(!new)>(p: T -> bool, xs: seq<T>)
    requires forall i :: 0 <= i < |xs| ==> !p(xs[i])
    ensures Filter(p, xs) == []
  {
    if xs != [] {
      FilterNone(p, xs[..|xs| - 1]);
    }
  }

  /** One more element of a prefix through `Filter`. */
  lemma FilterStep<T(!new)>(p: T -> bool, xs: seq<T>, k: nat)
    requires k < |xs|
    ensures Filter(p, xs[..k + 1]) == Filter(p, xs[..k]) + if p(xs[k]) then [xs[k]] else []
  {
    assert xs[..k + 1][..k] == xs[..k];
  }

  lemma FilterSingle<T(!new)>(p: T -> bool, x: T)
    ensures Filter(p, [x]) == if p(x) then [x] else []
  {
    assert [x][..0] == [];
  }

  /** A non-empty list is its front followed by its last element. */
  lemma Snoc<T>(xs: seq<T>)
    requires xs != []
    ensures xs[..|xs| - 1] + [xs[|xs| - 1]] == xs
  {
  }

  lemma AppendAssoc<T>(a: seq<T>, b: seq<T>, c: seq<T>)
    ensures (a + b) + c == a + (b + c)
  {
  }

  lemma MergeUpdate<K, V>(a: map<K, V>, b: map<K, V>, k: K, v: V)
    ensures (a + b)[k := v] == a + b[k := v]
  {
  }

  /** Two updates in a row are a merge with the two-entry map. */
  lemma MergePair<K, V>(m: map<K, V>, k1: K, v1: V, k2: K, v2: V)
    ensures m[k1 := v1][k2 := v2] == m + map[k1 := v1, k2 := v2]
  {
  }

  lemma MergeAssoc<K, V>(a: map<K, V>, b: map<K, V>, c: map<K, V>)
    ensures (a + b) + c == a + (b + c)
  {
  }

  /** Splitting a list by a predicate and its negation loses and invents nothing. */
  lemma {:induction false} FilterPartition<T(!new)>(p: T -> bool, q: T -> bool, xs: seq<T>)
    requires forall x :: q(x) == !p(x)
    ensures multiset(Filter(p, xs)) + multiset(Filter(q, xs)) == multiset(xs)
  {
    if xs != [] {
      var init, x := xs[..|xs| - 1], xs[|xs| - 1];
      FilterPartition(p, q, init);
      var fp, fq := Filter(p, init), Filter(q, init);
      assert Filter(p, xs) == fp + if p(x) then [x] else [];
      assert Filter(q, xs) == fq + if q(x) then [x] else [];
      Snoc(xs);
      assert multiset(xs) == multiset(init) + multiset{x};
    }
  }

  /** A list whose every element satisfies `p` passes through `Filter` unchanged. */
  lemma {:induction false} FilterAll<T(!new)>(p: T -> bool, xs: seq<T>)
    requires forall i :: 0 <= i < |xs| ==> p(xs[i])
    ensures Filter(p, xs) == xs
  {
    if xs != [] {
      var init := xs[..|xs| - 1];
      FilterAll(p, init);
      Snoc(xs);
    }
  }

  /** Multiplicity of every key: the dict built by `d[k] = d.get(k, 0) + 1` over `keys`. */
  function Tally<K(==)>(keys: seq<K>): (m: map<K, nat>)
    ensures m.Keys == set k | k in keys
    ensures forall k :: k in m ==> m[k] == multiset(keys)[k]
  {
    if keys == [] then map[]
    else
      var init := keys[..|keys| - 1];
      var k := keys[|keys| - 1];
      assert keys == init + [k];
      var m := Tally(init);
      m[k := (if k in m then m[k] else 0) + 1]
  }

  /** `Tally` counts every key, and only keys that occur. */
  lemma TallyCounts<K>(keys: seq<K>, k: K)
    ensures (k in Tally(keys)) <==> (k in keys)
    ensures k in keys ==> Tally(keys)[k] == multiset(keys)[k] && Tally(keys)[k] >= 1
  {
  }
}

=== FILE: doc_writer.dfy ===
/**
 * The document writer: the technical proposal (cover, front matter, table of contents, body),
 * the compliance matrix, the financial proposal (items grouped by category with subtotals and a
 * grand total) and the bill-of-materials spreadsheet.
 *
 * A word-processing document is a `Document` whose `blocks` grow as the writer adds headings,
 * paragraphs, tables and page breaks; a spreadsheet is a `Worksheet` whose `cells` map
 * (row, column) to a value. Fonts, colours, widths and the saving of files are not modelled;
 * the time stamps in file names and captions are parameters.
 */
module DocWriter {
  import opened Wrappers
  import opened Collections
  import opened Text

  // ---------------------------------------------------------------------------
  // Documents
  // ---------------------------------------------------------------------------

  /** One row of the compliance matrix. */
  datatype MatrixRow = MatrixRow(number: nat, requirement: string, status: string, response: string)

  /** One row of a pricing table: item name, quantity, unit cost, margin and line total. */
  datatype PricingRow = PricingRow(itemName: string, quantity: real, unitCost: real, marginPct: real, total: real)

  datatype Block =
    | Cover(lines: seq<string>)
    | Heading(text: string, level: nat)
    | Paragraph(text: string)
    | Bullet(text: string)
    | PageBreak
    | ComplianceTable(matrix: seq<MatrixRow>)
    | PricingTable(category: string, rows: seq<PricingRow>, subtotal: real)
    | GrandTotal(currency: string, amount: real)

  /** A document being written: its blocks in order and the footer text. */
  class Document {
    var blocks: seq<Block>
    var footer: string

    constructor()
      ensures blocks == [] && footer == ""
    {
      blocks := [];
      footer := "";
    }

    method Add(b: Block)
      modifies this
      ensures blocks == old(blocks) + [b] && footer == old(footer)
    {
      blocks := blocks + [b];
    }

    method SetFooter(text: string)
      modifies this
      ensures footer == text && blocks == old(blocks)
    {
      footer := text;
    }
  }

  /** What the caller says about the document; a key it leaves out is `None`. */
  datatype Metadata = Metadata(
    client: Option<string>,
    company: Option<string>,
    rfpNumber: Option<string>,
    rfpId: Option<string>,
    title: Option<string>,
    currency: Option<string>)

  /** A value Python treats as true: present and non-empty. */
  predicate Truthy(v: Option<string>) { v.Some? && v.value != [] }

  /** The cover page lines: the title, then client, company and RFP reference when given (the
   *  date line is not modelled). */
  function CoverLines(title: string, meta: Metadata): seq<string> {
    [title]
    + (if Truthy(meta.client) then ["Prepared for: " + meta.client.value] else [])
    + (if Truthy(meta.company) then ["Prepared by: " + meta.company.value] else [])
    + (if Truthy(meta.rfpNumber) then ["RFP Reference: " + meta.rfpNumber.value] else [])
  }

  method AddCoverPage(doc: Document, title: string, meta: Metadata)
    modifies doc
    ensures doc.blocks == old(doc.blocks) + [Cover(CoverLines(title, meta)), PageBreak]
    ensures doc.footer == old(doc.footer)
  {
    doc.Add(Cover(CoverLines(title, meta)));
    doc.Add(PageBreak);
  }

  /** The file a document is saved to, in the output directory. */
  function OutputPath(outputDir: string, kind: string, meta: Metadata, stamp: string, ext: string): string {
    outputDir + "/" + kind + "_" + meta.rfpId.GetOr("draft") + "_" + stamp + ext
  }

  // ---------------------------------------------------------------------------
  // Section content: paragraphs and markdown headings
  // ---------------------------------------------------------------------------

  /** `lstrip("# ")`: drops the leading '#' and ' ' characters. */
  function LStripHeading(s: string): (r: string)
    ensures |r| <= |s| && r == s[|s| - |r|..]
    ensures r == [] || (r[0] != '#' && r[0] != ' ')
    ensures forall i :: 0 <= i < |s| - |r| ==> s[i] == '#' || s[i] == ' '
  {
    if s != [] && (s[0] == '#' || s[0] == ' ') then LStripHeading(s[1..]) else s
  }

  /** The block a stripped, non-empty paragraph becomes. */
  function ChunkBlock(t: string): (b: Block)
    ensures b.Heading? || b.Paragraph?
    ensures b.Heading? <==> StartsWith(t, "## ") || StartsWith(t, "### ")
    ensures b.Heading? ==> (b.level == 3 <==> StartsWith(t, "### ")) && (b.level == 2 || b.level == 3)
    ensures b.Heading? ==> b.text == LStripHeading(t)
    ensures b.Paragraph? ==> b.text == t
  {
    if StartsWith(t, "### ") then Heading(LStripHeading(t), 3)
    else if StartsWith(t, "## ") then Heading(LStripHeading(t), 2)
    else Paragraph(t)
  }

  /** The blocks one chunk adds: none when it is blank. */
  function ChunkAdds(chunk: string): seq<Block> {
    var t := Strip(chunk);
    if t == [] then [] else [ChunkBlock(t)]
  }

  /** The blocks of a list of chunks: each chunk stripped, blank ones skipped. */
  function ChunkBlocks(chunks: seq<string>): seq<Block> {
    if chunks == [] then []
    else
      ChunkBlocks(chunks[..|chunks| - 1]) + ChunkAdds(chunks[|chunks| - 1])
  }

  const ParagraphBreak: string := "\n\n"

  /** The blocks of a section's content: its paragraphs are separated by blank lines. */
  function ContentBlocks(content: string): seq<Block> {
    ChunkBlocks(Split(content, ParagraphBreak))
  }

  /** The shape of a block that section content yields. */
  predicate ContentShaped(b: Block) {
    || (b.Heading? && (b.level == 2 || b.level == 3))
    || (b.Paragraph? && b.text != [] && !IsSpace(b.text[0]) && !IsSpace(b.text[|b.text| - 1]))
  }

  lemma ChunkAddsShape(chunk: string)
    ensures |ChunkAdds(chunk)| <= 1
    ensures forall b :: b in ChunkAdds(chunk) ==> ContentShaped(b)
  {
    var t := Strip(chunk);
    if t != [] {
      var b := ChunkBlock(t);
      assert ChunkAdds(chunk) == [b];
      if b.Paragraph? {
        assert b.text == t;
      }
      assert ContentShaped(b);
    }
  }

  /** One block per non-blank chunk: a level-2 or level-3 heading or a non-empty paragraph that
   *  neither starts nor ends with whitespace. */
  lemma {:induction false} ChunkBlocksShape(chunks: seq<string>)
    ensures |ChunkBlocks(chunks)| <= |chunks|
    ensures forall b :: b in ChunkBlocks(chunks) ==> ContentShaped(b)
  {
    if chunks != [] {
      ChunkBlocksShape(chunks[..|chunks| - 1]);
      ChunkAddsShape(chunks[|chunks| - 1]);
    }
  }

  /** A non-blank text with no blank line in it is one block. */
  lemma ContentSingleBlock(content: string)
    requires !Contains(content, ParagraphBreak) && Strip(content) != []
    ensures ContentBlocks(content) == [ChunkBlock(Strip(content))]
  {
    SplitSingle(content, ParagraphBreak);
    JoinSplit(content, ParagraphBreak);
    var parts := Split(content, ParagraphBreak);
    assert parts == [content];
    assert parts[..|parts| - 1] == [];
    assert ChunkBlocks(parts) == ChunkBlocks([]) + ChunkAdds(content);
  }

  /** One iteration of `_add_section_content`: strip, skip when blank, classify, add. */
  method AddChunk(doc: Document, chunk: string)
    modifies doc
    ensures doc.blocks == old(doc.blocks) + ChunkAdds(chunk)
    ensures doc.footer == old(doc.footer)
  {
    var t := Strip(chunk);
    if t != [] {
      if StartsWith(t, "### ") {
        doc.Add(Heading(LStripHeading(t), 3));
      } else if StartsWith(t, "## ") {
        doc.Add(Heading(LStripHeading(t), 2));
      } else {
        doc.Add(Paragraph(t));
      }
    }
  }

  lemma ChunkBlocksStep(chunks: seq<string>, k: nat)
    requires k < |chunks|
    ensures ChunkBlocks(chunks[..k + 1]) == ChunkBlocks(chunks[..k]) + ChunkAdds(chunks[k])
  {
    assert chunks[..k + 1][..k] == chunks[..k];
  }

  /** `_add_section_content`. */
  method AddSectionContent(doc: Document, content: string)
    modifies doc
    ensures doc.blocks == old(doc.blocks) + ContentBlocks(content)
    ensures doc.footer == old(doc.footer)
  {
    var chunks := Split(content, ParagraphBreak);
    for k := 0 to |chunks|
      invariant doc.blocks == old(doc.blocks) + ChunkBlocks(chunks[..k])
      invariant doc.footer == old(doc.footer)
    {
      ChunkBlocksStep(chunks, k);
      AddChunk(doc, chunks[k]);
      AppendAssoc(old(doc.blocks), ChunkBlocks(chunks[..k]), ChunkAdds(chunks[k]));
    }
    assert chunks[..|chunks|] == chunks;
  }

  // ---------------------------------------------------------------------------
  // Technical proposal
  // ---------------------------------------------------------------------------

  datatype DocSection = DocSection(title: string, content: string)

  /** The sections placed before the table of contents. */
  predicate IsFrontMatter(s: DocSection) {
    s.title == "Company Profile" || s.title == "Past Successful Projects"
  }

  predicate IsBody(s: DocSection) { !IsFrontMatter(s) }

  /** The loop that sorts the sections into front matter and body. */
  method PartitionSections(sections: seq<DocSection>) returns (front: seq<DocSection>, body: seq<DocSection>)
    ensures front == Filter(IsFrontMatter, sections)
    ensures body == Filter(IsBody, sections)
  {
    front, body := [], [];
    for k := 0 to |sections|
      invariant front == Filter(IsFrontMatter, sections[..k])
      invariant body == Filter(IsBody, sections[..k])
    {
      assert sections[..k + 1] == sections[..k] + [sections[k]];
      FilterSnoc(IsFrontMatter, sections[..k], sections[k]);
      FilterSnoc(IsBody, sections[..k], sections[k]);
      if IsFrontMatter(sections[k]) {
        front := front + [sections[k]];
      } else {
        body := body + [sections[k]];
      }
    }
    assert sections[..|sections|] == sections;
  }

  /** Front matter and body split the sections: every section lands in exactly one of them, and
   *  the front matter holds exactly the "Company Profile" and "Past Successful Projects" ones. */
  lemma PartitionSplits(sections: seq<DocSection>)
    ensures multiset(Filter(IsFrontMatter, sections)) + multiset(Filter(IsBody, sections)) == multiset(sections)
    ensures forall s :: s in Filter(IsFrontMatter, sections) <==>
              s in sections && (s.title == "Company Profile" || s.title == "Past Successful Projects")
  {
    FilterPartition(IsFrontMatter, IsBody, sections);
  }

  /** The blocks of some sections: a level-1 heading and the content of each, front-matter
   *  sections followed by a page break. */
  function SectionBlocks(sections: seq<DocSection>, pageBreaks: bool): seq<Block> {
    if sections == [] then []
    else
      var s := sections[|sections| - 1];
      SectionBlocks(sections[..|sections| - 1], pageBreaks) + SectionOf(s, pageBreaks)
  }

  /** One section's blocks. */
  function SectionOf(s: DocSection, pageBreak: bool): seq<Block> {
    [Heading(s.title, 1)] + ContentBlocks(s.content) + (if pageBreak then [PageBreak] else [])
  }

  const TocNote: string := "[Table of Contents — update field after opening in Word]"

  const TocBlocks: seq<Block> := [Heading("Table of Contents", 1), Paragraph(TocNote), PageBreak]

  /** The whole technical proposal. */
  function TechnicalBlocks(title: string, sections: seq<DocSection>, meta: Metadata): seq<Block> {
    [Cover(CoverLines(title, meta)), PageBreak]
    + SectionBlocks(Filter(IsFrontMatter, sections), true)
    + TocBlocks
    + SectionBlocks(Filter(IsBody, sections), false)
  }

  /** One iteration of the section loops: the heading, the content, and the page break. */
  method AddSection(doc: Document, s: DocSection, pageBreak: bool)
    modifies doc
    ensures doc.blocks == old(doc.blocks) + SectionOf(s, pageBreak)
    ensures doc.footer == old(doc.footer)
  {
    ghost var heading := [Heading(s.title, 1)];
    ghost var content := ContentBlocks(s.content);
    doc.Add(Heading(s.title, 1));
    AddSectionContent(doc, s.content);
    AppendAssoc(old(doc.blocks), heading, content);
    if pageBreak {
      doc.Add(PageBreak);
      AppendAssoc(old(doc.blocks), heading + content, [PageBreak]);
    } else {
      assert heading + content + [] == heading + content;
    }
  }

  lemma SectionBlocksStep(sections: seq<DocSection>, pageBreaks: bool, k: nat)
    requires k < |sections|
    ensures SectionBlocks(sections[..k + 1], pageBreaks)
            == SectionBlocks(sections[..k], pageBreaks) + SectionOf(sections[k], pageBreaks)
  {
    assert sections[..k + 1][..k] == sections[..k];
  }

  /** The section loops of `create_technical_proposal`. */
  method AddSections(doc: Document, sections: seq<DocSection>, pageBreaks: bool)
    modifies doc
    ensures doc.blocks == old(doc.blocks) + SectionBlocks(sections, pageBreaks)
    ensures doc.footer == old(doc.footer)
  {
    for k := 0 to |sections|
      invariant doc.blocks == old(doc.blocks) + SectionBlocks(sections[..k], pageBreaks)
      invariant doc.footer == old(doc.footer)
    {
      SectionBlocksStep(sections, pageBreaks, k);
      AddSection(doc, sections[k], pageBreaks);
      AppendAssoc(old(doc.blocks), SectionBlocks(sections[..k], pageBreaks), SectionOf(sections[k], pageBreaks));
    }
    assert sections[..|sections|] == sections;
  }

  /** The table-of-contents heading, the note to update it, and a page break. */
  method AddToc(doc: Document)
    modifies doc
    ensures doc.blocks == old(doc.blocks) + TocBlocks
    ensures doc.footer == old(doc.footer)
  {
    doc.Add(Heading("Table of Contents", 1));
    doc.Add(Paragraph(TocNote));
    doc.Add(PageBreak);
  }

  /** `create_technical_proposal`. */
  method CreateTechnicalProposal(title: string, sections: seq<DocSection>, meta: Metadata,
                                 outputDir: string, stamp: string)
    returns (doc: Document, path: string)
    ensures fresh(doc)
    ensures doc.blocks == TechnicalBlocks(title, sections, meta)
    ensures doc.footer == meta.company.GetOr("TenderAI") + " — Confidential"
    ensures path == OutputPath(outputDir, "technical_proposal", meta, stamp, ".docx")
  {
    doc := new Document();
    AddCoverPage(doc, title, meta);
    var front, body := PartitionSections(sections);
    ghost var cover := doc.blocks;
    assert cover == [Cover(CoverLines(title, meta)), PageBreak];
    AddSections(doc, front, true);
    ghost var beforeToc := doc.blocks;
    AddToc(doc);
    ghost var afterToc := doc.blocks;
    assert afterToc == cover + SectionBlocks(front, true) + TocBlocks;
    AddSections(doc, body, false);
    assert doc.blocks == afterToc + SectionBlocks(body, false);
    assert doc.blocks == TechnicalBlocks(title, sections, meta);
    doc.SetFooter(meta.company.GetOr("TenderAI") + " — Confidential");
    path := OutputPath(outputDir, "technical_proposal", meta, stamp, ".docx");
  }

  /** The titles of the level-1 headings, in order: the document's outline. */
  function Outline(blocks: seq<Block>): seq<string> {
    if blocks == [] then []
    else
      var b := blocks[|blocks| - 1];
      Outline(blocks[..|blocks| - 1]) + if b.Heading? && b.level == 1 then [b.text] else []
  }

  lemma {:induction false} OutlineAppend(a: seq<Block>, b: seq<Block>)
    ensures Outline(a + b) == Outline(a) + Outline(b)
    decreases |b|
  {
    if b == [] {
      assert a + b == a;
    } else {
      var b' := b[..|b| - 1];
      assert (a + b)[..|a + b| - 1] == a + b';
      OutlineAppend(a, b');
    }
  }

  /** Section content never opens a level-1 heading. */
  lemma {:induction false} ChunkOutline(chunks: seq<string>)
    ensures Outline(ChunkBlocks(chunks)) == []
  {
    if chunks != [] {
      var t := Strip(chunks[|chunks| - 1]);
      ChunkOutline(chunks[..|chunks| - 1]);
      OutlineAppend(ChunkBlocks(chunks[..|chunks| - 1]), ChunkAdds(chunks[|chunks| - 1]));
      if t != [] {
        assert Outline([ChunkBlock(t)]) == Outline([]) by {
          assert [ChunkBlock(t)][..0] == [];
        }
      }
    }
  }

  function Titles(sections: seq<DocSection>): seq<string> {
    if sections == [] then [] else Titles(sections[..|sections| - 1]) + [sections[|sections| - 1].title]
  }

  lemma OutlineSingle(b: Block)
    ensures Outline([b]) == if b.Heading? && b.level == 1 then [b.text] else []
  {
    assert [b][..0] == [];
  }

  /** A section contributes its own title, once, to the outline. */
  lemma SectionOfOutline(s: DocSection, pageBreak: bool)
    ensures Outline(SectionOf(s, pageBreak)) == [s.title]
  {
    var heading := [Heading(s.title, 1)];
    var content := ContentBlocks(s.content);
    var tail := if pageBreak then [PageBreak] else [];
    OutlineAppend(heading + content, tail);
    OutlineAppend(heading, content);
    OutlineSingle(Heading(s.title, 1));
    ChunkOutline(Split(s.content, ParagraphBreak));
    if pageBreak {
      OutlineSingle(PageBreak);
    }
    assert Outline(tail) == [];
    assert Outline(heading + content) == [s.title];
  }

  lemma {:induction false} SectionOutline(sections: seq<DocSection>, pageBreaks: bool)
    ensures Outline(SectionBlocks(sections, pageBreaks)) == Titles(sections)
  {
    if sections != [] {
      var s := sections[|sections| - 1];
      var init := sections[..|sections| - 1];
      SectionOutline(init, pageBreaks);
      OutlineAppend(SectionBlocks(init, pageBreaks), SectionOf(s, pageBreaks));
      SectionOfOutline(s, pageBreaks);
    }
  }

  /** The proposal's outline: the front-matter titles, then the table of contents, then the
   *  body titles, each group in the order given. */
  lemma TechnicalOutline(title: string, sections: seq<DocSection>, meta: Metadata)
    ensures Outline(TechnicalBlocks(title, sections, meta))
            == Titles(Filter(IsFrontMatter, sections)) + ["Table of Contents"] + Titles(Filter(IsBody, sections))
  {
    var cover := [Cover(CoverLines(title, meta)), PageBreak];
    var front := SectionBlocks(Filter(IsFrontMatter, sections), true);
    var body := SectionBlocks(Filter(IsBody, sections), false);
    OutlineAppend(cover + front + TocBlocks, body);
    OutlineAppend(cover + front, TocBlocks);
    OutlineAppend(cover, front);
    SectionOutline(Filter(IsFrontMatter, sections), true);
    SectionOutline(Filter(IsBody, sections), false);
    CoverOutline(title, meta);
    TocOutline();
    assert TechnicalBlocks(title, sections, meta) == cover + front + TocBlocks + body;
    assert Outline(cover + front) == Titles(Filter(IsFrontMatter, sections));
    assert Outline(cover + front + TocBlocks)
           == Titles(Filter(IsFrontMatter, sections)) + ["Table of Contents"];
  }

  lemma CoverOutline(title: string, meta: Metadata)
    ensures Outline([Cover(CoverLines(title, meta)), PageBreak]) == []
  {
    var c := Cover(CoverLines(title, meta));
    OutlineAppend([c], [PageBreak]);
    OutlineSingle(c);
    OutlineSingle(PageBreak);
    assert [c] + [PageBreak] == [c, PageBreak];
  }

  lemma TocOutline()
    ensures Outline(TocBlocks) == ["Table of Contents"]
  {
    var h := Heading("Table of Contents", 1);
    var n := Paragraph(TocNote);
    OutlineAppend([h], [n]);
    OutlineAppend([h] + [n], [PageBreak]);
    OutlineSingle(h);
    OutlineSingle(n);
    OutlineSingle(PageBreak);
    assert [h] + [n] + [PageBreak] == TocBlocks;
  }

  // ---------------------------------------------------------------------------
  // Compliance matrix
  // ---------------------------------------------------------------------------

  /** A requirement as given; its text is `requirement`, or its printed form when that key is
   *  missing. */
  datatype RequirementItem = RequirementItem(requirement: Option<string>, repr: string)

  /** A response as given; `status` and `narrative` may be missing. */
  datatype ResponseItem = ResponseItem(status: Option<string>, narrative: Option<string>)

  /** The loop over `enumerate(zip(requirements, responses), 1)`. */
  method ComplianceRows(requirements: seq<RequirementItem>, responses: seq<ResponseItem>)
    returns (rows: seq<MatrixRow>)
    ensures |rows| == Min(|requirements|, |responses|)
    ensures forall i :: 0 <= i < |rows| ==>
              && rows[i].number == i + 1
              && rows[i].requirement == requirements[i].requirement.GetOr(requirements[i].repr)
              && rows[i].status == responses[i].status.GetOr("Compliant")
              && rows[i].response == responses[i].narrative.GetOr("")
  {
    rows := [];
    var n := Min(|requirements|, |responses|);
    for i := 0 to n
      invariant |rows| == i
      invariant forall j :: 0 <= j < i ==>
                  && rows[j].number == j + 1
                  && rows[j].requirement == requirements[j].requirement.GetOr(requirements[j].repr)
                  && rows[j].status == responses[j].status.GetOr("Compliant")
                  && rows[j].response == responses[j].narrative.GetOr("")
    {
      var req, resp := requirements[i], responses[i];
      rows := rows + [MatrixRow(i + 1, req.requirement.GetOr(req.repr), resp.status.GetOr("Compliant"),
                                resp.narrative.GetOr(""))];
    }
  }

  /** `create_compliance_matrix`: a heading, the generation time, and the table. */
  method CreateComplianceMatrix(requirements: seq<RequirementItem>, responses: seq<ResponseItem>,
                                outputDir: string, stamp: string, minute: string)
    returns (doc: Document, path: string)
    ensures fresh(doc)
    ensures |doc.blocks| == 3
    ensures doc.blocks[0] == Heading("Compliance Matrix", 1)
    ensures doc.blocks[1] == Paragraph("Generated: " + minute)
    ensures doc.blocks[2].ComplianceTable?
    ensures |doc.blocks[2].matrix| == Min(|requirements|, |responses|)
    ensures forall i :: 0 <= i < |doc.blocks[2].matrix| ==>
              && doc.blocks[2].matrix[i].number == i + 1
              && doc.blocks[2].matrix[i].requirement == requirements[i].requirement.GetOr(requirements[i].repr)
              && doc.blocks[2].matrix[i].status == responses[i].status.GetOr("Compliant")
              && doc.blocks[2].matrix[i].response == responses[i].narrative.GetOr("")
    ensures path == outputDir + "/compliance_matrix_" + stamp + ".docx"
  {
    doc := new Document();
    doc.Add(Heading("Compliance Matrix", 1));
    doc.Add(Paragraph("Generated: " + minute));
    var rows := ComplianceRows(requirements, responses);
    doc.Add(ComplianceTable(rows));
    path := outputDir + "/compliance_matrix_" + stamp + ".docx";
  }

  // ---------------------------------------------------------------------------
  // Bill of materials: categories and totals
  // ---------------------------------------------------------------------------

  /** A bill-of-materials line; a key the item lacks is `None` (for `totalCost`, a `None`
   *  value too). */
  datatype BomItem = BomItem(
    category: Option<string>,
    itemName: Option<string>,
    description: Option<string>,
    manufacturer: Option<string>,
    partNumber: Option<string>,
    quantity: Option<real>,
    unitCost: Option<real>,
    marginPct: Option<real>,
    totalCost: Option<real>)

  /** The category an item is priced under. */
  function Category(item: BomItem): string { item.category.GetOr("General") }

  /** `item.get("total_cost", 0) or 0`. */
  function LineTotal(item: BomItem): real { item.totalCost.GetOr(0.0) }

  /** The sum of the line totals. */
  function Sum(items: seq<BomItem>): real {
    if items == [] then 0.0 else Sum(items[..|items| - 1]) + LineTotal(items[|items| - 1])
  }

  /** The `categories` dict: the categories in first-seen order and each one's items. */
  datatype Grouping = Grouping(order: seq<string>, groups: map<string, seq<BomItem>>)

  /** `categories.setdefault(cat, []).append(item)` for one item. */
  function Place(g: Grouping, item: BomItem): Grouping {
    var c := Category(item);
    if c in g.groups then Grouping(g.order, g.groups[c := g.groups[c] + [item]])
    else Grouping(g.order + [c], g.groups[c := [item]])
  }

  /** The grouping after all the items. */
  function Group(items: seq<BomItem>): Grouping {
    if items == [] then Grouping([], map[]) else Place(Group(items[..|items| - 1]), items[|items| - 1])
  }

  method GroupByCategory(items: seq<BomItem>) returns (g: Grouping)
    ensures g == Group(items)
  {
    g := Grouping([], map[]);
    for k := 0 to |items|
      invariant g == Group(items[..k])
    {
      assert items[..k + 1][..k] == items[..k];
      var c := Category(items[k]);
      if c in g.groups {
        g := Grouping(g.order, g.groups[c := g.groups[c] + [items[k]]]);
      } else {
        g := Grouping(g.order + [c], g.groups[c := [items[k]]]);
      }
    }
    assert items[..|items|] == items;
  }

  function Categories(items: seq<BomItem>): (cats: seq<string>)
    ensures |cats| == |items| && forall i :: 0 <= i < |items| ==> cats[i] == Category(items[i])
  {
    seq(|items|, i requires 0 <= i < |items| => Category(items[i]))
  }

  /** The items of category `c`. */
  function InCategory(c: string): BomItem -> bool {
    (item: BomItem) => Category(item) == c
  }

  /** The groups are keyed by exactly the categories that occur, listed once each in order of
   *  first appearance. */
  lemma {:induction false} GroupKeys(items: seq<BomItem>)
    ensures Group(items).order == Distinct(Categories(items))
    ensures forall c :: c in Group(items).groups <==> c in Categories(items)
  {
    if items != [] {
      var init := items[..|items| - 1];
      GroupKeys(init);
      assert Categories(items) == Categories(init) + [Category(items[|items| - 1])];
      DistinctAppend(Categories(init), Category(items[|items| - 1]));
    }
  }

  /** The group of category `c` holds exactly the items of that category, in their original order. */
  lemma {:induction false} GroupOf(items: seq<BomItem>, c: string)
    requires c in Group(items).groups
    ensures Group(items).groups[c] == Filter(InCategory(c), items)
  {
    var init := items[..|items| - 1];
    var x := items[|items| - 1];
    assert items == init + [x];
    FilterSnoc(InCategory(c), init, x);
    var g := Group(init);
    assert Group(items) == Place(g, x);
    if c in g.groups {
      GroupOf(init, c);
    } else {
      GroupKeys(init);
      forall i | 0 <= i < |init| ensures !InCategory(c)(init[i]) {
        assert Categories(init)[i] == Category(init[i]);
      }
      FilterNone(InCategory(c), init);
    }
  }

  /** Each group holds exactly the items of its category, in their original order. */
  lemma GroupMembers(items: seq<BomItem>)
    ensures forall c :: c in Group(items).groups ==> Group(items).groups[c] == Filter(InCategory(c), items)
  {
    forall c | c in Group(items).groups ensures Group(items).groups[c] == Filter(InCategory(c), items) {
      GroupOf(items, c);
    }
  }

  /** The subtotals of the categories in `order`, added up. */
  function SumGroups(order: seq<string>, groups: map<string, seq<BomItem>>): real {
    if order == [] then 0.0
    else
      var c := order[|order| - 1];
      SumGroups(order[..|order| - 1], groups) + (if c in groups then Sum(groups[c]) else 0.0)
  }

  lemma {:induction false} SumGroupsUnchanged(order: seq<string>, groups: map<string, seq<BomItem>>,
                                               c: string, v: seq<BomItem>)
    requires c !in order
    ensures SumGroups(order, groups[c := v]) == SumGroups(order, groups)
  {
    if order != [] {
      SumGroupsUnchanged(order[..|order| - 1], groups, c, v);
    }
  }

  lemma {:induction false} SumGroupsGrow(order: seq<string>, groups: map<string, seq<BomItem>>,
                                          c: string, x: BomItem)
    requires NoDups(order) && c in order && c in groups
    ensures SumGroups(order, groups[c := groups[c] + [x]]) == SumGroups(order, groups) + LineTotal(x)
  {
    var init := order[..|order| - 1];
    var last := order[|order| - 1];
    assert order == init + [last];
    assert NoDups(init) by {
      forall i, j | 0 <= i < j < |init| ensures init[i] != init[j] {
        assert init[i] == order[i] && init[j] == order[j];
      }
    }
    if last == c {
      assert c !in init by {
        forall i | 0 <= i < |init| ensures init[i] != c {
          assert init[i] == order[i];
        }
      }
      SumGroupsUnchanged(init, groups, c, groups[c] + [x]);
      assert (groups[c] + [x])[..|groups[c]|] == groups[c];
    } else {
      SumGroupsGrow(init, groups, c, x);
    }
  }

  /** The grand total (the sum of the category subtotals) is the sum over all items. */
  lemma {:induction false} GrandTotalIsSum(items: seq<BomItem>)
    ensures SumGroups(Group(items).order, Group(items).groups) == Sum(items)
  {
    if items != [] {
      var init := items[..|items| - 1];
      var x := items[|items| - 1];
      var g := Group(init);
      var g' := Group(items);
      assert g' == Place(g, x);
      assert Sum(items) == Sum(init) + LineTotal(x);
      GrandTotalIsSum(init);
      GroupKeys(init);
      var c := Category(x);
      if c in g.groups {
        assert g' == Grouping(g.order, g.groups[c := g.groups[c] + [x]]);
        SumGroupsGrow(g.order, g.groups, c, x);
      } else {
        assert g' == Grouping(g.order + [c], g.groups[c := [x]]);
        SumGroupsUnchanged(g.order, g.groups, c, [x]);
        assert Sum([x]) == LineTotal(x) by {
          assert [x][..0] == [];
        }
        assert (g.order + [c])[..|g.order|] == g.order;
        assert SumGroups(g'.order, g'.groups) == SumGroups(g.order, g'.groups) + Sum([x]);
      }
    }
  }

  // ---------------------------------------------------------------------------
  // Financial proposal
  // ---------------------------------------------------------------------------

  /** A pricing-table row; a missing quantity is 1, unit cost 0 and margin 15 percent. */
  function PriceRow(item: BomItem): PricingRow {
    PricingRow(item.itemName.GetOr(""), item.quantity.GetOr(1.0), item.unitCost.GetOr(0.0),
               item.marginPct.GetOr(15.0), LineTotal(item))
  }

  /** The rows of one category's table and its running subtotal. */
  method PricingRows(items: seq<BomItem>) returns (rows: seq<PricingRow>, subtotal: real)
    ensures |rows| == |items| && forall i :: 0 <= i < |items| ==> rows[i] == PriceRow(items[i])
    ensures subtotal == Sum(items)
  {
    rows, subtotal := [], 0.0;
    for k := 0 to |items|
      invariant |rows| == k && forall i :: 0 <= i < k ==> rows[i] == PriceRow(items[i])
      invariant subtotal == Sum(items[..k])
    {
      assert items[..k + 1][..k] == items[..k];
      rows := rows + [PriceRow(items[k])];
      subtotal := subtotal + LineTotal(items[k]);
    }
    assert items[..|items|] == items;
  }

  function PriceRows(items: seq<BomItem>): (rows: seq<PricingRow>)
    ensures |rows| == |items| && forall i :: 0 <= i < |items| ==> rows[i] == PriceRow(items[i])
  {
    seq(|items|, i requires 0 <= i < |items| => PriceRow(items[i]))
  }

  /** One heading and one table per category, in order. */
  function CategoryBlocks(order: seq<string>, groups: map<string, seq<BomItem>>): seq<Block> {
    if order == [] then []
    else
      var c := order[|order| - 1];
      var items := if c in groups then groups[c] else [];
      CategoryBlocks(order[..|order| - 1], groups) + [Heading(c, 2), PricingTable(c, PriceRows(items), Sum(items))]
  }

  const PaymentTerms: seq<string> := [
    "This quotation is valid for 90 days from the date of submission.",
    "Payment terms: 30% upon contract signing, 50% upon delivery, 20% upon acceptance.",
    "Warranty: As specified per line item. Standard warranty is 12 months from acceptance.",
    "Delivery timelines are subject to confirmation upon contract award."]

  const CurrencyHead: string := "All prices are quoted in "
  const CurrencyTail: string := " and are exclusive of VAT unless stated otherwise."

  function TermsBlocks(currency: string): seq<Block> {
    [Heading("Terms and Conditions", 1),
     Bullet(CurrencyHead + currency + CurrencyTail),
     Bullet(PaymentTerms[0]), Bullet(PaymentTerms[1]), Bullet(PaymentTerms[2]), Bullet(PaymentTerms[3])]
  }

  /** The whole financial proposal; the currency is Omani rials ("OMR") unless given. */
  function FinancialBlocks(items: seq<BomItem>, meta: Metadata): seq<Block> {
    var g := Group(items);
    var currency := meta.currency.GetOr("OMR");
    [Cover(CoverLines("Financial Proposal — " + meta.title.GetOr(""), meta)), PageBreak,
     Heading("Pricing Summary", 1)]
    + CategoryBlocks(g.order, g.groups)
    + [Paragraph(""), GrandTotal(currency, SumGroups(g.order, g.groups))]
    + TermsBlocks(currency)
  }

  /** The stated grand total is the sum of all line totals. */
  lemma FinancialGrandTotal(items: seq<BomItem>, meta: Metadata)
    ensures GrandTotal(meta.currency.GetOr("OMR"), Sum(items)) in FinancialBlocks(items, meta)
  {
    GrandTotalIsSum(items);
    var g := Group(items);
    var blocks := FinancialBlocks(items, meta);
    var k := 3 + |CategoryBlocks(g.order, g.groups)| + 1;
    assert blocks[k] == GrandTotal(meta.currency.GetOr("OMR"), SumGroups(g.order, g.groups));
  }

  /** One category of the pricing summary: its heading and its table, with the subtotal. */
  method AddCategory(doc: Document, c: string, items: seq<BomItem>) returns (subtotal: real)
    modifies doc
    ensures doc.blocks == old(doc.blocks) + [Heading(c, 2), PricingTable(c, PriceRows(items), Sum(items))]
    ensures subtotal == Sum(items)
    ensures doc.footer == old(doc.footer)
  {
    doc.Add(Heading(c, 2));
    var rows;
    rows, subtotal := PricingRows(items);
    assert rows == PriceRows(items);
    doc.Add(PricingTable(c, rows, subtotal));
  }

  lemma CategoryBlocksStep(order: seq<string>, groups: map<string, seq<BomItem>>, i: nat)
    requires i < |order|
    ensures var c := order[i];
            var items := if c in groups then groups[c] else [];
            && CategoryBlocks(order[..i + 1], groups)
               == CategoryBlocks(order[..i], groups) + [Heading(c, 2), PricingTable(c, PriceRows(items), Sum(items))]
            && SumGroups(order[..i + 1], groups) == SumGroups(order[..i], groups) + Sum(items)
  {
    assert order[..i + 1][..i] == order[..i];
  }

  /** The pricing summary: one heading and table per category, in first-seen order, and the
   *  grand total accumulated from the subtotals. */
  method AddCategories(doc: Document, items: seq<BomItem>) returns (grandTotal: real)
    modifies doc
    ensures doc.blocks == old(doc.blocks) + CategoryBlocks(Group(items).order, Group(items).groups)
    ensures grandTotal == SumGroups(Group(items).order, Group(items).groups)
    ensures doc.footer == old(doc.footer)
  {
    var g := GroupByCategory(items);
    grandTotal := 0.0;
    for i := 0 to |g.order|
      invariant doc.blocks == old(doc.blocks) + CategoryBlocks(g.order[..i], g.groups)
      invariant grandTotal == SumGroups(g.order[..i], g.groups)
      invariant doc.footer == old(doc.footer)
    {
      CategoryBlocksStep(g.order, g.groups, i);
      var c := g.order[i];
      var group := if c in g.groups then g.groups[c] else [];
      var subtotal := AddCategory(doc, c, group);
      AppendAssoc(old(doc.blocks), CategoryBlocks(g.order[..i], g.groups),
                  [Heading(c, 2), PricingTable(c, PriceRows(group), Sum(group))]);
      grandTotal := grandTotal + subtotal;
    }
    assert g.order[..|g.order|] == g.order;
  }

  /** The terms and conditions: the heading and one bullet per term. */
  method AddTerms(doc: Document, currency: string)
    modifies doc
    ensures doc.blocks == old(doc.blocks) + TermsBlocks(currency)
    ensures doc.footer == old(doc.footer)
  {
    var blocks := TermsBlocks(currency);
    doc.Add(blocks[0]);
    var terms := [CurrencyHead + currency + CurrencyTail]
                 + PaymentTerms;
    for k := 0 to |terms|
      invariant doc.blocks == old(doc.blocks) + blocks[..k + 1]
      invariant doc.footer == old(doc.footer)
    {
      assert blocks[..k + 2] == blocks[..k + 1] + [Bullet(terms[k])];
      doc.Add(Bullet(terms[k]));
    }
    assert blocks[..|terms| + 1] == blocks;
  }

  /** `create_financial_proposal`. */
  method CreateFinancialProposal(items: seq<BomItem>, meta: Metadata, outputDir: string, stamp: string)
    returns (doc: Document, path: string)
    ensures fresh(doc)
    ensures doc.blocks == FinancialBlocks(items, meta)
    ensures doc.footer == ""
    ensures path == OutputPath(outputDir, "financial_proposal", meta, stamp, ".docx")
  {
    doc := new Document();
    AddCoverPage(doc, "Financial Proposal — " + meta.title.GetOr(""), meta);
    doc.Add(Heading("Pricing Summary", 1));
    ghost var start := doc.blocks;
    var grandTotal := AddCategories(doc, items);
    ghost var priced := doc.blocks;
    var currency := meta.currency.GetOr("OMR");
    doc.Add(Paragraph(""));
    doc.Add(GrandTotal(currency, grandTotal));
    ghost var totalled := doc.blocks;
    AddTerms(doc, currency);
    assert doc.blocks == totalled + TermsBlocks(currency);
    assert totalled == priced + [Paragraph(""), GrandTotal(currency, grandTotal)];
    assert start == [Cover(CoverLines("Financial Proposal — " + meta.title.GetOr(""), meta)), PageBreak,
                     Heading("Pricing Summary", 1)];
    path := OutputPath(outputDir, "financial_proposal", meta, stamp, ".docx");
  }

  // ---------------------------------------------------------------------------
  // Bill-of-materials spreadsheet
  // ---------------------------------------------------------------------------

  datatype Cell = Text(text: string) | Number(value: real)

  /** A worksheet being written: its title and the values of its cells by (row, column). */
  class Worksheet {
    var title: string
    var cells: map<(int, int), Cell>

    constructor()
      ensures title == "Sheet" && cells == map[]
    {
      title := "Sheet";
      cells := map[];
    }

    method Set(row: int, col: int, value: Cell)
      modifies this
      ensures cells == old(cells)[(row, col) := value] && title == old(title)
    {
      cells := cells[(row, col) := value];
    }
  }

  /** The cells of one row, from column 1. */
  function RowCells(row: int, values: seq<Cell>): map<(int, int), Cell> {
    if values == [] then map[]
    else RowCells(row, values[..|values| - 1])[(row, |values|) := values[|values| - 1]]
  }

  lemma {:induction false} RowCellsAt(row: int, values: seq<Cell>)
    ensures forall k :: k in RowCells(row, values) <==> k.0 == row && 1 <= k.1 <= |values|
    ensures forall c :: 1 <= c <= |values| ==> RowCells(row, values)[(row, c)] == values[c - 1]
  {
    if values != [] {
      RowCellsAt(row, values[..|values| - 1]);
    }
  }

  lemma RowCellsStep(row: int, values: seq<Cell>, c: nat)
    requires c < |values|
    ensures RowCells(row, values[..c + 1]) == RowCells(row, values[..c])[(row, c + 1) := values[c]]
  {
    assert values[..c + 1][..c] == values[..c];
  }

  /** Writes one row, column by column. */
  method WriteRow(ws: Worksheet, row: int, values: seq<Cell>)
    modifies ws
    ensures ws.cells == old(ws.cells) + RowCells(row, values)
    ensures ws.title == old(ws.title)
  {
    for c := 0 to |values|
      invariant ws.cells == old(ws.cells) + RowCells(row, values[..c])
      invariant ws.title == old(ws.title)
    {
      RowCellsStep(row, values, c);
      MergeUpdate(old(ws.cells), RowCells(row, values[..c]), (row, c + 1), values[c]);
      ws.Set(row, c + 1, values[c]);
    }
    assert values[..|values|] == values;
  }

  function Headers(currency: string): seq<Cell> {
    [Text("Category"), Text("Item"), Text("Description"), Text("Manufacturer"), Text("Part Number"),
     Text("Qty"), Text("Unit Cost (" + currency + ")"), Text("Margin %"), Text("Total (" + currency + ")")]
  }

  /** The nine cells of an item's row; here a missing category is blank, not "General". */
  function ItemCells(item: BomItem): seq<Cell> {
    [Text(item.category.GetOr("")), Text(item.itemName.GetOr("")), Text(item.description.GetOr("")),
     Text(item.manufacturer.GetOr("")), Text(item.partNumber.GetOr("")),
     Number(item.quantity.GetOr(1.0)), Number(item.unitCost.GetOr(0.0)),
     Number(item.marginPct.GetOr(15.0)), Number(LineTotal(item))]
  }

  const FirstDataRow: int := 4

  /** The data rows: item `i` on row 4 + i. */
  function DataCells(items: seq<BomItem>): map<(int, int), Cell> {
    if items == [] then map[]
    else DataCells(items[..|items| - 1]) + RowCells(FirstDataRow + |items| - 1, ItemCells(items[|items| - 1]))
  }

  const BomSheetTitle: string := "Bill of Materials"
  const BomTitleHead: string := "Bill of Materials — "
  const GrandTotalLabel: string := "Grand Total:"

  function TitleCells(meta: Metadata): map<(int, int), Cell> {
    map[(1, 1) := Text(BomTitleHead + meta.title.GetOr("Proposal"))]
  }

  function HeaderCells(meta: Metadata): map<(int, int), Cell> {
    RowCells(3, Headers(meta.currency.GetOr("OMR")))
  }

  /** The grand-total row, one blank row below the last item. */
  function TotalCells(items: seq<BomItem>): map<(int, int), Cell> {
    var totalRow := FirstDataRow + |items| + 1;
    map[(totalRow, 8) := Text(GrandTotalLabel), (totalRow, 9) := Number(Sum(items))]
  }

  /** The whole sheet: title in A1, headers on row 3, items from row 4, then the grand total. */
  function SheetCells(items: seq<BomItem>, meta: Metadata): map<(int, int), Cell> {
    TitleCells(meta) + HeaderCells(meta) + DataCells(items) + TotalCells(items)
  }

  /** `create_bom_spreadsheet`. */
  lemma DataCellsStep(items: seq<BomItem>, k: nat)
    requires k < |items|
    ensures DataCells(items[..k + 1]) == DataCells(items[..k]) + RowCells(FirstDataRow + k, ItemCells(items[k]))
  {
    assert items[..k + 1][..k] == items[..k];
  }

  /** The item rows, one per item from row 4; returns the row after the last one. */
  method WriteItems(ws: Worksheet, items: seq<BomItem>) returns (rowNum: int)
    modifies ws
    ensures ws.cells == old(ws.cells) + DataCells(items)
    ensures ws.title == old(ws.title)
    ensures rowNum == FirstDataRow + |items|
  {
    rowNum := FirstDataRow;
    for k := 0 to |items|
      invariant rowNum == FirstDataRow + k
      invariant ws.cells == old(ws.cells) + DataCells(items[..k])
      invariant ws.title == old(ws.title)
    {
      DataCellsStep(items, k);
      MergeAssoc(old(ws.cells), DataCells(items[..k]), RowCells(rowNum, ItemCells(items[k])));
      WriteRow(ws, rowNum, ItemCells(items[k]));
      rowNum := rowNum + 1;
    }
    assert items[..|items|] == items;
  }

  method CreateBomSpreadsheet(items: seq<BomItem>, meta: Metadata, outputDir: string, stamp: string)
    returns (ws: Worksheet, path: string)
    ensures fresh(ws)
    ensures ws.title == BomSheetTitle
    ensures ws.cells == SheetCells(items, meta)
    ensures path == OutputPath(outputDir, "bom", meta, stamp, ".xlsx")
  {
    ws := new Worksheet();
    ws.title := BomSheetTitle;
    ws.Set(1, 1, Text(BomTitleHead + meta.title.GetOr("Proposal")));
    assert ws.cells == TitleCells(meta);
    WriteRow(ws, 3, Headers(meta.currency.GetOr("OMR")));
    ghost var start := ws.cells;
    assert start == TitleCells(meta) + HeaderCells(meta);
    var rowNum := WriteItems(ws, items);
    var total := Sum(items);
    ghost var body := ws.cells;
    ws.Set(rowNum + 1, 8, Text(GrandTotalLabel));
    ws.Set(rowNum + 1, 9, Number(total));
    MergePair(body, (rowNum + 1, 8), Text(GrandTotalLabel), (rowNum + 1, 9), Number(total));
    assert ws.cells == body + TotalCells(items);
    path := OutputPath(outputDir, "bom", meta, stamp, ".xlsx");
  }

  lemma {:induction false} DataCellsKeys(items: seq<BomItem>)
    ensures forall k :: k in DataCells(items) <==>
              FirstDataRow <= k.0 < FirstDataRow + |items| && 1 <= k.1 <= 9
  {
    if items != [] {
      var init := items[..|items| - 1];
      DataCellsKeys(init);
      RowCellsAt(FirstDataRow + |items| - 1, ItemCells(items[|items| - 1]));
    }
  }

  lemma {:induction false} DataCellsAt(items: seq<BomItem>, i: int, c: int)
    requires 0 <= i < |items| && 1 <= c <= 9
    ensures (FirstDataRow + i, c) in DataCells(items)
    ensures DataCells(items)[(FirstDataRow + i, c)] == ItemCells(items[i])[c - 1]
  {
    var init := items[..|items| - 1];
    var vals := ItemCells(items[|items| - 1]);
    var last := RowCells(FirstDataRow + |items| - 1, vals);
    var key := (FirstDataRow + i, c);
    assert DataCells(items) == DataCells(init) + last;
    RowCellsAt(FirstDataRow + |items| - 1, vals);
    if i < |init| {
      DataCellsAt(init, i, c);
      assert key !in last;
      assert items[i] == init[i];
    } else {
      assert key in last;
    }
  }

  /** Item `i` fills columns 1 to 9 of row 4 + i. */
  lemma SheetItemCell(items: seq<BomItem>, meta: Metadata, i: int, c: int)
    requires 0 <= i < |items| && 1 <= c <= 9
    ensures (FirstDataRow + i, c) in SheetCells(items, meta)
    ensures SheetCells(items, meta)[(FirstDataRow + i, c)] == ItemCells(items[i])[c - 1]
  {
    var key := (FirstDataRow + i, c);
    DataCellsAt(items, i, c);
    RowCellsAt(3, Headers(meta.currency.GetOr("OMR")));
    assert key !in TotalCells(items);
    assert (TitleCells(meta) + HeaderCells(meta) + DataCells(items))[key] == DataCells(items)[key];
  }

  /** The row after the last item is left empty. */
  lemma SheetBlankRow(items: seq<BomItem>, meta: Metadata, c: int)
    ensures (FirstDataRow + |items|, c) !in SheetCells(items, meta)
  {
    DataCellsKeys(items);
    RowCellsAt(3, Headers(meta.currency.GetOr("OMR")));
  }

  /** The row after that holds "Grand Total:" and the sum of the line totals. */
  lemma SheetGrandTotal(items: seq<BomItem>, meta: Metadata)
    ensures SheetCells(items, meta)[(FirstDataRow + |items| + 1, 8)] == Text(GrandTotalLabel)
    ensures SheetCells(items, meta)[(FirstDataRow + |items| + 1, 9)] == Number(Sum(items))
  {
    var rest := TitleCells(meta) + HeaderCells(meta) + DataCells(items);
    var total := TotalCells(items);
    var row := FirstDataRow + |items| + 1;
    assert (row, 8) in total && (row, 9) in total;
    assert (rest + total)[(row, 8)] == total[(row, 8)];
    assert (rest + total)[(row, 9)] == total[(row, 9)];
  }
}

=== FILE: document_tools.dfy ===
/**
 * The document tools: the JSON extraction fallback of `parse_tender_rfp`, the per-requirement
 * responses of `generate_compliance_matrix`, the urgency and milestones of
 * `check_submission_deadline`, and the mandatory-section check of `validate_document_completeness`.
 *
 * The RFP record and the proposals come from the store; the LLM, the JSON decoder, the date
 * parser and the clock are parameters.
 */
module DocumentTools {
  import opened Wrappers
  import opened Collections
  import opened Text

  /** The parts of a stored RFP the tools read. */
  datatype Rfp = Rfp(title: string, client: string, deadline: Option<string>, requirements: seq<Requirement>)

  /** A requirement is either a string or a record that may carry a `requirement` text. */
  datatype Requirement = ReqText(text: string) | ReqRecord(requirement: Option<string>, repr: string)

  datatype ToolError = RfpNotFound | NoRequirements

  // ---------------------------------------------------------------------------
  // parse_tender_rfp: JSON in a code fence
  // ---------------------------------------------------------------------------

  const Fence: string := "```"
  const JsonFence: string := "```json"

  /** `text.split(open)[1].split("```")[0]`. */
  function FenceBody(text: string, open: string): string
    requires |open| > 0 && Contains(text, open)
  {
    SplitFound(text, open, Find(text, open).value);
    Split(Split(text, open)[1], Fence)[0]
  }

  /**
   * The fence body starts right after the first `open` and runs up to a following fence (or
   * the end of the text); it contains no fence itself.
   */
  lemma FenceBodySpec(text: string, open: string)
    requires StartsWith(open, Fence) && Contains(text, open)
    ensures var rest := text[Find(text, open).value + |open|..];
            var body := FenceBody(text, open);
            |body| <= |rest| && body == rest[..|body|] && !Contains(body, Fence)
            && (|body| == |rest| || StartsWith(rest[|body|..], Fence))
  {
    var i := Find(text, open).value;
    SplitFound(text, open, i);
    FenceInPiece(text[i + |open|..], open);
  }

  /** What follows the opening fence, cut at the next `open` and then at the first fence. */
  lemma FenceInPiece(rest: string, open: string)
    requires StartsWith(open, Fence)
    ensures var body := Split(Split(rest, open)[0], Fence)[0];
            |body| <= |rest| && body == rest[..|body|] && !Contains(body, Fence)
            && (|body| == |rest| || StartsWith(rest[|body|..], Fence))
  {
    var piece := Split(rest, open)[0];
    SplitFirst(rest, open);
    SplitFirst(piece, Fence);
    PrefixCut(rest, piece, Split(piece, Fence)[0], open);
  }

  /** A prefix of `rest` cut before an `open` (or at the end), then cut before a fence (or at
   *  its end), ends before a fence of `rest` or at the end of `rest`. */
  lemma PrefixCut(rest: string, piece: string, body: string, open: string)
    requires StartsWith(open, Fence)
    requires |piece| <= |rest| && piece == rest[..|piece|] && (|piece| == |rest| || OccursAt(rest, open, |piece|))
    requires |body| <= |piece| && body == piece[..|body|] && (|body| == |piece| || OccursAt(piece, Fence, |body|))
    ensures |body| <= |rest| && body == rest[..|body|]
    ensures |body| == |rest| || StartsWith(rest[|body|..], Fence)
  {
    assert rest[..|piece|][..|body|] == rest[..|body|];
    assert |Fence| == 3 && open[..3] == Fence;
    if |body| < |piece| {
      assert piece[|body|..|body| + 3] == Fence;
      assert piece[|body|..|body| + 3] == rest[|body|..|body| + 3];
      assert rest[|body|..][..3] == rest[|body|..|body| + 3];
    } else if |piece| < |rest| {
      var occ := rest[|piece|..|piece| + |open|];
      assert occ == open;
      assert occ[..3] == Fence;
      assert rest[|body|..][..3] == occ[..3];
    }
  }

  /** The text between fences used when the whole reply is not JSON: after "```json" if present,
   *  else after the first "```"; `None` when the reply has no fence. */
  function FencedPayload(text: string): Option<string> {
    if Contains(text, JsonFence) then Some(Strip(FenceBody(text, JsonFence)))
    else if Contains(text, Fence) then Some(Strip(FenceBody(text, Fence)))
    else None
  }

  datatype ParseError = NotJson(preview: string) | DecodeFailed(payload: string)

  /** Decoding the reply (`decode` returns `None` on a decode error): the stripped reply, else
   *  the fenced payload; with no fence, or a payload that does not decode, the call fails. */
  function ParseStructured<T>(text: string, decode: string -> Option<T>): (r: Result<T, ParseError>)
    ensures r.Err? ==> decode(Strip(text)).None?
    ensures r.Ok? ==> Some(r.value) == decode(Strip(text))
                      || (FencedPayload(text).Some? && Some(r.value) == decode(FencedPayload(text).value))
    ensures FencedPayload(text).None? && decode(Strip(text)).None? ==> r == Err(NotJson(SliceTo(text, 200)))
    ensures decode(Strip(text)).Some? ==> r == Ok(decode(Strip(text)).value)
    ensures decode(Strip(text)).None? && FencedPayload(text).Some? ==>
              r == match decode(FencedPayload(text).value)
                   case Some(v) => Ok(v)
                   case None => Err(DecodeFailed(FencedPayload(text).value))
  {
    match decode(Strip(text))
    case Some(v) => Ok(v)
    case None =>
      match FencedPayload(text)
      case None => Err(NotJson(SliceTo(text, 200)))
      case Some(p) =>
        match decode(p)
        case Some(v) => Ok(v)
        case None => Err(DecodeFailed(p))
  }

  // ---------------------------------------------------------------------------
  // generate_compliance_matrix
  // ---------------------------------------------------------------------------

  function RequirementText(r: Requirement): string {
    match r
    case ReqText(t) => t
    case ReqRecord(req, repr) => req.GetOr(repr)
  }

  datatype ComplianceResponse = ComplianceResponse(requirement: string, status: string, narrative: string)

  const NarrativeInstruction: string :=
    "Write a formal compliance response (2-3 sentences) explaining how our solution meets this requirement."

  function NarrativePrompt(reqText: string, rfp: Rfp): string {
    "Requirement: " + reqText + "\n\nRFP Title: " + rfp.title + "\nClient: " + rfp.client + "\n\n"
    + NarrativeInstruction
  }

  /** The response to one requirement: "Compliant", with the LLM's narrative for it, stripped. */
  function Respond(req: Requirement, rfp: Rfp, generate: string -> string): ComplianceResponse {
    var text := RequirementText(req);
    ComplianceResponse(text, "Compliant", Strip(generate(NarrativePrompt(text, rfp))))
  }

  /** One response per requirement, in order. */
  function Responses(rfp: Rfp, generate: string -> string): (rs: seq<ComplianceResponse>)
    ensures |rs| == |rfp.requirements|
    ensures forall i :: 0 <= i < |rs| ==> rs[i] == Respond(rfp.requirements[i], rfp, generate)
  {
    seq(|rfp.requirements|, i requires 0 <= i < |rfp.requirements| => Respond(rfp.requirements[i], rfp, generate))
  }

  /** The response loop: fails when the RFP is missing or has no requirements. */
  method ComplianceResponses(rfp: Option<Rfp>, generate: string -> string)
    returns (r: Result<seq<ComplianceResponse>, ToolError>)
    ensures rfp.None? ==> r == Err(RfpNotFound)
    ensures rfp.Some? && rfp.value.requirements == [] ==> r == Err(NoRequirements)
    ensures rfp.Some? && rfp.value.requirements != [] ==> r == Ok(Responses(rfp.value, generate))
  {
    if rfp.None? {
      return Err(RfpNotFound);
    }
    var reqs := rfp.value.requirements;
    if reqs == [] {
      return Err(NoRequirements);
    }
    var responses: seq<ComplianceResponse> := [];
    for k := 0 to |reqs|
      invariant |responses| == k
      invariant forall i :: 0 <= i < k ==> responses[i] == Respond(reqs[i], rfp.value, generate)
    {
      responses := responses + [Respond(reqs[k], rfp.value, generate)];
    }
    assert responses == Responses(rfp.value, generate);
    r := Ok(responses);
  }

  // ---------------------------------------------------------------------------
  // check_submission_deadline
  // ---------------------------------------------------------------------------

  datatype Urgency = Overdue | Critical | Urgent | Warning | Attention | OnTrack

  /** The urgency band of the days left. */
  function Status(daysRemaining: int): Urgency {
    if daysRemaining < 0 then Overdue
    else if daysRemaining <= 1 then Critical
    else if daysRemaining <= 3 then Urgent
    else if daysRemaining <= 7 then Warning
    else if daysRemaining <= 14 then Attention
    else OnTrack
  }

  /** How pressing a band is: 5 for overdue down to 0 for on track. */
  function Severity(u: Urgency): nat {
    match u
    case Overdue => 5
    case Critical => 4
    case Urgent => 3
    case Warning => 2
    case Attention => 1
    case OnTrack => 0
  }

  /** More days left never means a more pressing status. */
  lemma StatusMonotone(d1: int, d2: int)
    requires d1 <= d2
    ensures Severity(Status(d2)) <= Severity(Status(d1))
  {
  }

  const MicrosPerDay: int := 86_400_000_000

  /** `(deadline - now).days` with the deadline at midnight of day `deadlineDay` and `now` in
   *  microseconds, both counted from the same epoch: the floor of the difference in days. */
  function DaysRemaining(deadlineDay: int, nowMicros: int): (d: int)
    ensures d * MicrosPerDay <= deadlineDay * MicrosPerDay - nowMicros < (d + 1) * MicrosPerDay
  {
    (deadlineDay * MicrosPerDay - nowMicros) / MicrosPerDay
  }

  datatype Milestone = Milestone(day: int, caption: string, daysBeforeDeadline: nat, completed: bool)

  const MilestoneDefs: seq<(nat, string)> := [
    (14, "Start proposal drafting"),
    (10, "Complete technical approach"),
    (7, "Internal review deadline"),
    (5, "Partner inputs due"),
    (3, "Final review and formatting"),
    (1, "Submission preparation"),
    (0, "Submission deadline")]

  function MilestoneAt(deadlineDay: int, nowMicros: int, def: (nat, string)): Milestone {
    var day := deadlineDay - def.0;
    Milestone(day, def.1, def.0, day * MicrosPerDay < nowMicros)
  }

  function Milestones(deadlineDay: int, nowMicros: int): seq<Milestone> {
    seq(|MilestoneDefs|, i requires 0 <= i < |MilestoneDefs| => MilestoneAt(deadlineDay, nowMicros, MilestoneDefs[i]))
  }

  /** Seven milestones, 14, 10, 7, 5, 3, 1 and 0 days before the deadline; a milestone is
   *  completed when its day has begun, and then so is every earlier one. */
  lemma MilestonesSpec(deadlineDay: int, nowMicros: int)
    ensures var ms := Milestones(deadlineDay, nowMicros);
      && |ms| == 7
      && (forall i :: 0 <= i < 7 ==> ms[i].daysBeforeDeadline == [14, 10, 7, 5, 3, 1, 0][i])
      && (forall i :: 0 <= i < 7 ==> ms[i].day == deadlineDay - ms[i].daysBeforeDeadline)
      && (forall i, j :: 0 <= i < j < 7 && ms[j].completed ==> ms[i].completed)
  {
    var ms := Milestones(deadlineDay, nowMicros);
    forall i, j | 0 <= i < j < 7 && ms[j].completed ensures ms[i].completed {
      assert ms[i].day <= ms[j].day;
      assert ms[i].day * MicrosPerDay <= ms[j].day * MicrosPerDay;
    }
  }

  /** The milestone loop of `check_submission_deadline`. */
  method BuildMilestones(deadlineDay: int, nowMicros: int) returns (ms: seq<Milestone>)
    ensures ms == Milestones(deadlineDay, nowMicros)
  {
    ms := [];
    for k := 0 to |MilestoneDefs|
      invariant ms == Milestones(deadlineDay, nowMicros)[..k]
    {
      var (daysBefore, caption) := MilestoneDefs[k];
      var day := deadlineDay - daysBefore;
      ms := ms + [Milestone(day, caption, daysBefore, day * MicrosPerDay < nowMicros)];
    }
  }

  datatype DeadlineStatus = Unknown | Unparseable | Banded(urgency: Urgency)

  datatype DeadlineReport = DeadlineReport(
    rfpTitle: Option<string>,
    deadline: Option<string>,
    daysRemaining: Option<int>,
    status: DeadlineStatus,
    message: Option<string>,
    milestones: seq<Milestone>)

  /**
   * The deadline check. `parseDate` gives the day number of a `YYYY-MM-DD` text, or `None` when
   * `strptime` would raise; `nowMicros` is the current time.
   */
  method CheckSubmissionDeadline(rfp: Option<Rfp>, parseDate: string -> Option<int>, nowMicros: int)
    returns (r: Result<DeadlineReport, ToolError>)
    ensures rfp.None? ==> r == Err(RfpNotFound)
    ensures rfp.Some? ==> r.Ok?
    ensures rfp.Some? && rfp.value.deadline.GetOr("") == "" ==>
              r.value.status == Unknown && r.value.milestones == [] && r.value.daysRemaining.None?
              && r.value.deadline.None? && r.value.message == Some("No deadline set for this RFP.")
    ensures rfp.Some? && rfp.value.deadline.GetOr("") != "" && parseDate(rfp.value.deadline.value).None? ==>
              r.value.status == Unparseable && r.value.milestones == [] && r.value.daysRemaining.None?
              && r.value.deadline == rfp.value.deadline
              && r.value.message == Some("Could not parse deadline format: " + rfp.value.deadline.value)
    ensures rfp.Some? && rfp.value.deadline.GetOr("") != "" && parseDate(rfp.value.deadline.value).Some? ==>
              var day := parseDate(rfp.value.deadline.value).value;
              r.value.daysRemaining == Some(DaysRemaining(day, nowMicros))
              && r.value.status == Banded(Status(DaysRemaining(day, nowMicros)))
              && r.value.milestones == Milestones(day, nowMicros)
              && r.value.rfpTitle == Some(rfp.value.title)
              && r.value.deadline == rfp.value.deadline && r.value.message.None?
  {
    if rfp.None? {
      return Err(RfpNotFound);
    }
    var deadlineText := rfp.value.deadline;
    if deadlineText.GetOr("") == "" {
      return Ok(DeadlineReport(None, None, None, Unknown, Some("No deadline set for this RFP."), []));
    }
    var parsed := parseDate(deadlineText.value);
    if parsed.None? {
      return Ok(DeadlineReport(None, deadlineText, None, Unparseable,
                               Some("Could not parse deadline format: " + deadlineText.value), []));
    }
    var days := DaysRemaining(parsed.value, nowMicros);
    var milestones := BuildMilestones(parsed.value, nowMicros);
    r := Ok(DeadlineReport(Some(rfp.value.title), deadlineText, Some(days), Banded(Status(days)), None, milestones));
  }

  // ---------------------------------------------------------------------------
  // validate_document_completeness
  // ---------------------------------------------------------------------------

  datatype SectionRecord = SectionRecord(title: Option<string>)
  datatype ProposalRecord = ProposalRecord(sections: Option<seq<SectionRecord>>)

  const MandatorySections: seq<string> := [
    "Executive Summary",
    "Technical Approach",
    "Solution Architecture",
    "Implementation Methodology",
    "Project Timeline",
    "Team Qualifications",
    "Past Experience"]

  function TitleKey(s: SectionRecord): string { Lower(s.title.GetOr("")) }

  /** The lowercased titles of some sections, added one by one. */
  function SectionTitles(secs: seq<SectionRecord>): set<string> {
    if secs == [] then {} else SectionTitles(secs[..|secs| - 1]) + {TitleKey(secs[|secs| - 1])}
  }

  /** The lowercased titles of the sections of all proposals. */
  function ProposalTitles(proposals: seq<ProposalRecord>): set<string> {
    if proposals == [] then {}
    else ProposalTitles(proposals[..|proposals| - 1]) + SectionTitles(proposals[|proposals| - 1].sections.GetOr([]))
  }

  lemma {:induction false} SectionTitlesSpec(secs: seq<SectionRecord>)
    ensures forall t :: t in SectionTitles(secs) <==> exists s :: s in secs && t == TitleKey(s)
  {
    if secs != [] {
      SectionTitlesSpec(secs[..|secs| - 1]);
      assert secs == secs[..|secs| - 1] + [secs[|secs| - 1]];
    }
  }

  /** A title is present exactly when some section of some proposal has it (lowercased). */
  lemma {:induction false} ProposalTitlesSpec(proposals: seq<ProposalRecord>)
    ensures forall t :: t in ProposalTitles(proposals) <==>
              exists p, s :: p in proposals && s in p.sections.GetOr([]) && t == TitleKey(s)
  {
    if proposals != [] {
      var init := proposals[..|proposals| - 1];
      var last := proposals[|proposals| - 1];
      ProposalTitlesSpec(init);
      SectionTitlesSpec(last.sections.GetOr([]));
      assert proposals == init + [last];
    }
  }

  /** The nested loop that fills `existing_sections`. */
  method ExistingSections(proposals: seq<ProposalRecord>) returns (existing: set<string>)
    ensures existing == ProposalTitles(proposals)
  {
    existing := {};
    for k := 0 to |proposals|
      invariant existing == ProposalTitles(proposals[..k])
    {
      assert proposals[..k + 1][..k] == proposals[..k];
      var secs := proposals[k].sections.GetOr([]);
      ghost var before := existing;
      for j := 0 to |secs|
        invariant existing == before + SectionTitles(secs[..j])
      {
        assert secs[..j + 1][..j] == secs[..j];
        existing := existing + {TitleKey(secs[j])};
      }
      assert secs[..|secs|] == secs;
    }
    assert proposals[..|proposals|] == proposals;
  }

  /** The test for a missing mandatory section. */
  function Absent(existing: set<string>): string -> bool {
    s => Lower(s) !in existing
  }

  datatype SectionState = SectionState(section: string, present: bool)

  /** The status loop: one state per section, and the missing ones in the given order. */
  function SectionStates(sections: seq<string>, existing: set<string>): (states: seq<SectionState>)
    ensures |states| == |sections|
    ensures forall i :: 0 <= i < |sections| ==>
              states[i] == SectionState(sections[i], Lower(sections[i]) in existing)
  {
    seq(|sections|, i requires 0 <= i < |sections| => SectionState(sections[i], Lower(sections[i]) in existing))
  }

  lemma SectionStatesStep(sections: seq<string>, existing: set<string>, k: nat)
    requires k < |sections|
    ensures SectionStates(sections, existing)[..k + 1]
            == SectionStates(sections, existing)[..k] + [SectionState(sections[k], Lower(sections[k]) in existing)]
  {
  }

  /** The status loop: one state per section, and the missing ones in the given order. */
  method CheckSections(sections: seq<string>, existing: set<string>)
    returns (status: seq<SectionState>, missing: seq<string>)
    ensures status == SectionStates(sections, existing)
    ensures missing == Filter(Absent(existing), sections)
  {
    status, missing := [], [];
    for k := 0 to |sections|
      invariant status == SectionStates(sections, existing)[..k]
      invariant missing == Filter(Absent(existing), sections[..k])
    {
      var section := sections[k];
      var found := Lower(section) in existing;
      SectionStatesStep(sections, existing, k);
      status := status + [SectionState(section, found)];
      FilterStep(Absent(existing), sections, k);
      assert Absent(existing)(section) == !found;
      if !found {
        missing := missing + [section];
      }
    }
    assert sections[..|sections|] == sections;
  }

  // The warning texts, written in pieces so that facts about their characters stay cheap to check.
  const NoDeadlineWarning: string := "No submission deadline" + " set — risk of missing" + " submission window."
  const NoRequirementsWarning: string := "N" + RequirementsTail
  const RequirementsTail: string := "o requirements extracted" + " from RFP — compliance" + " matrix will be empty."
  const NoProposalsWarning: string := "No proposal" + " documents created yet."

  function Warnings(rfp: Rfp, proposals: seq<ProposalRecord>): seq<string> {
    (if rfp.deadline.GetOr("") == "" then [NoDeadlineWarning] else [])
    + (if rfp.requirements == [] then [NoRequirementsWarning] else [])
    + (if proposals == [] then [NoProposalsWarning] else [])
  }

  /** `complete`: nothing missing and no warning that mentions "No proposal". */
  predicate Complete(missing: seq<string>, warnings: seq<string>) {
    |missing| == 0 && !(exists w :: w in warnings && Contains(w, "No proposal"))
  }

  /** Each character of an occurrence matches the pattern. */
  lemma OccursAtChar(s: string, pat: string, j: nat, k: nat)
    requires OccursAt(s, pat, j) && k < |pat|
    ensures s[j + k] == pat[k]
  {
    assert s[j..j + |pat|][k] == s[j + k];
  }

  /** The warning about a missing deadline has no `p`, so it cannot mention "No proposal". */
  lemma NoProposalInDeadlineWarning()
    ensures !Contains(NoDeadlineWarning, "No proposal")
  {
    var s, pat := NoDeadlineWarning, "No proposal";
    assert 'p' !in s by {
      assert 'p' !in "No submission deadline";
      assert 'p' !in " set — risk of missing";
      assert 'p' !in " submission window.";
    }
    forall j: nat ensures !OccursAt(s, pat, j) {
      if j + |pat| <= |s| {
        assert s[j..j + |pat|][3] == s[j + 3];
        assert s[j + 3] in s;
      }
    }
  }

  lemma DropHead(a: string, b: string)
    ensures (a + b)[|a|..] == b
  {
  }

  lemma NoCapitalN1() ensures 'N' !in "o requirements extracted" { }
  lemma NoCapitalN2() ensures 'N' !in " from RFP — compliance" { }
  lemma NoCapitalN3() ensures 'N' !in " matrix will be empty." { }

  lemma RequirementsTailChars()
    ensures RequirementsTail[2] == 'r'
    ensures 'N' !in RequirementsTail
  {
    NoCapitalN1();
    NoCapitalN2();
    NoCapitalN3();
  }

  /** After its first character, the warning about missing requirements has no `N`. */
  lemma RequirementsWarningTail()
    ensures NoRequirementsWarning[3] == 'r'
    ensures 'N' !in NoRequirementsWarning[1..]
  {
    RequirementsTailChars();
    DropHead("N", RequirementsTail);
    assert NoRequirementsWarning[3] == RequirementsTail[2];
  }

  /** The warning about missing requirements has its only `N` first, followed by "o r". */
  lemma NoProposalInRequirementsWarning()
    ensures !Contains(NoRequirementsWarning, "No proposal")
  {
    var s, pat := NoRequirementsWarning, "No proposal";
    RequirementsWarningTail();
    forall j: nat ensures !OccursAt(s, pat, j) {
      if j + |pat| <= |s| {
        assert s[j..j + |pat|][0] == s[j] && s[j..j + |pat|][3] == s[j + 3];
        if j > 0 {
          assert s[j] == s[1..][j - 1];
        }
      }
    }
  }

  lemma NoProposalInProposalsWarning()
    ensures Contains(NoProposalsWarning, "No proposal")
  {
    assert NoProposalsWarning[0..11] == "No proposal";
    ContainsAt(NoProposalsWarning, "No proposal", 0);
  }

  /** The proposal is complete exactly when no mandatory section is missing and a proposal exists. */
  lemma CompleteIff(missing: seq<string>, rfp: Rfp, proposals: seq<ProposalRecord>)
    ensures Complete(missing, Warnings(rfp, proposals)) <==> missing == [] && proposals != []
  {
    NoProposalInDeadlineWarning();
    NoProposalInRequirementsWarning();
    NoProposalInProposalsWarning();
    var ws := Warnings(rfp, proposals);
    if proposals == [] {
      assert NoProposalsWarning in ws;
    }
  }

  datatype CompletenessReport = CompletenessReport(
    rfpTitle: string,
    complete: bool,
    missingSections: seq<string>,
    sectionStatus: seq<SectionState>,
    warnings: seq<string>,
    totalSections: nat,
    completedSections: nat)

  method ValidateDocumentCompleteness(rfp: Option<Rfp>, proposals: seq<ProposalRecord>)
    returns (r: Result<CompletenessReport, ToolError>)
    ensures rfp.None? ==> r == Err(RfpNotFound)
    ensures rfp.Some? ==>
      var missing := Filter(Absent(ProposalTitles(proposals)), MandatorySections);
      && r.Ok?
      && r.value.missingSections == missing
      && r.value.totalSections == 7
      && r.value.completedSections == 7 - |missing|
      && (r.value.complete <==> missing == [] && proposals != [])
      && r.value.warnings == Warnings(rfp.value, proposals)
      && r.value.rfpTitle == rfp.value.title
      && r.value.sectionStatus == SectionStates(MandatorySections, ProposalTitles(proposals))
  {
    if rfp.None? {
      return Err(RfpNotFound);
    }
    var existing := ExistingSections(proposals);
    var status, missing := CheckSections(MandatorySections, existing);
    var warnings := Warnings(rfp.value, proposals);
    CompleteIff(missing, rfp.value, proposals);
    var complete := Complete(missing, warnings);
    r := Ok(CompletenessReport(rfp.value.title, complete, missing, status, warnings,
                               |MandatorySections|, |MandatorySections| - |missing|));
  }
}

=== FILE: partner_tools.dfy ===
/**
 * The partner tools: the NDA checklist of `create_nda_checklist` and the deliverable tracking of
 * `track_partner_deliverable` (deliverable-type classification and the proposal the deliverable
 * is attached to).
 *
 * The store is read through parameters (the RFP, the partner found by name, the proposals of
 * the RFP, fresh ids) and written through the list of writes each tool returns.
 */
module PartnerTools {
  import opened Wrappers
  import opened Text

  datatype ToolError = RfpNotFound

  /** The parts of a stored RFP the tools read; `country` may be missing. */
  datatype RfpInfo = RfpInfo(title: string, country: Option<string>)

  /** A store write made by a tool. */
  datatype StoreWrite =
    | CreatePartner(name: string)
    | UpdatePartnerNda(partnerId: string, ndaStatus: string)
    | CreateProposal(rfpId: string, proposalType: string, title: string)
    | CreateDeliverable(partnerId: string, proposalId: string, title: string,
                        deliverableType: string, dueDate: string, status: string)

  /** The partner with that name, created (with `freshPartnerId`) when there is none. */
  function EnsurePartner(partnerName: string, found: Option<string>, freshPartnerId: string)
    : (string, seq<StoreWrite>)
  {
    match found
    case Some(id) => (id, [])
    case None => (freshPartnerId, [CreatePartner(partnerName)])
  }

  // ---------------------------------------------------------------------------
  // create_nda_checklist
  // ---------------------------------------------------------------------------

  datatype ChecklistItem = ChecklistItem(item: string, description: string, status: string)

  const TermText: string :=
    "NDA should be effective from signing date and remain in force for a minimum of 3 years after project completion or termination of discussions."
  const DisclosureText: string :=
    "Specify that confidential information may only be shared with employees and subcontractors who need-to-know, and who are bound by similar obligations."
  const ReturnText: string :=
    "Upon termination or request, all confidential materials must be returned or destroyed, with written confirmation provided within 30 days."
  const ExceptionsText: string :=
    "Standard carve-outs: publicly available information, independently developed information, information received from third parties without restriction."
  const SolicitationText: string :=
    "Neither party shall solicit or hire employees of the other party for the duration of the NDA plus 12 months."
  const RemediesText: string :=
    "Define remedies for breach including injunctive relief and indemnification for damages caused by unauthorized disclosure."
  const ScopeHead: string := "Define what information related to '"
  const LawHead: string := "NDA governed by laws of "
  const ScopeTail: string :=
    "' is considered confidential, including RFP documents, pricing, technical designs, and client information."
  const LawTail: string :=
    ". Disputes to be resolved through arbitration in the agreed jurisdiction."

  const ScopeItem: string := "Confidentiality Scope"
  const TermItem: string := "Term and Duration"
  const DisclosureItem: string := "Permitted Disclosures"
  const LawItem: string := "Jurisdiction and Governing Law"
  const ReturnItem: string := "Return/Destroy Obligations"
  const ExceptionsItem: string := "Exceptions to Confidentiality"
  const SolicitationItem: string := "Non-Solicitation"
  const RemediesItem: string := "Breach Remedies"

  /** The item names, in checklist order. */
  const ChecklistNames: seq<string> := [
    ScopeItem, TermItem, DisclosureItem, LawItem, ReturnItem, ExceptionsItem, SolicitationItem, RemediesItem]

  /** The eight standard NDA items; the scope names the tender and the law is the RFP's country
   *  (Oman, "OM", when the RFP has none). */
  function NdaChecklist(rfp: RfpInfo): seq<ChecklistItem> {
    [ ChecklistItem(ScopeItem, ScopeHead + rfp.title + ScopeTail, "pending"),
      ChecklistItem(TermItem, TermText, "pending"),
      ChecklistItem(DisclosureItem, DisclosureText, "pending"),
      ChecklistItem(LawItem, LawHead + rfp.country.GetOr("OM") + LawTail, "pending"),
      ChecklistItem(ReturnItem, ReturnText, "pending"),
      ChecklistItem(ExceptionsItem, ExceptionsText, "pending"),
      ChecklistItem(SolicitationItem, SolicitationText, "pending"),
      ChecklistItem(RemediesItem, RemediesText, "pending") ]
  }

  datatype NdaReply = NdaReply(partnerId: string, partnerName: string, rfpTitle: string,
                               checklistItems: seq<ChecklistItem>, ndaStatus: string)

  function CreateNdaChecklist(rfp: Option<RfpInfo>, partnerName: string, found: Option<string>,
                              freshPartnerId: string): Result<(NdaReply, seq<StoreWrite>), ToolError> {
    match rfp
    case None => Err(RfpNotFound)
    case Some(info) =>
      var (partnerId, writes) := EnsurePartner(partnerName, found, freshPartnerId);
      Ok((NdaReply(partnerId, partnerName, info.title, NdaChecklist(info), "sent"),
          writes + [UpdatePartnerNda(partnerId, "sent")]))
  }

  /** The checklist always has the eight items, in order, all pending; the partner's NDA status is
   *  set to "sent" (after creating the partner when it did not exist), and the reply says so. */
  lemma NdaChecklistSpec(rfp: Option<RfpInfo>, partnerName: string, found: Option<string>, freshPartnerId: string)
    ensures rfp.None? <==> CreateNdaChecklist(rfp, partnerName, found, freshPartnerId).Err?
    ensures rfp.Some? ==>
      var (reply, writes) := CreateNdaChecklist(rfp, partnerName, found, freshPartnerId).value;
      && |reply.checklistItems| == 8
      && (forall i :: 0 <= i < 8 ==> reply.checklistItems[i].item == ChecklistNames[i]
                                     && reply.checklistItems[i].status == "pending")
      && reply.ndaStatus == "sent"
      && writes[|writes| - 1] == UpdatePartnerNda(reply.partnerId, "sent")
      && (found.Some? ==> reply.partnerId == found.value && |writes| == 1)
      && (found.None? ==> writes == [CreatePartner(partnerName), UpdatePartnerNda(freshPartnerId, "sent")])
  {
  }

  // ---------------------------------------------------------------------------
  // track_partner_deliverable
  // ---------------------------------------------------------------------------

  datatype DeliverableType = Pricing | Cv | Certification | ReferenceLetter | TechnicalInput | Document

  function TypeName(t: DeliverableType): string {
    match t
    case Pricing => "pricing"
    case Cv => "cv"
    case Certification => "certification"
    case ReferenceLetter => "reference_letter"
    case TechnicalInput => "technical_input"
    case Document => "document"
  }

  const PricingWords: seq<string> := ["price", "pricing", "cost", "quote"]
  const CvWords: seq<string> := ["cv", "resume", "personnel"]
  const CertificationWords: seq<string> := ["cert", "certificate", "accreditation"]
  const ReferenceWords: seq<string> := ["reference", "letter"]
  const TechnicalWords: seq<string> := ["technical", "spec", "design", "architecture"]

  /** Some keyword occurs in the text. */
  predicate Mentions(text: string, words: seq<string>) {
    exists w :: w in words && Contains(text, w)
  }

  /** The deliverable type: the first keyword group that occurs in the lowercased item. */
  function Classify(item: string): DeliverableType {
    var text := Lower(item);
    if Mentions(text, PricingWords) then Pricing
    else if Mentions(text, CvWords) then Cv
    else if Mentions(text, CertificationWords) then Certification
    else if Mentions(text, ReferenceWords) then ReferenceLetter
    else if Mentions(text, TechnicalWords) then TechnicalInput
    else Document
  }

  /** Matching ignores case: an item and its lowercase form get the same type. */
  lemma ClassifyIgnoresCase(item: string)
    ensures Classify(Lower(item)) == Classify(item)
  {
    LowerIdempotent(item);
  }

  /** Each type is chosen exactly when its group matches and no earlier group does. */
  lemma ClassifyPriority(item: string)
    ensures var text := Lower(item);
      && (Classify(item) == Pricing <==> Mentions(text, PricingWords))
      && (Classify(item) == Cv <==> !Mentions(text, PricingWords) && Mentions(text, CvWords))
      && (Classify(item) == Certification <==>
            !Mentions(text, PricingWords) && !Mentions(text, CvWords) && Mentions(text, CertificationWords))
      && (Classify(item) == ReferenceLetter <==>
            !Mentions(text, PricingWords) && !Mentions(text, CvWords) && !Mentions(text, CertificationWords)
            && Mentions(text, ReferenceWords))
      && (Classify(item) == TechnicalInput <==>
            !Mentions(text, PricingWords) && !Mentions(text, CvWords) && !Mentions(text, CertificationWords)
            && !Mentions(text, ReferenceWords) && Mentions(text, TechnicalWords))
      && (Classify(item) == Document <==>
            !Mentions(text, PricingWords) && !Mentions(text, CvWords) && !Mentions(text, CertificationWords)
            && !Mentions(text, ReferenceWords) && !Mentions(text, TechnicalWords))
  {
  }

  /** An item that mentions a quote is pricing, whatever else it mentions. */
  lemma QuoteIsPricing(item: string)
    requires Contains(Lower(item), "quote")
    ensures Classify(item) == Pricing
  {
    assert "quote" in PricingWords;
  }

  /** A proposal of the RFP as the store lists it. */
  datatype ProposalRef = ProposalRef(id: string)

  /** The proposal a deliverable attaches to: the first one of the RFP, else a new technical one. */
  function ChooseProposal(rfpId: string, rfpTitle: string, proposals: seq<ProposalRef>, freshProposalId: string)
    : (string, seq<StoreWrite>)
  {
    if proposals != [] then (proposals[0].id, [])
    else (freshProposalId, [CreateProposal(rfpId, "technical", "Proposal — " + rfpTitle)])
  }

  datatype DeliverableReply = DeliverableReply(
    deliverableId: string,
    partnerName: string,
    partnerId: string,
    item: string,
    deliverableType: string,
    deadline: string,
    status: string,
    proposalId: string)

  function TrackPartnerDeliverable(rfp: Option<RfpInfo>, rfpId: string, partnerName: string,
                                   found: Option<string>, proposals: seq<ProposalRef>,
                                   item: string, deadline: string, freshPartnerId: string,
                                   freshProposalId: string, freshDeliverableId: string)
    : Result<(DeliverableReply, seq<StoreWrite>), ToolError>
  {
    match rfp
    case None => Err(RfpNotFound)
    case Some(info) =>
      var (partnerId, partnerWrites) := EnsurePartner(partnerName, found, freshPartnerId);
      var (proposalId, proposalWrites) := ChooseProposal(rfpId, info.title, proposals, freshProposalId);
      var kind := TypeName(Classify(item));
      Ok((DeliverableReply(freshDeliverableId, partnerName, partnerId, item, kind, deadline, "requested", proposalId),
          partnerWrites + proposalWrites
          + [CreateDeliverable(partnerId, proposalId, item, kind, deadline, "requested")]))
  }

  /**
   * A tracked deliverable is recorded as "requested" with its item, classified type and due date;
   * it belongs to the named partner, created first when there is none, and attaches to the RFP's
   * first proposal, a new technical proposal being created only when there is none.
   */
  lemma TrackSpec(rfp: Option<RfpInfo>, rfpId: string, partnerName: string, found: Option<string>,
                  proposals: seq<ProposalRef>, item: string, deadline: string, freshPartnerId: string,
                  freshProposalId: string, freshDeliverableId: string)
    requires rfp.Some?
    ensures var res := TrackPartnerDeliverable(rfp, rfpId, partnerName, found, proposals, item, deadline,
                                               freshPartnerId, freshProposalId, freshDeliverableId);
      var (reply, writes) := res.value;
      && res.Ok?
      && reply.status == "requested"
      && reply.deliverableType == TypeName(Classify(item))
      && writes[|writes| - 1]
         == CreateDeliverable(reply.partnerId, reply.proposalId, item, TypeName(Classify(item)), deadline, "requested")
      && reply.deliverableId == freshDeliverableId && reply.deadline == deadline
      && reply.partnerName == partnerName && reply.item == item
      && (found.Some? ==> reply.partnerId == found.value && forall w :: w in writes ==> !w.CreatePartner?)
      && (found.None? ==> reply.partnerId == freshPartnerId && writes[0] == CreatePartner(partnerName))
      && (proposals != [] ==> reply.proposalId == proposals[0].id
                              && forall w :: w in writes ==> !w.CreateProposal?)
      && (proposals == [] ==> reply.proposalId == freshProposalId
                              && CreateProposal(rfpId, "technical", "Proposal — " + rfp.value.title) in writes)
  {
  }
}

=== FILE: proposal_index.dfy ===
/**
 * The past-proposal index: the rows the lexical and vector indexes return, the canonical
 * index entry, and the store that keeps one entry (and at most one vector) per folder.
 */
module ProposalIndex {
  import opened Wrappers

  /** A `proposal_index` row as returned by a lexical or a vector query. */
  datatype Row = Row(
    id: string,
    folderName: string,
    title: string,
    client: string,
    sector: Option<string>,  // `None` for a NULL column
    country: string,
    technicalSummary: string,
    pricingSummary: string,
    totalPrice: real,
    technologies: seq<string>,
    rank: Option<real>,      // set on lexical hits
    distance: Option<real>)  // set on vector hits

  /** A row after result combination, with its fused score when rank fusion produced it. */
  datatype Hit = Hit(row: Row, rrfScore: Option<real>)

  /** A ProposalIndexEntry: the record written by ingestion and listed by the listing tool. */
  datatype Entry = Entry(
    id: string,
    folderName: string,
    tenderNumber: string,
    title: string,
    client: string,
    sector: string,
    country: string,
    technicalSummary: string,
    pricingSummary: string,
    totalPrice: real,
    marginInfo: string,
    technologies: seq<string>,
    keywords: seq<string>,
    fullSummary: string,
    fileCount: nat,
    fileList: seq<string>)

  /**
   * The index store: the relational rows (lexically searchable) keyed by folder name and
   * the optional embedding per folder.
   */
  class IndexStore {
    var entries: map<string, Entry>
    var vectors: map<string, seq<real>>
    const vecEnabled: bool

    /** One entry per folder name; a vector only for an indexed folder and only when enabled. */
    ghost predicate Valid()
      reads this
    {
      && (forall f :: f in entries ==> entries[f].folderName == f)
      && vectors.Keys <= entries.Keys
      && (!vecEnabled ==> vectors == map[])
    }

    constructor (vecEnabled: bool)
      ensures Valid()
      ensures entries == map[] && vectors == map[] && this.vecEnabled == vecEnabled
    {
      entries := map[];
      vectors := map[];
      this.vecEnabled := vecEnabled;
    }

    /**
     * Insert or replace the entry of `fields.folderName`; an existing entry keeps its id, a new
     * one gets `freshId`.
     */
    method UpsertProposalIndex(fields: Entry, freshId: string) returns (stored: Entry)
      requires Valid()
      modifies this
      ensures Valid()
      ensures stored.folderName == fields.folderName
      ensures stored == fields.(id := if fields.folderName in old(entries)
                                     then old(entries)[fields.folderName].id else freshId)
      ensures entries == old(entries)[fields.folderName := stored]
      ensures vectors == old(vectors)
    {
      var id := if fields.folderName in entries then entries[fields.folderName].id else freshId;
      stored := fields.(id := id);
      entries := entries[fields.folderName := stored];
    }

    /** Insert or replace the embedding of an indexed folder. */
    method UpsertProposalVector(folderName: string, vector: seq<real>)
      requires Valid() && vecEnabled && folderName in entries
      modifies this
      ensures Valid()
      ensures entries == old(entries)
      ensures vectors == old(vectors)[folderName := vector]
    {
      vectors := vectors[folderName := vector];
    }
  }
}

=== FILE: proposal_ingestion.dfy ===
/**
 * `index_past_proposal`: selects the parseable files of a past-proposal folder, tags and
 * budgets their text for the LLM, strips code fences from the LLM reply, falls back to a
 * degraded entry when the reply is not JSON, and upserts the entry (and its embedding).
 *
 * The folder listing, the file reader, the LLM, the JSON decoder and the embedder are
 * parameters.
 */
module ProposalIngestion {
  import opened Wrappers
  import opened Collections
  import opened Text
  import opened ProposalIndex

  const MaxTotalChars: nat := 25000
  const FinancialReserveChars: nat := 8000
  const NarrativeFloorChars: nat := 5000
  const EmbedChars: nat := 8000
  const FallbackSummaryChars: nat := 1000
  const FinancialMarker: string := "\n\n--- FINANCIAL DATA ---\n\n"
  const Fence: string := "```"

  // ---------------------------------------------------------------------------
  // File selection
  // ---------------------------------------------------------------------------

  predicate IsIndexableExtension(ext: string) {
    ext in {".pdf", ".docx", ".doc", ".xlsx", ".xls", ".md", ".txt"}
  }

  /** The index of the last `c` in `s`: Python's `s.rfind(c)`, with `None` for -1. */
  function LastIndexOfChar(s: string, c: char): (r: Option<nat>)
    ensures r.Some? ==> r.value < |s| && s[r.value] == c
    ensures r.Some? ==> forall j :: r.value < j < |s| ==> s[j] != c
    ensures r.None? ==> c !in s
  {
    if s == [] then None
    else if s[|s| - 1] == c then Some(|s| - 1)
    else LastIndexOfChar(s[..|s| - 1], c)
  }

  /** `Path(name).suffix`: from the last dot on, unless that dot is first or last in the name. */
  function Suffix(name: string): string {
    match LastIndexOfChar(name, '.')
    case Some(i) => if 0 < i < |name| - 1 then name[i..] else ""
    case None => ""
  }

  /** A non-empty suffix is a proper tail of the name: one dot, then at least one other character. */
  lemma SuffixShape(name: string)
    ensures var ext := Suffix(name);
            ext == [] || (2 <= |ext| < |name| && ext == name[|name| - |ext|..]
                          && ext[0] == '.' && '.' !in ext[1..])
  {
    var ext := Suffix(name);
    if ext != [] {
      var i := LastIndexOfChar(name, '.').value;
      assert ext == name[i..];
      forall k | 0 <= k < |ext| - 1 ensures ext[1..][k] != '.' {
        assert ext[1..][k] == name[i + 1 + k];
      }
    }
  }

  /** An entry of the folder listing. */
  datatype DirEntry = DirEntry(name: string, isFile: bool)

  /** A regular file with a parseable extension (case-insensitive) whose name does not start with `_`. */
  predicate Selected(e: DirEntry) {
    e.isFile && IsIndexableExtension(Lower(Suffix(e.name))) && !StartsWith(e.name, "_")
  }

  /** `a <= b` in Python's string order (code point by code point). */
  predicate NameLe(a: string, b: string) {
    a == [] || (b != [] && (a[0] < b[0] || (a[0] == b[0] && NameLe(a[1..], b[1..]))))
  }

  lemma {:induction false} NameLeTotal(a: string, b: string)
    ensures NameLe(a, b) || NameLe(b, a)
  {
    if a != [] && b != [] && a[0] == b[0] {
      NameLeTotal(a[1..], b[1..]);
    }
  }

  predicate Ascending(xs: seq<string>) {
    forall i :: 0 <= i < |xs| - 1 ==> NameLe(xs[i], xs[i + 1])
  }

  /** Inserts `x` before the first name it does not follow. */
  function InsertName(x: string, ys: seq<string>): (r: seq<string>)
    ensures multiset(r) == multiset(ys) + multiset{x}
    ensures |r| == |ys| + 1
    ensures r[0] == x || (ys != [] && r[0] == ys[0])
  {
    if ys == [] then [x]
    else if NameLe(x, ys[0]) then [x] + ys
    else
      assert ys == [ys[0]] + ys[1..];
      [ys[0]] + InsertName(x, ys[1..])
  }

  /** `sorted(names)`. */
  function SortNames(xs: seq<string>): (r: seq<string>)
    ensures multiset(r) == multiset(xs)
  {
    if xs == [] then []
    else
      assert xs == [xs[0]] + xs[1..];
      InsertName(xs[0], SortNames(xs[1..]))
  }

  lemma {:induction false} InsertNameAscending(x: string, ys: seq<string>)
    requires Ascending(ys)
    ensures Ascending(InsertName(x, ys))
  {
    if ys != [] && !NameLe(x, ys[0]) {
      NameLeTotal(x, ys[0]);
      InsertNameAscending(x, ys[1..]);
      var r := InsertName(x, ys);
      var t := InsertName(x, ys[1..]);
      assert r == [ys[0]] + t;
      forall i | 0 <= i < |r| - 1 ensures NameLe(r[i], r[i + 1]) {
        if i > 0 {
          assert r[i] == t[i - 1] && r[i + 1] == t[i];
        }
      }
    }
  }

  lemma {:induction false} SortNamesAscending(xs: seq<string>)
    ensures Ascending(SortNames(xs))
  {
    if xs != [] {
      SortNamesAscending(xs[1..]);
      InsertNameAscending(xs[0], SortNames(xs[1..]));
    }
  }

  function Names(entries: seq<DirEntry>): (names: seq<string>)
    ensures |names| == |entries|
    ensures forall i :: 0 <= i < |entries| ==> names[i] == entries[i].name
  {
    seq(|entries|, i requires 0 <= i < |entries| => entries[i].name)
  }

  /** The file list of a folder: the names of the selected entries, sorted. */
  function SelectFiles(listing: seq<DirEntry>): seq<string> {
    SortNames(Names(Filter(Selected, listing)))
  }

  /** The file list is sorted and holds exactly the names of the selected entries. */
  lemma SelectFilesSpec(listing: seq<DirEntry>)
    ensures Ascending(SelectFiles(listing))
    ensures forall n :: n in SelectFiles(listing) <==> exists e :: e in listing && Selected(e) && e.name == n
  {
    var kept := Filter(Selected, listing);
    SortNamesAscending(Names(kept));
    forall n ensures n in SelectFiles(listing) <==> exists e :: e in listing && Selected(e) && e.name == n {
      assert n in SelectFiles(listing) <==> n in multiset(Names(kept));
      if n in Names(kept) {
        var i :| 0 <= i < |kept| && Names(kept)[i] == n;
        assert kept[i] in kept;
      }
      if exists e :: e in listing && Selected(e) && e.name == n {
        var e :| e in listing && Selected(e) && e.name == n;
        assert e in kept;
        var i :| 0 <= i < |kept| && kept[i] == e;
        assert Names(kept)[i] == n;
      }
    }
  }

  // ---------------------------------------------------------------------------
  // Text collection and the context budget
  // ---------------------------------------------------------------------------

  /** Spreadsheets carry the financial data. */
  predicate IsFinancial(name: string) {
    Lower(Suffix(name)) in {".xlsx", ".xls"}
  }

  /** A file's text with its header line. */
  function Tagged(name: string, content: string): string {
    "=== " + name + (if IsFinancial(name) then " (Financial)" else "") + " ===\n" + content
  }

  /** The tagged texts, spreadsheets apart from the rest, each in file order. */
  datatype Texts = Texts(financial: seq<string>, other: seq<string>)

  /** The texts gathered from `files`; a file that reads as empty contributes nothing. */
  function Collect(files: seq<string>, read: string -> string): Texts {
    if files == [] then Texts([], [])
    else
      var t := Collect(files[..|files| - 1], read);
      var f := files[|files| - 1];
      var content := read(f);
      if content == [] then t
      else if IsFinancial(f) then t.(financial := t.financial + [Tagged(f, content)])
      else t.(other := t.other + [Tagged(f, content)])
  }

  /** Every collected financial text is the tagged text of a spreadsheet with content. */
  lemma {:induction false} FinancialSource(files: seq<string>, read: string -> string, t: string)
    requires t in Collect(files, read).financial
    ensures exists f :: f in files && IsFinancial(f) && read(f) != [] && t == Tagged(f, read(f))
  {
    var init, last := files[..|files| - 1], files[|files| - 1];
    Snoc(files);
    if t in Collect(init, read).financial {
      FinancialSource(init, read, t);
      var f :| f in init && IsFinancial(f) && read(f) != [] && t == Tagged(f, read(f));
      assert f in files;
    } else {
      assert last in files;
    }
  }

  /** Every other collected text is the tagged text of a non-spreadsheet file with content. */
  lemma {:induction false} OtherSource(files: seq<string>, read: string -> string, t: string)
    requires t in Collect(files, read).other
    ensures exists f :: f in files && !IsFinancial(f) && read(f) != [] && t == Tagged(f, read(f))
  {
    var init, last := files[..|files| - 1], files[|files| - 1];
    Snoc(files);
    if t in Collect(init, read).other {
      OtherSource(init, read, t);
      var f :| f in init && !IsFinancial(f) && read(f) != [] && t == Tagged(f, read(f));
      assert f in files;
    } else {
      assert last in files;
    }
  }

  /** Every file with content contributes its tagged text to the list it belongs to. */
  lemma {:induction false} CollectComplete(files: seq<string>, read: string -> string, f: string)
    requires f in files && read(f) != []
    ensures Tagged(f, read(f)) in (if IsFinancial(f) then Collect(files, read).financial
                                   else Collect(files, read).other)
  {
    var init, last := files[..|files| - 1], files[|files| - 1];
    Snoc(files);
    if f != last {
      assert f in init;
      CollectComplete(init, read, f);
    }
  }

  /** The per-file loop of `index_past_proposal`. */
  method CollectTexts(files: seq<string>, read: string -> string)
    returns (financialTexts: seq<string>, otherTexts: seq<string>)
    ensures Texts(financialTexts, otherTexts) == Collect(files, read)
  {
    financialTexts, otherTexts := [], [];
    for k := 0 to |files|
      invariant Texts(financialTexts, otherTexts) == Collect(files[..k], read)
    {
      assert files[..k + 1][..k] == files[..k];
      var f := files[k];
      var content := read(f);
      if content == [] {
        continue;
      }
      if IsFinancial(f) {
        financialTexts := financialTexts + [Tagged(f, content)];
      } else {
        otherTexts := otherTexts + [Tagged(f, content)];
      }
    }
    assert files[..|files|] == files;
  }

  /** The narrative and financial parts of the LLM context after truncation. */
  datatype Context = Context(narrative: string, financial: string)

  /** Truncation: financial text keeps a reserve of its own, and the narrative gets what is left
   *  of the total budget (never less than the floor); without financial text the narrative gets
   *  the whole budget. */
  function Budget(financialCombined: string, otherCombined: string): Context {
    if financialCombined != [] then
      var fin := SliceTo(financialCombined, FinancialReserveChars);
      var remaining := MaxTotalChars - |fin|;
      Context(SliceTo(otherCombined, Max(remaining, NarrativeFloorChars)), fin)
    else Context(SliceTo(otherCombined, MaxTotalChars), [])
  }

  /** The context text: the narrative, then the financial data after a marker. */
  function ContextText(ctx: Context): string {
    ctx.narrative + (if ctx.financial != [] then FinancialMarker + ctx.financial else "")
  }

  /** Both parts are prefixes of their inputs within their budgets, and together within the total. */
  lemma BudgetBounds(financialCombined: string, otherCombined: string)
    ensures var ctx := Budget(financialCombined, otherCombined);
      && ctx.financial == financialCombined[..|ctx.financial|]
      && ctx.narrative == otherCombined[..|ctx.narrative|]
      && |ctx.financial| == Min(|financialCombined|, FinancialReserveChars)
      && (financialCombined != [] ==>
            |ctx.narrative| == Min(|otherCombined|, Max(MaxTotalChars - |ctx.financial|, NarrativeFloorChars)))
      && (financialCombined == [] ==> |ctx.narrative| == Min(|otherCombined|, MaxTotalChars))
      && |ctx.narrative| + |ctx.financial| <= MaxTotalChars
  {
  }

  /** The financial data, when there is any, comes last, right after the marker. */
  lemma FinancialLast(financialCombined: string, otherCombined: string)
    requires financialCombined != []
    ensures var text := ContextText(Budget(financialCombined, otherCombined));
            var fin := Budget(financialCombined, otherCombined).financial;
            |fin| > 0 && |FinancialMarker| + |fin| <= |text|
            && text[|text| - |fin|..] == fin
            && text[|text| - |fin| - |FinancialMarker|..|text| - |fin|] == FinancialMarker
  {
    var ctx := Budget(financialCombined, otherCombined);
    var text := ContextText(ctx);
    assert text == ctx.narrative + FinancialMarker + ctx.financial;
  }

  const PromptHead: string := "Analyze the following past proposal documents from folder '"
  const PromptFiles: string := "' and extract structured metadata.\n\nFiles: "

  /** The LLM prompt. */
  function Prompt(folderName: string, fileList: seq<string>, combinedText: string): string {
    PromptHead + folderName + PromptFiles + Join(fileList, ", ") + "\n\n" + combinedText
  }

  // ---------------------------------------------------------------------------
  // The LLM reply
  // ---------------------------------------------------------------------------

  predicate NotFenceLine(line: string) {
    !StartsWith(Strip(line), Fence)
  }

  /** The reply with surrounding space removed and, when it opens with a fence, every fence line dropped. */
  function StripFences(raw: string): string {
    var text := Strip(raw);
    if StartsWith(text, Fence) then Join(Filter(NotFenceLine, Split(text, "\n")), "\n")
    else text
  }

  /** After stripping, no line of a fenced reply is a fence line; an unfenced reply is only trimmed. */
  lemma StripFencesSpec(raw: string)
    ensures StartsWith(Strip(raw), Fence) ==>
              forall line :: line in Split(StripFences(raw), "\n") ==> NotFenceLine(line)
    ensures !StartsWith(Strip(raw), Fence) ==> StripFences(raw) == Strip(raw)
  {
    var text := Strip(raw);
    if StartsWith(text, Fence) {
      var lines := Split(text, "\n");
      var kept := Filter(NotFenceLine, lines);
      if kept == [] {
        assert Find("", "\n").None?;
        assert Split("", "\n") == [""];
      } else {
        SplitPiecesClear(text, "\n");
        SplitJoin(kept, "\n");
      }
    }
  }

  /** The lines that survive are exactly the reply's non-fence lines, in order. */
  lemma StripFencesKeepsContent(raw: string)
    requires StartsWith(Strip(raw), Fence)
    requires exists line :: line in Split(Strip(raw), "\n") && NotFenceLine(line)
    ensures Split(StripFences(raw), "\n") == Filter(NotFenceLine, Split(Strip(raw), "\n"))
  {
    var lines := Split(Strip(raw), "\n");
    var kept := Filter(NotFenceLine, lines);
    var line :| line in lines && NotFenceLine(line);
    assert line in kept;
    SplitPiecesClear(Strip(raw), "\n");
    SplitJoin(kept, "\n");
  }

  /** The fields the LLM extracted; a missing key is `None`. */
  datatype Extracted = Extracted(
    title: Option<string>,
    tenderNumber: Option<string>,
    client: Option<string>,
    sector: Option<string>,
    country: Option<string>,
    technicalSummary: Option<string>,
    pricingSummary: Option<string>,
    totalPrice: Option<real>,
    marginInfo: Option<string>,
    technologies: Option<seq<string>>,
    keywords: Option<seq<string>>,
    fullSummary: Option<string>)

  /** The degraded extraction used when the reply is not JSON. */
  function Degraded(folderName: string, raw: string): Extracted {
    Extracted(Some(folderName), None, None, None, None, None, None, None, None, None, None,
              Some(SliceTo(raw, FallbackSummaryChars)))
  }

  /** The parsed reply (`parseJson` returns `None` on a decode error), else the degraded one. */
  function Extract(folderName: string, raw: string, parseJson: string -> Option<Extracted>): Extracted {
    match parseJson(StripFences(raw))
    case Some(e) => e
    case None => Degraded(folderName, raw)
  }

  /** The entry upserted for the extraction (its id is assigned by the store). */
  function EntryFor(folderName: string, e: Extracted, fileList: seq<string>): Entry {
    Entry("", folderName, e.tenderNumber.GetOr(""), e.title.GetOr(folderName), e.client.GetOr(""),
          e.sector.GetOr(""), e.country.GetOr(""), e.technicalSummary.GetOr(""),
          e.pricingSummary.GetOr(""), e.totalPrice.GetOr(0.0), e.marginInfo.GetOr(""),
          e.technologies.GetOr([]), e.keywords.GetOr([]), e.fullSummary.GetOr(""),
          |fileList|, fileList)
  }

  /** A reply that is not JSON still yields an entry: titled by the folder, summarised by the
   *  first 1000 characters of the unstripped reply, everything else empty. */
  lemma DegradedEntry(folderName: string, raw: string, parseJson: string -> Option<Extracted>,
                      fileList: seq<string>)
    requires parseJson(StripFences(raw)).None?
    ensures var entry := EntryFor(folderName, Extract(folderName, raw, parseJson), fileList);
      && entry.title == folderName && entry.folderName == folderName
      && entry.fullSummary == raw[..Min(|raw|, FallbackSummaryChars)]
      && entry.tenderNumber == "" && entry.client == "" && entry.sector == "" && entry.country == ""
      && entry.technicalSummary == "" && entry.pricingSummary == "" && entry.marginInfo == ""
      && entry.totalPrice == 0.0 && entry.technologies == [] && entry.keywords == []
      && entry.fileCount == |fileList| && entry.fileList == fileList
  {
  }

  /** The text embedded for the vector index (missing fields are empty, the title included). */
  function EmbedText(e: Extracted): (text: string)
    ensures |text| <= EmbedChars
  {
    var full := e.title.GetOr("") + " " + e.client.GetOr("") + " " + e.sector.GetOr("") + " "
                + e.technicalSummary.GetOr("") + " " + Join(e.keywords.GetOr([]), " ") + " "
                + e.fullSummary.GetOr("");
    SliceTo(full, EmbedChars)
  }

  // ---------------------------------------------------------------------------
  // The tool
  // ---------------------------------------------------------------------------

  datatype IndexError = FolderNotFound | NoParseableFiles

  /** The tool's reply. */
  datatype IndexReport = IndexReport(
    indexId: string,
    folderName: string,
    title: string,
    client: string,
    sector: string,
    fileCount: nat,
    technologies: seq<string>,
    vectorIndexed: bool)

  /** The LLM context for the selected files. */
  function ContextFor(files: seq<string>, read: string -> string): string {
    var texts := Collect(files, read);
    ContextText(Budget(Join(texts.financial, "\n\n"), Join(texts.other, "\n\n")))
  }

  /** What the LLM's reply about the folder's selected files yields. */
  function ExtractedFor(folderName: string, listing: seq<DirEntry>, read: string -> string,
                        llm: string -> string, parseJson: string -> Option<Extracted>): Extracted {
    var files := SelectFiles(listing);
    Extract(folderName, llm(Prompt(folderName, files, ContextFor(files, read))), parseJson)
  }

  /** The entry the tool derives for a folder, before the store assigns its id. */
  function IndexedEntry(folderName: string, listing: seq<DirEntry>, read: string -> string,
                        llm: string -> string, parseJson: string -> Option<Extracted>): Entry {
    EntryFor(folderName, ExtractedFor(folderName, listing, read, llm, parseJson), SelectFiles(listing))
  }

  /**
   * Indexes one folder: fails when the folder is missing or has no parseable file; otherwise
   * upserts the entry (keeping the id of an earlier entry of the folder) and, when embeddings
   * are configured and the store has a vector index, stores the embedding unless embedding fails.
   */
  method IndexPastProposal(store: IndexStore, folderName: string, folderExists: bool,
                           listing: seq<DirEntry>, read: string -> string, llm: string -> string,
                           parseJson: string -> Option<Extracted>, embeddingsConfigured: bool,
                           embed: string -> Option<seq<real>>, freshId: string)
    returns (r: Result<IndexReport, IndexError>)
    requires store.Valid()
    modifies store
    ensures store.Valid()
    ensures !folderExists ==> r == Err(FolderNotFound)
    ensures folderExists && SelectFiles(listing) == [] ==> r == Err(NoParseableFiles)
    ensures r.Err? ==> store.entries == old(store.entries) && store.vectors == old(store.vectors)
    ensures folderExists && SelectFiles(listing) != [] ==> r.Ok?
    ensures r.Ok? ==>
      var entry := IndexedEntry(folderName, listing, read, llm, parseJson);
      var id := if folderName in old(store.entries) then old(store.entries)[folderName].id else freshId;
      var vector := embed(EmbedText(ExtractedFor(folderName, listing, read, llm, parseJson)));
      var stored := embeddingsConfigured && store.vecEnabled && vector.Some?;
      && store.entries == old(store.entries)[folderName := entry.(id := id)]
      && store.vectors == (if stored then old(store.vectors)[folderName := vector.value]
                           else old(store.vectors))
      && r.value == IndexReport(id, folderName, entry.title, entry.client, entry.sector,
                                entry.fileCount, entry.technologies, stored)
  {
    if !folderExists {
      return Err(FolderNotFound);
    }
    var files := SelectFiles(listing);
    if files == [] {
      return Err(NoParseableFiles);
    }
    var financialTexts, otherTexts := CollectTexts(files, read);
    var combinedText := ContextText(Budget(Join(financialTexts, "\n\n"), Join(otherTexts, "\n\n")));
    var raw := llm(Prompt(folderName, files, combinedText));
    var extracted := Extract(folderName, raw, parseJson);
    assert extracted == ExtractedFor(folderName, listing, read, llm, parseJson);
    var report := StoreExtracted(store, folderName, extracted, files, embeddingsConfigured, embed, freshId);
    r := Ok(report);
  }

  /** The store writes of `index_past_proposal` once the extraction is known. */
  method StoreExtracted(store: IndexStore, folderName: string, extracted: Extracted, files: seq<string>,
                        embeddingsConfigured: bool, embed: string -> Option<seq<real>>, freshId: string)
    returns (report: IndexReport)
    requires store.Valid()
    modifies store
    ensures store.Valid()
    ensures
      var entry := EntryFor(folderName, extracted, files);
      var id := if folderName in old(store.entries) then old(store.entries)[folderName].id else freshId;
      var vector := embed(EmbedText(extracted));
      var stored := embeddingsConfigured && store.vecEnabled && vector.Some?;
      && store.entries == old(store.entries)[folderName := entry.(id := id)]
      && store.vectors == (if stored then old(store.vectors)[folderName := vector.value]
                           else old(store.vectors))
      && report == IndexReport(id, folderName, entry.title, entry.client, entry.sector,
                               entry.fileCount, entry.technologies, stored)
  {
    var record := store.UpsertProposalIndex(EntryFor(folderName, extracted, files), freshId);
    var vectorStored := false;
    if embeddingsConfigured && store.vecEnabled {
      var vector := embed(EmbedText(extracted));
      if vector.Some? {
        store.UpsertProposalVector(folderName, vector.value);
        vectorStored := true;
      }
    }
    report := IndexReport(record.id, folderName, record.title, record.client, record.sector,
                          |files|, record.technologies, vectorStored);
  }
}

=== FILE: proposal_listing.dfy ===
/**
 * `list_indexed_proposals`: one summary per indexed proposal plus per-sector and per-country
 * counts (dicts in first-seen key order) and the total value.
 */
module ProposalListing {
  import opened Wrappers
  import opened Collections

  /** A row of `list_proposal_indexes`; a key the row lacks is `None`. */
  datatype ListedRow = ListedRow(
    id: string,
    folderName: string,
    title: Option<string>,
    client: Option<string>,
    sector: Option<string>,
    country: Option<string>,
    totalPrice: Option<real>,
    fileCount: Option<nat>,
    technologies: Option<seq<string>>,
    indexedAt: Option<string>)

  /** One entry of `proposals`. */
  datatype Summary = Summary(
    indexId: string,
    folderName: string,
    title: string,
    client: string,
    sector: string,
    country: string,
    totalPrice: real,
    fileCount: nat,
    technologies: seq<string>,
    indexedAt: string)

  function Summarize(r: ListedRow): Summary {
    Summary(r.id, r.folderName, r.title.GetOr(""), r.client.GetOr(""), r.sector.GetOr(""),
            r.country.GetOr(""), r.totalPrice.GetOr(0.0), r.fileCount.GetOr(0),
            r.technologies.GetOr([]), r.indexedAt.GetOr(""))
  }

  /** The key a row is counted under: a missing sector or country counts as "unknown". */
  function SectorKey(r: ListedRow): string { r.sector.GetOr("unknown") }
  function CountryKey(r: ListedRow): string { r.country.GetOr("unknown") }

  /** A counting dict: the counts and the keys in insertion order. */
  datatype Counter = Counter(counts: map<string, nat>, keys: seq<string>)

  /** `d[k] = d.get(k, 0) + 1`. */
  function Count(c: Counter, k: string): Counter {
    Counter(c.counts[k := (if k in c.counts then c.counts[k] else 0) + 1],
            if k in c.counts then c.keys else c.keys + [k])
  }

  /** The four accumulators of the loop. */
  datatype Totals = Totals(proposals: seq<Summary>, bySector: Counter, byCountry: Counter, totalValue: real)

  /** The accumulators after the rows, one loop step per row. */
  function Aggregate(rows: seq<ListedRow>): Totals {
    if rows == [] then Totals([], Counter(map[], []), Counter(map[], []), 0.0)
    else
      var t := Aggregate(rows[..|rows| - 1]);
      var r := rows[|rows| - 1];
      Totals(t.proposals + [Summarize(r)], Count(t.bySector, SectorKey(r)),
             Count(t.byCountry, CountryKey(r)), t.totalValue + r.totalPrice.GetOr(0.0))
  }

  /** The tool's reply. */
  datatype Listing = Listing(
    totalCount: nat,
    bySector: Counter,
    byCountry: Counter,
    totalValue: real,
    vectorSearchAvailable: bool,
    proposals: seq<Summary>)

  method ListIndexedProposals(rows: seq<ListedRow>, vectorSearchAvailable: bool) returns (listing: Listing)
    ensures var t := Aggregate(rows);
            listing == Listing(|t.proposals|, t.bySector, t.byCountry, t.totalValue,
                               vectorSearchAvailable, t.proposals)
  {
    var proposals: seq<Summary> := [];
    var bySector := Counter(map[], []);
    var byCountry := Counter(map[], []);
    var totalValue := 0.0;
    for k := 0 to |rows|
      invariant Totals(proposals, bySector, byCountry, totalValue) == Aggregate(rows[..k])
    {
      assert rows[..k + 1][..k] == rows[..k];
      var r := rows[k];
      proposals := proposals + [Summarize(r)];
      bySector := Count(bySector, SectorKey(r));
      byCountry := Count(byCountry, CountryKey(r));
      totalValue := totalValue + r.totalPrice.GetOr(0.0);
    }
    assert rows[..|rows|] == rows;
    listing := Listing(|proposals|, bySector, byCountry, totalValue, vectorSearchAvailable, proposals);
  }

  // ---------------------------------------------------------------------------
  // What the aggregates mean
  // ---------------------------------------------------------------------------

  /** Counting keys one by one. */
  function CountAll(keys: seq<string>): Counter {
    if keys == [] then Counter(map[], [])
    else Count(CountAll(keys[..|keys| - 1]), keys[|keys| - 1])
  }

  /** Counting gives each key's number of occurrences. */
  lemma {:induction false} CountAllCounts(keys: seq<string>)
    ensures CountAll(keys).counts == Tally(keys)
  {
    if keys != [] {
      CountAllCounts(keys[..|keys| - 1]);
    }
  }

  /** Counting records the keys in first-seen order. */
  lemma {:induction false} CountAllKeys(keys: seq<string>)
    ensures CountAll(keys).keys == Distinct(keys)
  {
    if keys != [] {
      var init := keys[..|keys| - 1];
      CountAllKeys(init);
      CountAllCounts(init);
      assert keys[|keys| - 1] in CountAll(init).counts <==> keys[|keys| - 1] in Distinct(init);
    }
  }

  function SectorKeys(rows: seq<ListedRow>): (keys: seq<string>)
    ensures |keys| == |rows| && forall i :: 0 <= i < |rows| ==> keys[i] == SectorKey(rows[i])
  {
    seq(|rows|, i requires 0 <= i < |rows| => SectorKey(rows[i]))
  }

  function CountryKeys(rows: seq<ListedRow>): (keys: seq<string>)
    ensures |keys| == |rows| && forall i :: 0 <= i < |rows| ==> keys[i] == CountryKey(rows[i])
  {
    seq(|rows|, i requires 0 <= i < |rows| => CountryKey(rows[i]))
  }

  /** The sum of the rows' prices, a missing price counting as 0. */
  function TotalPrice(rows: seq<ListedRow>): real {
    if rows == [] then 0.0 else rows[0].totalPrice.GetOr(0.0) + TotalPrice(rows[1..])
  }

  lemma {:induction false} TotalPriceSnoc(rows: seq<ListedRow>, r: ListedRow)
    ensures TotalPrice(rows + [r]) == TotalPrice(rows) + r.totalPrice.GetOr(0.0)
  {
    if rows != [] {
      assert (rows + [r])[1..] == rows[1..] + [r];
      TotalPriceSnoc(rows[1..], r);
    }
  }

  /** One summary per row, in order. */
  lemma AggregateProposals(rows: seq<ListedRow>)
    ensures |Aggregate(rows).proposals| == |rows|
    ensures forall i :: 0 <= i < |rows| ==> Aggregate(rows).proposals[i] == Summarize(rows[i])
  {
    AggregateLength(rows);
    forall i | 0 <= i < |rows| ensures Aggregate(rows).proposals[i] == Summarize(rows[i]) {
      AggregateProposal(rows, i);
    }
  }

  lemma {:induction false} AggregateLength(rows: seq<ListedRow>)
    ensures |Aggregate(rows).proposals| == |rows|
  {
    if rows != [] {
      AggregateLength(rows[..|rows| - 1]);
    }
  }

  lemma {:induction false} AggregateProposal(rows: seq<ListedRow>, i: nat)
    requires i < |rows|
    ensures |Aggregate(rows).proposals| == |rows| && Aggregate(rows).proposals[i] == Summarize(rows[i])
  {
    AggregateLength(rows);
    var init, r := rows[..|rows| - 1], rows[|rows| - 1];
    AggregateLength(init);
    var ps := Aggregate(init).proposals;
    assert Aggregate(rows).proposals == ps + [Summarize(r)];
    if i < |init| {
      AggregateProposal(init, i);
      assert rows[i] == init[i];
    }
  }

  /** The per-sector and per-country dicts count the rows' keys. */
  lemma {:induction false} AggregateCounters(rows: seq<ListedRow>)
    ensures Aggregate(rows).bySector == CountAll(SectorKeys(rows))
    ensures Aggregate(rows).byCountry == CountAll(CountryKeys(rows))
  {
    if rows != [] {
      var init := rows[..|rows| - 1];
      AggregateCounters(init);
      assert SectorKeys(rows)[..|rows| - 1] == SectorKeys(init);
      assert CountryKeys(rows)[..|rows| - 1] == CountryKeys(init);
    }
  }

  /** The total value is the sum of the prices. */
  lemma {:induction false} AggregateTotal(rows: seq<ListedRow>)
    ensures Aggregate(rows).totalValue == TotalPrice(rows)
  {
    if rows != [] {
      var init, r := rows[..|rows| - 1], rows[|rows| - 1];
      AggregateTotal(init);
      TotalPriceSnoc(init, r);
      Snoc(rows);
      assert Aggregate(rows).totalValue == Aggregate(init).totalValue + r.totalPrice.GetOr(0.0);
    }
  }

  /** A sector is in `by_sector` exactly when some row is counted under it, with that many rows;
   *  the keys appear in first-seen order. */
  lemma SectorCounts(rows: seq<ListedRow>, sector: string)
    ensures sector in Aggregate(rows).bySector.counts <==> sector in SectorKeys(rows)
    ensures sector in Aggregate(rows).bySector.counts ==>
              Aggregate(rows).bySector.counts[sector] == multiset(SectorKeys(rows))[sector]
    ensures Aggregate(rows).bySector.keys == Distinct(SectorKeys(rows))
  {
    CountAllKeys(SectorKeys(rows));
    AggregateCounters(rows);
    CountAllCounts(SectorKeys(rows));
    TallyCounts(SectorKeys(rows), sector);
  }
}

=== FILE: proposal_search.dfy ===
/**
 * `search_past_proposals`: resolves the requested search mode against the availability of
 * the vector index, queries the lexical and/or vector index, post-filters vector hits by
 * sector, combines the lists (rank fusion, vector only, or lexical only) and cuts the result
 * to `limit`.
 *
 * The store and the embedder are parameters: `lexical(query, sector, n)` and
 * `vector(embedding, n)` return a ranked list or `None` when the call raises, and
 * `embed(query)` returns the query embedding or `None` when it raises.
 */
module ProposalSearch {
  import opened Wrappers
  import opened Collections
  import opened Text
  import opened ProposalIndex
  import opened RankFusion

  /** The mode actually used: `auto` picks hybrid when vectors are available, the two
   *  vector modes fall back to keyword without them, and anything else is kept as given. */
  function ResolveMode(mode: string, hasVec: bool): string {
    if mode == "auto" then (if hasVec then "hybrid" else "keyword")
    else if (mode == "semantic" || mode == "hybrid") && !hasVec then "keyword"
    else mode
  }

  /** A vector mode is only ever resolved when vectors are available. */
  lemma ResolveModeNeedsVectors(mode: string, hasVec: bool)
    ensures ResolveMode(mode, hasVec) in {"semantic", "hybrid"} ==> hasVec
    ensures ResolveMode(mode, hasVec) == "auto" ==> false
  {
  }

  /** Resolving an already resolved mode changes nothing. */
  lemma ResolveModeIdempotent(mode: string, hasVec: bool)
    ensures ResolveMode(ResolveMode(mode, hasVec), hasVec) == ResolveMode(mode, hasVec)
  {
  }

  /** The lexical index is queried in the keyword and hybrid modes. */
  predicate RunsLexical(actual: string) {
    actual == "keyword" || actual == "hybrid"
  }

  /** The vector index is queried in the semantic and hybrid modes, when available. */
  predicate RunsVector(actual: string, hasVec: bool) {
    (actual == "semantic" || actual == "hybrid") && hasVec
  }

  /** Some hit has no sector; lowercasing its `None` raises. */
  predicate HasNullSector(rows: seq<Row>) {
    exists r :: r in rows && r.sector.None?
  }

  /** Vector hits whose sector equals `sector` ignoring case; no filtering for an empty `sector`.
   *  A hit without a sector makes the filter raise, and the handler around the vector search
   *  keeps the hits as fetched. */
  function SectorFilter(rows: seq<Row>, sector: string): (kept: seq<Row>)
    ensures sector == [] ==> kept == rows
  {
    if sector != [] && rows != [] && !HasNullSector(rows)
    then Filter((r: Row) => r.sector.Some? && Lower(r.sector.value) == Lower(sector), rows)
    else rows
  }

  /** When every hit has a sector, a non-empty filter keeps exactly the hits in that sector;
   *  when some hit has none, every hit is kept. */
  lemma SectorFilterExact(rows: seq<Row>, sector: string)
    requires sector != []
    ensures !HasNullSector(rows) ==>
              forall r :: r in SectorFilter(rows, sector) <==> r in rows && Lower(r.sector.value) == Lower(sector)
    ensures HasNullSector(rows) ==> SectorFilter(rows, sector) == rows
    ensures |SectorFilter(rows, sector)| <= |rows|
  {
  }

  /** A store call made by the search. */
  datatype StoreQuery =
    | LexicalQuery(text: string, sector: string, limit: int)
    | EmbedQuery(text: string)
    | VectorQuery(limit: int)

  /** The lexical hits: none when the lexical index is not queried or the query raises. */
  function LexicalHits(actual: string, query: string, sector: string, limit: int,
                       lexical: (string, string, int) -> Option<seq<Row>>): seq<Row> {
    if RunsLexical(actual) then lexical(query, sector, limit * 2).GetOr([]) else []
  }

  /** The vector hits after the sector filter: none when not queried or when a call raises. */
  function VectorHits(actual: string, hasVec: bool, query: string, sector: string, limit: int,
                      embed: string -> Option<seq<real>>,
                      vector: (seq<real>, int) -> Option<seq<Row>>): seq<Row> {
    if !RunsVector(actual, hasVec) then []
    else match embed(query)
      case None => []
      case Some(v) =>
        match vector(v, limit * 2)
        case None => []
        case Some(rows) => SectorFilter(rows, sector)
  }

  /** The store calls made, in order. */
  function Queries(actual: string, hasVec: bool, query: string, sector: string, limit: int,
                   embed: string -> Option<seq<real>>): seq<StoreQuery> {
    (if RunsLexical(actual) then [LexicalQuery(query, sector, limit * 2)] else [])
    + (if RunsVector(actual, hasVec)
       then [EmbedQuery(query)] + (if embed(query).Some? then [VectorQuery(limit * 2)] else [])
       else [])
  }

  /** A row taken over without a fused score. */
  function Plain(rows: seq<Row>): (hits: seq<Hit>)
    ensures |hits| == |rows|
    ensures forall i :: 0 <= i < |rows| ==> hits[i] == Hit(rows[i], None)
  {
    seq(|rows|, i requires 0 <= i < |rows| => Hit(rows[i], None))
  }

  /** The combined list before the matches are built. */
  function Combine(actual: string, fts: seq<Row>, vec: seq<Row>, limit: int): seq<Hit> {
    if actual == "hybrid" && fts != [] && vec != [] then SliceTo(Fuse(fts, vec, 1.0, 1.0), limit)
    else if actual == "semantic" && vec != [] then SliceTo(Plain(vec), limit)
    else SliceTo(Plain(fts), limit)
  }

  /** One entry of `matches`. */
  datatype Match = Match(
    indexId: string,
    folderName: string,
    title: string,
    client: string,
    sector: Option<string>,
    country: string,
    technicalSummary: string,
    pricingSummary: string,
    totalPrice: real,
    technologies: seq<string>,
    rrfScore: Option<real>,
    distance: Option<real>,
    rank: Option<real>)

  function ToMatch(h: Hit): Match {
    var r := h.row;
    Match(r.id, r.folderName, r.title, r.client, r.sector, r.country, r.technicalSummary,
          r.pricingSummary, r.totalPrice, r.technologies, h.rrfScore, r.distance, r.rank)
  }

  /** The tool's reply. */
  datatype Response = Response(
    query: string,
    sectorFilter: string,
    searchMode: string,
    vectorAvailable: bool,
    resultCount: nat,
    matches: seq<Match>)

  /** The reply `search_past_proposals` gives for the given store answers. */
  function Search(query: string, sector: string, limit: int, mode: string, hasVec: bool,
                  lexical: (string, string, int) -> Option<seq<Row>>,
                  embed: string -> Option<seq<real>>,
                  vector: (seq<real>, int) -> Option<seq<Row>>): Response {
    var actual := ResolveMode(mode, hasVec);
    var combined := Combine(actual, LexicalHits(actual, query, sector, limit, lexical),
                            VectorHits(actual, hasVec, query, sector, limit, embed, vector), limit);
    var matches := seq(|combined|, i requires 0 <= i < |combined| => ToMatch(combined[i]));
    Response(query, sector, actual, hasVec, |matches|, matches)
  }

  /** Builds one match per combined hit, in order. */
  method BuildMatches(combined: seq<Hit>) returns (matches: seq<Match>)
    ensures |matches| == |combined|
    ensures forall i :: 0 <= i < |combined| ==> matches[i] == ToMatch(combined[i])
  {
    matches := [];
    for k := 0 to |combined|
      invariant |matches| == k
      invariant forall i :: 0 <= i < k ==> matches[i] == ToMatch(combined[i])
    {
      matches := matches + [ToMatch(combined[k])];
    }
  }

  /** The lexical query of the search, when the mode calls for one; a raising call gives no hits. */
  method FetchLexical(actual: string, query: string, sector: string, limit: int,
                      lexical: (string, string, int) -> Option<seq<Row>>)
    returns (fts: seq<Row>, queries: seq<StoreQuery>)
    ensures fts == LexicalHits(actual, query, sector, limit, lexical)
    ensures queries == if RunsLexical(actual) then [LexicalQuery(query, sector, limit * 2)] else []
  {
    fts := [];
    queries := [];
    if actual == "keyword" || actual == "hybrid" {
      queries := [LexicalQuery(query, sector, limit * 2)];
      var got := lexical(query, sector, limit * 2);
      if got.Some? {
        fts := got.value;
      }
    }
  }

  /** The embedding and vector queries, when the mode calls for them, then the sector filter. */
  method FetchVector(actual: string, hasVec: bool, query: string, sector: string, limit: int,
                     embed: string -> Option<seq<real>>,
                     vector: (seq<real>, int) -> Option<seq<Row>>)
    returns (vec: seq<Row>, queries: seq<StoreQuery>)
    ensures vec == VectorHits(actual, hasVec, query, sector, limit, embed, vector)
    ensures queries == Queries(actual, hasVec, query, sector, limit, embed)
                       [|if RunsLexical(actual) then [LexicalQuery(query, sector, limit * 2)] else []|..]
  {
    vec := [];
    queries := [];
    if (actual == "semantic" || actual == "hybrid") && hasVec {
      queries := [EmbedQuery(query)];
      var queryVec := embed(query);
      if queryVec.Some? {
        queries := queries + [VectorQuery(limit * 2)];
        var got := vector(queryVec.value, limit * 2);
        if got.Some? {
          vec := got.value;
          if sector != [] && vec != [] && !HasNullSector(vec) {
            vec := Filter((r: Row) => r.sector.Some? && Lower(r.sector.value) == Lower(sector), vec);
          }
        }
      }
    }
  }

  /** The combined list, running rank fusion in hybrid mode when both lists have hits. */
  method CombineHits(actual: string, fts: seq<Row>, vec: seq<Row>, limit: int) returns (combined: seq<Hit>)
    ensures combined == Combine(actual, fts, vec, limit)
  {
    if actual == "hybrid" && fts != [] && vec != [] {
      var fused := RrfCombine(fts, vec, 1.0, 1.0);
      combined := SliceTo(fused, limit);
    } else if actual == "semantic" && vec != [] {
      combined := SliceTo(Plain(vec), limit);
    } else {
      combined := SliceTo(Plain(fts), limit);
    }
  }

  /** The search tool, making the store calls in the order the source makes them. */
  method SearchPastProposals(query: string, sector: string, limit: int, mode: string, hasVec: bool,
                             lexical: (string, string, int) -> Option<seq<Row>>,
                             embed: string -> Option<seq<real>>,
                             vector: (seq<real>, int) -> Option<seq<Row>>)
    returns (resp: Response, queries: seq<StoreQuery>)
    ensures resp == Search(query, sector, limit, mode, hasVec, lexical, embed, vector)
    ensures queries == Queries(ResolveMode(mode, hasVec), hasVec, query, sector, limit, embed)
    ensures resp.searchMode == ResolveMode(mode, hasVec) && resp.resultCount == |resp.matches|
  {
    var actual := ResolveMode(mode, hasVec);
    var fts, lexicalQueries := FetchLexical(actual, query, sector, limit, lexical);
    var vec, vectorQueries := FetchVector(actual, hasVec, query, sector, limit, embed, vector);
    queries := lexicalQueries + vectorQueries;
    var combined := CombineHits(actual, fts, vec, limit);
    var matches := BuildMatches(combined);
    resp := Response(query, sector, actual, hasVec, |matches|, matches);
  }

  // ---------------------------------------------------------------------------
  // Properties of the search
  // ---------------------------------------------------------------------------

  /** A non-negative `limit` bounds the number of matches in every branch. */
  lemma SearchWithinLimit(query: string, sector: string, limit: int, mode: string, hasVec: bool,
                          lexical: (string, string, int) -> Option<seq<Row>>,
                          embed: string -> Option<seq<real>>,
                          vector: (seq<real>, int) -> Option<seq<Row>>)
    requires limit >= 0
    ensures Search(query, sector, limit, mode, hasVec, lexical, embed, vector).resultCount <= limit
  {
  }

  /** The vector index is never queried when the resolved mode is keyword (or when vectors are off). */
  lemma KeywordNeverQueriesVectors(query: string, sector: string, limit: int, mode: string, hasVec: bool,
                                   embed: string -> Option<seq<real>>)
    requires ResolveMode(mode, hasVec) == "keyword" || !hasVec
    ensures forall q :: q in Queries(ResolveMode(mode, hasVec), hasVec, query, sector, limit, embed)
                        ==> q.LexicalQuery?
  {
  }

  /** Fused scores appear only in hybrid mode with both lists non-empty; then the result is the
   *  fused list cut to `limit`. */
  lemma FusionOnlyWhenHybrid(actual: string, fts: seq<Row>, vec: seq<Row>, limit: int)
    ensures (exists i :: 0 <= i < |Combine(actual, fts, vec, limit)| && Combine(actual, fts, vec, limit)[i].rrfScore.Some?)
            ==> actual == "hybrid" && fts != [] && vec != []
    ensures actual == "hybrid" && fts != [] && vec != [] ==>
            Combine(actual, fts, vec, limit) == SliceTo(Fuse(fts, vec, 1.0, 1.0), limit)
  {
    var c := Combine(actual, fts, vec, limit);
    if !(actual == "hybrid" && fts != [] && vec != []) {
      forall i | 0 <= i < |c| ensures c[i].rrfScore.None? {
        if actual == "semantic" && vec != [] {
          assert c[i] == Plain(vec)[i];
        } else {
          assert c[i] == Plain(fts)[i];
        }
      }
    }
  }

  /** Outside hybrid fusion the result is the vector list (semantic with hits) or the lexical list. */
  lemma SelectionWithoutFusion(actual: string, fts: seq<Row>, vec: seq<Row>, limit: int)
    requires !(actual == "hybrid" && fts != [] && vec != [])
    ensures actual == "semantic" && vec != [] ==> Combine(actual, fts, vec, limit) == Plain(SliceTo(vec, limit))
    ensures !(actual == "semantic" && vec != []) ==> Combine(actual, fts, vec, limit) == Plain(SliceTo(fts, limit))
  {
  }

  /** Vector hits that all carry a sector satisfy the sector filter; a fetched hit without a
   *  sector leaves every fetched hit in place. Lexical hits are passed on as the store returns them. */
  lemma SearchSectorFilter(actual: string, hasVec: bool, query: string, sector: string, limit: int,
                           embed: string -> Option<seq<real>>,
                           vector: (seq<real>, int) -> Option<seq<Row>>)
    requires sector != []
    ensures var hits := VectorHits(actual, hasVec, query, sector, limit, embed, vector);
            !HasNullSector(hits) ==> forall r :: r in hits ==> Lower(r.sector.value) == Lower(sector)
    ensures RunsVector(actual, hasVec) && embed(query).Some? && vector(embed(query).value, limit * 2).Some?
            && HasNullSector(vector(embed(query).value, limit * 2).value)
            ==> VectorHits(actual, hasVec, query, sector, limit, embed, vector)
                == vector(embed(query).value, limit * 2).value
  {
    if RunsVector(actual, hasVec) && embed(query).Some? {
      var got := vector(embed(query).value, limit * 2);
      if got.Some? {
        SectorFilterExact(got.value, sector);
      }
    }
  }
}

=== FILE: rank_fusion.dfy ===
/**
 * Reciprocal Rank Fusion (Cormack, Clarke and Buettcher, 2009) of a lexical and a vector
 * result list: every id scores the sum, over the lists holding it, of weight / (60 + rank + 1)
 * with 0-based rank, and the fused list is ordered by that score, highest first, with ties
 * in order of first encounter (lexical ids first, then vector-only ids).
 */
module RankFusion {
  import opened Wrappers
  import opened Collections
  import opened ProposalIndex

  /** The damping constant of the fusion formula. */
  const RrfK: nat := 60

  /** What one list contributes for an entry at 0-based `rank`. */
  function Term(weight: real, rank: nat): real {
    weight / ((RrfK + rank + 1) as real)
  }

  /** The `id` of every row, in order. */
  function Ids(rows: seq<Row>): (ids: seq<string>)
    ensures |ids| == |rows|
    ensures forall i :: 0 <= i < |rows| ==> ids[i] == rows[i].id
  {
    seq(|rows|, i requires 0 <= i < |rows| => rows[i].id)
  }

  lemma IdsAppend(rows: seq<Row>, r: Row)
    ensures Ids(rows + [r]) == Ids(rows) + [r.id]
  {
  }

  /** The sum of `Term(weight, k)` over every position `k` of `rows` that holds `id`. */
  function ListScore(id: string, rows: seq<Row>, weight: real): real {
    if rows == [] then 0.0
    else ListScore(id, rows[..|rows| - 1], weight)
         + (if rows[|rows| - 1].id == id then Term(weight, |rows| - 1) else 0.0)
  }

  /** The fused score of `id`: its lexical term plus its vector term. */
  function FusedScore(id: string, fts: seq<Row>, vec: seq<Row>, ftsWeight: real, vecWeight: real): real {
    ListScore(id, fts, ftsWeight) + ListScore(id, vec, vecWeight)
  }

  /** An id a list does not hold gets nothing from that list. */
  lemma {:induction false} ListScoreAbsent(id: string, rows: seq<Row>, weight: real)
    requires id !in Ids(rows)
    ensures ListScore(id, rows, weight) == 0.0
  {
    if rows != [] {
      var init := rows[..|rows| - 1];
      assert Ids(rows) == Ids(init) + [rows[|rows| - 1].id];
      ListScoreAbsent(id, init, weight);
    }
  }

  /** An id held once, at `rank`, gets exactly `weight / (60 + rank + 1)` from that list. */
  lemma {:induction false} ListScoreOnce(id: string, rows: seq<Row>, weight: real, rank: nat)
    requires rank < |rows| && rows[rank].id == id
    requires forall k :: 0 <= k < |rows| && k != rank ==> rows[k].id != id
    ensures ListScore(id, rows, weight) == Term(weight, rank)
  {
    var init := rows[..|rows| - 1];
    if rank == |rows| - 1 {
      ListScoreAbsent(id, init, weight);
    } else {
      ListScoreOnce(id, init, weight, rank);
    }
  }

  lemma ListScoreSnoc(id: string, rows: seq<Row>, r: Row, weight: real)
    ensures ListScore(id, rows + [r], weight)
         == ListScore(id, rows, weight) + (if r.id == id then Term(weight, |rows|) else 0.0)
  {
    assert (rows + [r])[..|rows|] == rows;
  }

  lemma IdsTail(id: string, rows: seq<Row>)
    requires id in Ids(rows) && rows[0].id != id
    ensures id in Ids(rows[1..])
  {
    var k :| 0 <= k < |rows| && Ids(rows)[k] == id;
    assert Ids(rows[1..])[k - 1] == id;
  }

  lemma IdsFront(id: string, rows: seq<Row>)
    requires id in Ids(rows) && rows[|rows| - 1].id != id
    ensures id in Ids(rows[..|rows| - 1])
  {
    var k :| 0 <= k < |rows| && Ids(rows)[k] == id;
    assert Ids(rows[..|rows| - 1])[k] == id;
  }

  /** The position of the first row with `id`. */
  function FirstIndex(id: string, rows: seq<Row>): (i: nat)
    requires id in Ids(rows)
    ensures i < |rows| && rows[i].id == id
    ensures forall j :: 0 <= j < i ==> rows[j].id != id
  {
    if rows[0].id == id then 0
    else
      IdsTail(id, rows);
      1 + FirstIndex(id, rows[1..])
  }

  /** The position of the last row with `id`. */
  function LastIndex(id: string, rows: seq<Row>): (i: nat)
    requires id in Ids(rows)
    ensures i < |rows| && rows[i].id == id
    ensures forall j :: i < j < |rows| ==> rows[j].id != id
  {
    if rows[|rows| - 1].id == id then |rows| - 1
    else
      IdsFront(id, rows);
      LastIndex(id, rows[..|rows| - 1])
  }

  lemma FirstIndexAppend(id: string, rows: seq<Row>, r: Row)
    requires id in Ids(rows)
    ensures id in Ids(rows + [r]) && FirstIndex(id, rows + [r]) == FirstIndex(id, rows)
  {
    IdsAppend(rows, r);
    var i0 := FirstIndex(id, rows);
    var i1 := FirstIndex(id, rows + [r]);
    assert (rows + [r])[i0] == rows[i0];
    assert i1 <= i0;
    assert rows[i1] == (rows + [r])[i1];
  }

  lemma FirstIndexNew(id: string, rows: seq<Row>, r: Row)
    requires id !in Ids(rows) && r.id == id
    ensures id in Ids(rows + [r]) && FirstIndex(id, rows + [r]) == |rows|
  {
    IdsAppend(rows, r);
    forall j | 0 <= j < |rows| ensures (rows + [r])[j].id != id {
      assert Ids(rows)[j] == rows[j].id;
    }
  }

  lemma LastIndexAppend(id: string, rows: seq<Row>, r: Row)
    requires id in Ids(rows) && r.id != id
    ensures id in Ids(rows + [r]) && LastIndex(id, rows + [r]) == LastIndex(id, rows)
  {
    IdsAppend(rows, r);
    assert (rows + [r])[..|rows|] == rows;
  }

  /**
   * The row fusion carries forward for `id`: the lexical row when the id is a lexical hit
   * (the last one, as each lexical hit overwrites the previous), else the first vector row.
   */
  function Carried(id: string, fts: seq<Row>, vec: seq<Row>): (r: Row)
    requires id in Ids(fts) || id in Ids(vec)
    ensures r.id == id
  {
    if id in Ids(fts) then fts[LastIndex(id, fts)] else vec[FirstIndex(id, vec)]
  }

  /** Every distinct id with its fused score, in order of first encounter. */
  function Scored(fts: seq<Row>, vec: seq<Row>, ftsWeight: real, vecWeight: real): (s: seq<(string, real)>)
    ensures forall p :: p in s ==>
              (p.0 in Ids(fts) || p.0 in Ids(vec)) && p.1 == FusedScore(p.0, fts, vec, ftsWeight, vecWeight)
  {
    var ids := Distinct(Ids(fts) + Ids(vec));
    var s := seq(|ids|, i requires 0 <= i < |ids| => (ids[i], FusedScore(ids[i], fts, vec, ftsWeight, vecWeight)));
    forall p | p in s
      ensures (p.0 in Ids(fts) || p.0 in Ids(vec)) && p.1 == FusedScore(p.0, fts, vec, ftsWeight, vecWeight)
    {
      var i :| 0 <= i < |s| && s[i] == p;
      assert ids[i] in Ids(fts) + Ids(vec);
    }
    s
  }

  /** The first components of a sequence of pairs. */
  function Keys(ps: seq<(string, real)>): (ks: seq<string>)
    ensures |ks| == |ps| && forall i :: 0 <= i < |ps| ==> ks[i] == ps[i].0
  {
    seq(|ps|, i requires 0 <= i < |ps| => ps[i].0)
  }

  lemma ScoredKeys(fts: seq<Row>, vec: seq<Row>, ftsWeight: real, vecWeight: real)
    ensures Keys(Scored(fts, vec, ftsWeight, vecWeight)) == Distinct(Ids(fts) + Ids(vec))
  {
  }

  /** Highest score first. */
  predicate SortedDesc(ps: seq<(string, real)>) {
    forall i, j :: 0 <= i < j < |ps| ==> ps[i].1 >= ps[j].1
  }

  /** Place `x` before the first element whose score it reaches (so equal scores keep `x` first). */
  function Insert(x: (string, real), ys: seq<(string, real)>): (r: seq<(string, real)>)
    ensures |r| == |ys| + 1
    ensures multiset(r) == multiset(ys) + multiset{x}
    ensures r[0] == x || (ys != [] && r[0] == ys[0])
  {
    if ys == [] then [x]
    else if x.1 >= ys[0].1 then [x] + ys
    else
      assert ys == [ys[0]] + ys[1..];
      [ys[0]] + Insert(x, ys[1..])
  }

  /** Python's `sorted(pairs, key=score, reverse=True)`, a stable sort: an insertion sort. */
  function SortDesc(xs: seq<(string, real)>): (r: seq<(string, real)>)
    ensures |r| == |xs|
    ensures multiset(r) == multiset(xs)
  {
    if xs == [] then []
    else
      assert xs == [xs[0]] + xs[1..];
      Insert(xs[0], SortDesc(xs[1..]))
  }

  lemma {:induction false} InsertSorted(x: (string, real), ys: seq<(string, real)>)
    requires SortedDesc(ys)
    ensures SortedDesc(Insert(x, ys))
    decreases |ys|
  {
    if ys != [] && x.1 < ys[0].1 {
      InsertSorted(x, ys[1..]);
      var r := Insert(x, ys);
      assert r == [ys[0]] + Insert(x, ys[1..]);
      forall j | 0 < j < |r| ensures r[0].1 >= r[j].1 {
        assert r[j] in multiset(Insert(x, ys[1..]));
        assert r[j] in multiset(ys[1..]) + multiset{x};
        if r[j] != x {
          assert r[j] in ys[1..];
        }
      }
    }
  }

  lemma {:induction false} SortDescSorted(xs: seq<(string, real)>)
    ensures SortedDesc(SortDesc(xs))
    decreases |xs|
  {
    if xs != [] {
      SortDescSorted(xs[1..]);
      InsertSorted(xs[0], SortDesc(xs[1..]));
    }
  }

  /** The pairs with score `s`, in order. */
  function WithScore(s: real, ps: seq<(string, real)>): seq<(string, real)> {
    if ps == [] then []
    else (if ps[0].1 == s then [ps[0]] else []) + WithScore(s, ps[1..])
  }

  /** `WithScore` keeps exactly the pairs with that score. */
  lemma {:induction false} WithScoreMembers(s: real, ps: seq<(string, real)>)
    ensures forall p :: p in WithScore(s, ps) <==> p in ps && p.1 == s
  {
    if ps != [] {
      WithScoreMembers(s, ps[1..]);
      assert ps == [ps[0]] + ps[1..];
    }
  }

  lemma {:induction false} WithScoreAppend(s: real, a: seq<(string, real)>, b: seq<(string, real)>)
    ensures WithScore(s, a + b) == WithScore(s, a) + WithScore(s, b)
    decreases |a|
  {
    if a == [] {
      assert a + b == b;
    } else {
      var head := if a[0].1 == s then [a[0]] else [];
      WithScoreAppend(s, a[1..], b);
      assert (a + b)[0] == a[0];
      assert (a + b)[1..] == a[1..] + b;
      assert WithScore(s, a + b) == head + WithScore(s, a[1..] + b);
      assert WithScore(s, a) == head + WithScore(s, a[1..]);
      AppendAssoc(head, WithScore(s, a[1..]), WithScore(s, b));
    }
  }

  lemma {:induction false} InsertStable(s: real, x: (string, real), ys: seq<(string, real)>)
    ensures WithScore(s, Insert(x, ys)) == WithScore(s, [x]) + WithScore(s, ys)
    decreases |ys|
  {
    if ys == [] {
    } else if x.1 >= ys[0].1 {
      WithScoreAppend(s, [x], ys);
    } else {
      InsertStable(s, x, ys[1..]);
      InsertStableSkip(s, x, ys[0], ys[1..], Insert(x, ys[1..]));
      assert [ys[0]] + ys[1..] == ys;
    }
  }

  /** The step of `InsertStable` where `x` moves past `y`, whose score is higher. */
  lemma InsertStableSkip(s: real, x: (string, real), y: (string, real), tail: seq<(string, real)>,
                         inserted: seq<(string, real)>)
    requires x.1 < y.1
    requires WithScore(s, inserted) == WithScore(s, [x]) + WithScore(s, tail)
    ensures WithScore(s, [y] + inserted) == WithScore(s, [x]) + WithScore(s, [y] + tail)
  {
    WithScoreAppend(s, [y], inserted);
    WithScoreAppend(s, [y], tail);
  }

  /** Sorting is stable: the pairs of any one score keep their relative order. */
  lemma {:induction false} SortDescStable(s: real, xs: seq<(string, real)>)
    ensures WithScore(s, SortDesc(xs)) == WithScore(s, xs)
    decreases |xs|
  {
    if xs != [] {
      SortDescStable(s, xs[1..]);
      InsertStable(s, xs[0], SortDesc(xs[1..]));
      assert [xs[0]] + xs[1..] == xs;
      WithScoreAppend(s, [xs[0]], xs[1..]);
    }
  }

  lemma KeysAppend(a: seq<(string, real)>, b: seq<(string, real)>)
    ensures Keys(a + b) == Keys(a) + Keys(b)
  {
  }

  lemma {:induction false} InsertKeys(x: (string, real), ys: seq<(string, real)>)
    ensures multiset(Keys(Insert(x, ys))) == multiset(Keys(ys)) + multiset{x.0}
    decreases |ys|
  {
    if ys == [] {
      assert Keys([x]) == [x.0];
    } else if x.1 >= ys[0].1 {
      KeysAppend([x], ys);
      assert Keys([x]) == [x.0];
    } else {
      var y := ys[0];
      var tail := ys[1..];
      assert ys == [y] + tail;
      InsertKeys(x, tail);
      KeysAppend([y], Insert(x, tail));
      KeysAppend([y], tail);
      assert Keys([y]) == [y.0];
    }
  }

  lemma {:induction false} SortDescKeys(xs: seq<(string, real)>)
    ensures multiset(Keys(SortDesc(xs))) == multiset(Keys(xs))
    decreases |xs|
  {
    if xs != [] {
      var rest := SortDesc(xs[1..]);
      SortDescKeys(xs[1..]);
      InsertKeys(xs[0], rest);
      assert SortDesc(xs) == Insert(xs[0], rest);
      KeysCons(xs);
    }
  }

  lemma KeysCons(xs: seq<(string, real)>)
    requires xs != []
    ensures multiset(Keys(xs)) == multiset{xs[0].0} + multiset(Keys(xs[1..]))
  {
    assert Keys(xs) == [xs[0].0] + Keys(xs[1..]);
  }

  /** The (id, score) pairs in fused order. */
  function Ranked(fts: seq<Row>, vec: seq<Row>, ftsWeight: real, vecWeight: real): seq<(string, real)> {
    SortDesc(Scored(fts, vec, ftsWeight, vecWeight))
  }

  /** The fused result list: each ranked id with its carried row and its score. */
  function Fuse(fts: seq<Row>, vec: seq<Row>, ftsWeight: real, vecWeight: real): (hits: seq<Hit>)
    ensures |hits| == |Ranked(fts, vec, ftsWeight, vecWeight)|
  {
    var ranked := Ranked(fts, vec, ftsWeight, vecWeight);
    assert forall i :: 0 <= i < |ranked| ==> ranked[i] in multiset(Scored(fts, vec, ftsWeight, vecWeight));
    seq(|ranked|, i requires 0 <= i < |ranked| => Hit(Carried(ranked[i].0, fts, vec), Some(ranked[i].1)))
  }

  /** The ids of a hit list, in order. */
  function HitIds(hits: seq<Hit>): (ids: seq<string>)
    ensures |ids| == |hits| && forall i :: 0 <= i < |hits| ==> ids[i] == hits[i].row.id
  {
    seq(|hits|, i requires 0 <= i < |hits| => hits[i].row.id)
  }

  /** The key order of the accumulators is the first-encounter order of `ids`. */
  ghost predicate KeyOrder(ids: seq<string>, scores: map<string, real>, docs: map<string, Row>, order: seq<string>) {
    && order == Distinct(ids)
    && scores.Keys == docs.Keys
    && (forall id :: id in scores <==> id in order)
  }

  /** Every accumulated score is the fused score over the rows seen so far. */
  ghost predicate ScoresSoFar(fts: seq<Row>, vec: seq<Row>, ftsWeight: real, vecWeight: real,
                              scores: map<string, real>) {
    forall id :: id in scores ==> scores[id] == FusedScore(id, fts, vec, ftsWeight, vecWeight)
  }

  /** Every accumulated row is the row carried for its id over the rows seen so far. */
  ghost predicate DocsSoFar(fts: seq<Row>, vec: seq<Row>, docs: map<string, Row>) {
    forall id :: id in docs ==> (id in Ids(fts) || id in Ids(vec)) && docs[id] == Carried(id, fts, vec)
  }

  /** `scores[id] = scores.get(id, 0) + t`. */
  function Bump(scores: map<string, real>, id: string, t: real): map<string, real> {
    scores[id := (if id in scores then scores[id] else 0.0) + t]
  }

  /** The key order of `scores` once `id` is stored in it. */
  function Enter(order: seq<string>, scores: map<string, real>, id: string): seq<string> {
    if id in scores then order else order + [id]
  }

  lemma KeyOrderMember(ids: seq<string>, scores: map<string, real>, docs: map<string, Row>,
                       order: seq<string>, id: string)
    requires KeyOrder(ids, scores, docs, order)
    ensures id in scores <==> id in ids
    ensures id in docs <==> id in ids
  {
  }

  lemma KeyOrderStep(ids: seq<string>, id: string, scores: map<string, real>, docs: map<string, Row>,
                     order: seq<string>, t: real, docs': map<string, Row>)
    requires KeyOrder(ids, scores, docs, order)
    requires docs'.Keys == docs.Keys + {id}
    ensures KeyOrder(ids + [id], Bump(scores, id, t), docs', Enter(order, scores, id))
  {
    var scores', order' := Bump(scores, id, t), Enter(order, scores, id);
    DistinctAppend(ids, id);
    assert id in scores <==> id in ids;
    assert order' == Distinct(ids + [id]);
    assert scores'.Keys == scores.Keys + {id};
    forall k ensures k in scores' <==> k in order' {
      assert k in order' <==> k in order || k == id;
    }
  }

  lemma LexicalOrderStep(fts: seq<Row>, doc: Row, scores: map<string, real>, docs: map<string, Row>,
                         order: seq<string>, t: real)
    requires KeyOrder(Ids(fts) + Ids([]), scores, docs, order)
    ensures KeyOrder(Ids(fts + [doc]) + Ids([]), Bump(scores, doc.id, t), docs[doc.id := doc],
                     Enter(order, scores, doc.id))
  {
    IdsAppend(fts, doc);
    assert Ids(fts) + Ids([]) == Ids(fts);
    assert Ids(fts + [doc]) + Ids([]) == Ids(fts) + [doc.id];
    KeyOrderStep(Ids(fts), doc.id, scores, docs, order, t, docs[doc.id := doc]);
  }

  lemma VectorOrderStep(fts: seq<Row>, vec: seq<Row>, doc: Row, scores: map<string, real>,
                        docs: map<string, Row>, order: seq<string>, t: real)
    requires KeyOrder(Ids(fts) + Ids(vec), scores, docs, order)
    ensures KeyOrder(Ids(fts) + Ids(vec + [doc]), Bump(scores, doc.id, t),
                     if doc.id in docs then docs else docs[doc.id := doc], Enter(order, scores, doc.id))
  {
    IdsAppend(vec, doc);
    assert Ids(fts) + Ids(vec + [doc]) == (Ids(fts) + Ids(vec)) + [doc.id];
    KeyOrderStep(Ids(fts) + Ids(vec), doc.id, scores, docs, order, t,
                 if doc.id in docs then docs else docs[doc.id := doc]);
  }

  lemma LexicalScoresStep(fts: seq<Row>, doc: Row, ftsWeight: real, vecWeight: real,
                          scores: map<string, real>, docs: map<string, Row>, order: seq<string>)
    requires KeyOrder(Ids(fts) + Ids([]), scores, docs, order)
    requires ScoresSoFar(fts, [], ftsWeight, vecWeight, scores)
    ensures ScoresSoFar(fts + [doc], [], ftsWeight, vecWeight, Bump(scores, doc.id, Term(ftsWeight, |fts|)))
  {
    assert Ids(fts) + Ids([]) == Ids(fts);
    KeyOrderMember(Ids(fts), scores, docs, order, doc.id);
    var scores' := Bump(scores, doc.id, Term(ftsWeight, |fts|));
    forall id | id in scores'
      ensures scores'[id] == FusedScore(id, fts + [doc], [], ftsWeight, vecWeight)
    {
      ListScoreSnoc(id, fts, doc, ftsWeight);
      if id == doc.id && doc.id !in scores {
        ListScoreAbsent(doc.id, fts, ftsWeight);
      }
    }
  }

  lemma LexicalDocsStep(fts: seq<Row>, doc: Row, docs: map<string, Row>)
    requires DocsSoFar(fts, [], docs)
    ensures DocsSoFar(fts + [doc], [], docs[doc.id := doc])
  {
    IdsAppend(fts, doc);
    var docs' := docs[doc.id := doc];
    forall id | id in docs'
      ensures id in Ids(fts + [doc]) && docs'[id] == Carried(id, fts + [doc], [])
    {
      if id != doc.id {
        LastIndexAppend(id, fts, doc);
      }
    }
  }

  lemma VectorScoresStep(fts: seq<Row>, vec: seq<Row>, doc: Row, ftsWeight: real, vecWeight: real,
                         scores: map<string, real>, docs: map<string, Row>, order: seq<string>)
    requires KeyOrder(Ids(fts) + Ids(vec), scores, docs, order)
    requires ScoresSoFar(fts, vec, ftsWeight, vecWeight, scores)
    ensures ScoresSoFar(fts, vec + [doc], ftsWeight, vecWeight, Bump(scores, doc.id, Term(vecWeight, |vec|)))
  {
    KeyOrderMember(Ids(fts) + Ids(vec), scores, docs, order, doc.id);
    var scores' := Bump(scores, doc.id, Term(vecWeight, |vec|));
    forall id | id in scores'
      ensures scores'[id] == FusedScore(id, fts, vec + [doc], ftsWeight, vecWeight)
    {
      ListScoreSnoc(id, vec, doc, vecWeight);
      if id == doc.id && doc.id !in scores {
        ListScoreAbsent(doc.id, fts, ftsWeight);
        ListScoreAbsent(doc.id, vec, vecWeight);
      }
    }
  }

  lemma VectorDocsStep(fts: seq<Row>, vec: seq<Row>, doc: Row, scores: map<string, real>,
                       docs: map<string, Row>, order: seq<string>)
    requires KeyOrder(Ids(fts) + Ids(vec), scores, docs, order)
    requires DocsSoFar(fts, vec, docs)
    ensures DocsSoFar(fts, vec + [doc], if doc.id in docs then docs else docs[doc.id := doc])
  {
    KeyOrderMember(Ids(fts) + Ids(vec), scores, docs, order, doc.id);
    IdsAppend(vec, doc);
    var docs' := if doc.id in docs then docs else docs[doc.id := doc];
    forall id | id in docs'
      ensures (id in Ids(fts) || id in Ids(vec + [doc])) && docs'[id] == Carried(id, fts, vec + [doc])
    {
      if id in docs {
        if id !in Ids(fts) {
          FirstIndexAppend(id, vec, doc);
        }
      } else {
        FirstIndexNew(doc.id, vec, doc);
      }
    }
  }

  /**
   * What the accumulators of `RrfCombine` hold once the rows `fts` and `vec` have been seen
   * (during the lexical pass `vec` is empty).
   */
  ghost predicate Accumulated(fts: seq<Row>, vec: seq<Row>, ftsWeight: real, vecWeight: real,
                              scores: map<string, real>, docs: map<string, Row>, order: seq<string>) {
    && KeyOrder(Ids(fts) + Ids(vec), scores, docs, order)
    && ScoresSoFar(fts, vec, ftsWeight, vecWeight, scores)
    && DocsSoFar(fts, vec, docs)
  }

  /** One iteration of the lexical pass. */
  lemma LexicalStep(fts: seq<Row>, doc: Row, full: seq<Row>, ftsWeight: real, vecWeight: real,
                    scores: map<string, real>, docs: map<string, Row>, order: seq<string>)
    requires full == fts + [doc]
    requires Accumulated(fts, [], ftsWeight, vecWeight, scores, docs, order)
    ensures Accumulated(full, [], ftsWeight, vecWeight, Bump(scores, doc.id, Term(ftsWeight, |fts|)),
                        docs[doc.id := doc], Enter(order, scores, doc.id))
  {
    LexicalOrderStep(fts, doc, scores, docs, order, Term(ftsWeight, |fts|));
    LexicalScoresStep(fts, doc, ftsWeight, vecWeight, scores, docs, order);
    LexicalDocsStep(fts, doc, docs);
  }

  /** One iteration of the vector pass. */
  lemma VectorStep(fts: seq<Row>, vec: seq<Row>, doc: Row, full: seq<Row>, ftsWeight: real, vecWeight: real,
                   scores: map<string, real>, docs: map<string, Row>, order: seq<string>)
    requires full == vec + [doc]
    requires Accumulated(fts, vec, ftsWeight, vecWeight, scores, docs, order)
    ensures Accumulated(fts, full, ftsWeight, vecWeight, Bump(scores, doc.id, Term(vecWeight, |vec|)),
                        if doc.id in docs then docs else docs[doc.id := doc], Enter(order, scores, doc.id))
  {
    VectorOrderStep(fts, vec, doc, scores, docs, order, Term(vecWeight, |vec|));
    VectorScoresStep(fts, vec, doc, ftsWeight, vecWeight, scores, docs, order);
    VectorDocsStep(fts, vec, doc, scores, docs, order);
  }

  /** The three accumulators of `RrfCombine`: scores, carried rows, and the dict key order. */
  datatype Acc = Acc(scores: map<string, real>, docs: map<string, Row>, order: seq<string>)

  /** The accumulators after the lexical pass over `fts`. */
  function LexicalPass(fts: seq<Row>, weight: real): Acc {
    if fts == [] then Acc(map[], map[], [])
    else
      var a := LexicalPass(fts[..|fts| - 1], weight);
      var doc := fts[|fts| - 1];
      Acc(Bump(a.scores, doc.id, Term(weight, |fts| - 1)), a.docs[doc.id := doc], Enter(a.order, a.scores, doc.id))
  }

  /** The accumulators after the vector pass over `vec`, starting from `start`. */
  function VectorPass(start: Acc, vec: seq<Row>, weight: real): Acc {
    if vec == [] then start
    else
      var a := VectorPass(start, vec[..|vec| - 1], weight);
      var doc := vec[|vec| - 1];
      Acc(Bump(a.scores, doc.id, Term(weight, |vec| - 1)),
          if doc.id in a.docs then a.docs else a.docs[doc.id := doc],
          Enter(a.order, a.scores, doc.id))
  }

  lemma LexicalPassStep(fts: seq<Row>, weight: real, rank: nat)
    requires rank < |fts|
    ensures var a := LexicalPass(fts[..rank], weight);
            var doc := fts[rank];
            LexicalPass(fts[..rank + 1], weight)
            == Acc(Bump(a.scores, doc.id, Term(weight, rank)), a.docs[doc.id := doc], Enter(a.order, a.scores, doc.id))
  {
    assert fts[..rank + 1][..rank] == fts[..rank];
  }

  lemma VectorPassStep(start: Acc, vec: seq<Row>, weight: real, rank: nat)
    requires rank < |vec|
    ensures var a := VectorPass(start, vec[..rank], weight);
            var doc := vec[rank];
            VectorPass(start, vec[..rank + 1], weight)
            == Acc(Bump(a.scores, doc.id, Term(weight, rank)),
                   if doc.id in a.docs then a.docs else a.docs[doc.id := doc],
                   Enter(a.order, a.scores, doc.id))
  {
    assert vec[..rank + 1][..rank] == vec[..rank];
  }

  lemma {:induction false} LexicalPassAccumulates(fts: seq<Row>, ftsWeight: real, vecWeight: real)
    ensures var a := LexicalPass(fts, ftsWeight);
      Accumulated(fts, [], ftsWeight, vecWeight, a.scores, a.docs, a.order)
    decreases |fts|
  {
    if fts == [] {
      assert Ids([]) + Ids([]) == [];
    } else {
      var init := fts[..|fts| - 1];
      var a := LexicalPass(init, ftsWeight);
      LexicalPassAccumulates(init, ftsWeight, vecWeight);
      Snoc(fts);
      LexicalStep(init, fts[|fts| - 1], fts, ftsWeight, vecWeight, a.scores, a.docs, a.order);
    }
  }

  lemma {:induction false} VectorPassAccumulates(fts: seq<Row>, vec: seq<Row>, ftsWeight: real, vecWeight: real)
    ensures var a := VectorPass(LexicalPass(fts, ftsWeight), vec, vecWeight);
      Accumulated(fts, vec, ftsWeight, vecWeight, a.scores, a.docs, a.order)
    decreases |vec|
  {
    if vec == [] {
      LexicalPassAccumulates(fts, ftsWeight, vecWeight);
    } else {
      var init := vec[..|vec| - 1];
      var a := VectorPass(LexicalPass(fts, ftsWeight), init, vecWeight);
      VectorPassAccumulates(fts, init, ftsWeight, vecWeight);
      Snoc(vec);
      VectorStep(fts, init, vec[|vec| - 1], vec, ftsWeight, vecWeight, a.scores, a.docs, a.order);
    }
  }

  /** At the end of both passes the accumulators hold every id's fused score and carried row. */
  lemma AccumulatorsComplete(fts: seq<Row>, vec: seq<Row>, ftsWeight: real, vecWeight: real,
                             scores: map<string, real>, docs: map<string, Row>, order: seq<string>)
    requires Accumulated(fts, vec, ftsWeight, vecWeight, scores, docs, order)
    ensures forall id :: id in order ==> id in scores
    ensures |order| == |Scored(fts, vec, ftsWeight, vecWeight)|
    ensures forall i :: 0 <= i < |order| ==> (order[i], scores[order[i]]) == Scored(fts, vec, ftsWeight, vecWeight)[i]
    ensures forall id :: id in Ids(fts) || id in Ids(vec) ==> id in docs && docs[id] == Carried(id, fts, vec)
  {
    forall id | id in Ids(fts) || id in Ids(vec) ensures id in docs {
      KeyOrderMember(Ids(fts) + Ids(vec), scores, docs, order, id);
    }
  }

  /** Every ranked id comes from one of the lists. */
  lemma RankedFromInputs(fts: seq<Row>, vec: seq<Row>, ftsWeight: real, vecWeight: real)
    ensures forall i :: 0 <= i < |Ranked(fts, vec, ftsWeight, vecWeight)| ==>
              Ranked(fts, vec, ftsWeight, vecWeight)[i].0 in Ids(fts) + Ids(vec)
  {
    var ranked := Ranked(fts, vec, ftsWeight, vecWeight);
    forall i | 0 <= i < |ranked| ensures ranked[i].0 in Ids(fts) + Ids(vec) {
      assert ranked[i] in multiset(Scored(fts, vec, ftsWeight, vecWeight));
    }
  }

  /** `scores.items()`: the (id, score) pairs in key order. */
  function Items(order: seq<string>, scores: map<string, real>): seq<(string, real)>
    requires forall id :: id in order ==> id in scores
  {
    seq(|order|, i requires 0 <= i < |order| => (order[i], scores[order[i]]))
  }

  /** `{**docs[id], "rrf_score": score}` for each ranked pair. */
  function WithRows(ranked: seq<(string, real)>, docs: map<string, Row>): seq<Hit>
    requires forall i :: 0 <= i < |ranked| ==> ranked[i].0 in docs
  {
    seq(|ranked|, i requires 0 <= i < |ranked| => Hit(docs[ranked[i].0], Some(ranked[i].1)))
  }

  lemma AccumulatedItems(fts: seq<Row>, vec: seq<Row>, ftsWeight: real, vecWeight: real,
                         scores: map<string, real>, docs: map<string, Row>, order: seq<string>)
    requires Accumulated(fts, vec, ftsWeight, vecWeight, scores, docs, order)
    ensures forall id :: id in order ==> id in scores
    ensures Items(order, scores) == Scored(fts, vec, ftsWeight, vecWeight)
  {
    AccumulatorsComplete(fts, vec, ftsWeight, vecWeight, scores, docs, order);
  }

  lemma AccumulatedRows(fts: seq<Row>, vec: seq<Row>, ftsWeight: real, vecWeight: real,
                        scores: map<string, real>, docs: map<string, Row>, order: seq<string>)
    requires Accumulated(fts, vec, ftsWeight, vecWeight, scores, docs, order)
    ensures forall i :: 0 <= i < |Ranked(fts, vec, ftsWeight, vecWeight)| ==>
              Ranked(fts, vec, ftsWeight, vecWeight)[i].0 in docs
    ensures WithRows(Ranked(fts, vec, ftsWeight, vecWeight), docs) == Fuse(fts, vec, ftsWeight, vecWeight)
  {
    AccumulatorsComplete(fts, vec, ftsWeight, vecWeight, scores, docs, order);
    RankedFromInputs(fts, vec, ftsWeight, vecWeight);
    var ranked := Ranked(fts, vec, ftsWeight, vecWeight);
    forall i | 0 <= i < |ranked|
      ensures ranked[i].0 in docs && docs[ranked[i].0] == Carried(ranked[i].0, fts, vec)
    {
      assert ranked[i].0 in Ids(fts) || ranked[i].0 in Ids(vec);
    }
    var fused := Fuse(fts, vec, ftsWeight, vecWeight);
    var rows := WithRows(ranked, docs);
    forall i | 0 <= i < |ranked| ensures rows[i] == fused[i] {
    }
  }

  /** Sorting the accumulated scores and attaching the carried rows gives `Fuse`. */
  lemma PassesFuse(fts: seq<Row>, vec: seq<Row>, ftsWeight: real, vecWeight: real)
    ensures var a := VectorPass(LexicalPass(fts, ftsWeight), vec, vecWeight);
      && (forall id :: id in a.order ==> id in a.scores)
      && (forall i :: 0 <= i < |SortDesc(Items(a.order, a.scores))| ==> SortDesc(Items(a.order, a.scores))[i].0 in a.docs)
      && WithRows(SortDesc(Items(a.order, a.scores)), a.docs) == Fuse(fts, vec, ftsWeight, vecWeight)
  {
    var a := VectorPass(LexicalPass(fts, ftsWeight), vec, vecWeight);
    VectorPassAccumulates(fts, vec, ftsWeight, vecWeight);
    AccumulatedItems(fts, vec, ftsWeight, vecWeight, a.scores, a.docs, a.order);
    AccumulatedRows(fts, vec, ftsWeight, vecWeight, a.scores, a.docs, a.order);
  }

  /** The lexical loop of `_rrf_combine`: every lexical hit adds its term and overwrites the
   *  carried row. */
  method LexicalLoop(fts: seq<Row>, ftsWeight: real)
    returns (scores: map<string, real>, docs: map<string, Row>, order: seq<string>)
    ensures Acc(scores, docs, order) == LexicalPass(fts, ftsWeight)
  {
    scores, docs := map[], map[];
    order := [];  // the key order of `scores`, as a Python dict keeps it
    for rank := 0 to |fts|
      invariant Acc(scores, docs, order) == LexicalPass(fts[..rank], ftsWeight)
    {
      var doc := fts[rank];
      LexicalPassStep(fts, ftsWeight, rank);
      if doc.id !in scores {
        order := order + [doc.id];
      }
      scores := scores[doc.id := (if doc.id in scores then scores[doc.id] else 0.0) + Term(ftsWeight, rank)];
      docs := docs[doc.id := doc];
    }
    assert fts[..|fts|] == fts;
  }

  /** The vector loop of `_rrf_combine`: every vector hit adds its term; the row is kept only
   *  for an id not seen before. */
  method VectorLoop(start: Acc, vec: seq<Row>, vecWeight: real)
    returns (scores: map<string, real>, docs: map<string, Row>, order: seq<string>)
    ensures Acc(scores, docs, order) == VectorPass(start, vec, vecWeight)
  {
    scores, docs, order := start.scores, start.docs, start.order;
    for rank := 0 to |vec|
      invariant Acc(scores, docs, order) == VectorPass(start, vec[..rank], vecWeight)
    {
      var doc := vec[rank];
      VectorPassStep(start, vec, vecWeight, rank);
      if doc.id !in scores {
        order := order + [doc.id];
      }
      scores := scores[doc.id := (if doc.id in scores then scores[doc.id] else 0.0) + Term(vecWeight, rank)];
      if doc.id !in docs {
        docs := docs[doc.id := doc];
      }
    }
    assert vec[..|vec|] == vec;
  }

  /**
   * `_rrf_combine`: accumulates the scores and the carried rows in two passes, then sorts
   * the scores, highest first.
   */
  method RrfCombine(fts: seq<Row>, vec: seq<Row>, ftsWeight: real, vecWeight: real) returns (fused: seq<Hit>)
    ensures fused == Fuse(fts, vec, ftsWeight, vecWeight)
  {
    var scores, docs, order := LexicalLoop(fts, ftsWeight);
    scores, docs, order := VectorLoop(Acc(scores, docs, order), vec, vecWeight);
    PassesFuse(fts, vec, ftsWeight, vecWeight);
    fused := WithRows(SortDesc(Items(order, scores)), docs);
  }

  // ---------------------------------------------------------------------------
  // Properties of the fused list
  // ---------------------------------------------------------------------------

  /** Each fused hit carries the row `Carried` picks for its id and that id's fused score. */
  lemma FuseEntries(fts: seq<Row>, vec: seq<Row>, ftsWeight: real, vecWeight: real, i: nat)
    requires i < |Fuse(fts, vec, ftsWeight, vecWeight)|
    ensures var h := Fuse(fts, vec, ftsWeight, vecWeight)[i];
      && (h.row.id in Ids(fts) || h.row.id in Ids(vec))
      && h.row == Carried(h.row.id, fts, vec)
      && h.rrfScore == Some(FusedScore(h.row.id, fts, vec, ftsWeight, vecWeight))
  {
    var ranked := Ranked(fts, vec, ftsWeight, vecWeight);
    assert ranked[i] in multiset(Scored(fts, vec, ftsWeight, vecWeight));
  }

  /** Every id of either input occurs exactly once in the fused list, and no other id does. */
  lemma FuseMembership(fts: seq<Row>, vec: seq<Row>, ftsWeight: real, vecWeight: real, id: string)
    ensures multiset(HitIds(Fuse(fts, vec, ftsWeight, vecWeight)))[id]
         == if id in Ids(fts) || id in Ids(vec) then 1 else 0
  {
    var scored := Scored(fts, vec, ftsWeight, vecWeight);
    var ranked := Ranked(fts, vec, ftsWeight, vecWeight);
    assert HitIds(Fuse(fts, vec, ftsWeight, vecWeight)) == Keys(ranked);
    SortDescKeys(scored);
    ScoredKeys(fts, vec, ftsWeight, vecWeight);
    NoDupsCount(Distinct(Ids(fts) + Ids(vec)), id);
  }

  /** The fused list is ordered by fused score, highest first. */
  lemma FuseOrdered(fts: seq<Row>, vec: seq<Row>, ftsWeight: real, vecWeight: real, i: nat, j: nat)
    requires i < j < |Fuse(fts, vec, ftsWeight, vecWeight)|
    ensures Fuse(fts, vec, ftsWeight, vecWeight)[i].rrfScore.value
         >= Fuse(fts, vec, ftsWeight, vecWeight)[j].rrfScore.value
  {
    SortDescSorted(Scored(fts, vec, ftsWeight, vecWeight));
  }

  /**
   * Ties keep the order of first encounter: the ids with any one score appear in the fused
   * ranking in the order they were first met, lexical list first, then the vector list.
   */
  lemma FuseTiesStable(fts: seq<Row>, vec: seq<Row>, ftsWeight: real, vecWeight: real, s: real)
    ensures WithScore(s, Ranked(fts, vec, ftsWeight, vecWeight))
         == WithScore(s, Scored(fts, vec, ftsWeight, vecWeight))
    ensures Keys(Scored(fts, vec, ftsWeight, vecWeight)) == Distinct(Ids(fts) + Ids(vec))
  {
    SortDescStable(s, Scored(fts, vec, ftsWeight, vecWeight));
    ScoredKeys(fts, vec, ftsWeight, vecWeight);
  }

  lemma SortDescSingle(p: (string, real))
    ensures SortDesc([p]) == [p]
  {
    assert [p][1..] == [];
  }

  /** The fused list of a single ranked pair whose id is a lexical hit. */
  lemma FuseSingle(fts: seq<Row>, vec: seq<Row>, ftsWeight: real, vecWeight: real, a: Row, score: real)
    requires fts == [a]
    requires Scored(fts, vec, ftsWeight, vecWeight) == [(a.id, score)]
    ensures Fuse(fts, vec, ftsWeight, vecWeight) == [Hit(a, Some(score))]
  {
    SortDescSingle((a.id, score));
    assert Ids(fts) == [a.id];
    assert LastIndex(a.id, fts) == 0;
    assert Carried(a.id, fts, vec) == a;
  }

  /** A lone lexical hit at rank 0 scores 1/61. */
  lemma FuseLexicalTop(a: Row)
    ensures Fuse([a], [], 1.0, 1.0) == [Hit(a, Some(1.0 / 61.0))]
  {
    var fts: seq<Row> := [a];
    var vec: seq<Row> := [];
    assert Ids(fts) + Ids(vec) == [a.id];
    assert Distinct([a.id]) == [a.id] by {
      assert [a.id][..0] == [];
    }
    assert ListScore(a.id, fts, 1.0) == 1.0 / 61.0 by {
      assert fts[..0] == [];
    }
    assert Scored(fts, vec, 1.0, 1.0) == [(a.id, 1.0 / 61.0)];
    FuseSingle(fts, vec, 1.0, 1.0, a, 1.0 / 61.0);
  }

  lemma DistinctTwice(id: string)
    ensures Distinct([id, id]) == [id]
  {
    DistinctAppend([], id);
    assert [] + [id] == [id];
    DistinctAppend([id], id);
    assert [id] + [id] == [id, id];
  }

  lemma ListScoreTop(id: string, r: Row, weight: real)
    requires r.id == id
    ensures ListScore(id, [r], weight) == weight / 61.0
  {
    assert [r][..0] == [];
  }

  /** The same id at rank 0 of both lists scores 2/61 and keeps the lexical row. */
  lemma FuseBothTop(a: Row, b: Row)
    requires a.id == b.id
    ensures Fuse([a], [b], 1.0, 1.0) == [Hit(a, Some(2.0 / 61.0))]
  {
    var fts: seq<Row> := [a];
    var vec: seq<Row> := [b];
    assert Ids(fts) + Ids(vec) == [a.id, a.id];
    DistinctTwice(a.id);
    ListScoreTop(a.id, a, 1.0);
    ListScoreTop(a.id, b, 1.0);
    assert Scored(fts, vec, 1.0, 1.0) == [(a.id, 2.0 / 61.0)];
    FuseSingle(fts, vec, 1.0, 1.0, a, 2.0 / 61.0);
  }
}

=== FILE: technical_tools.dfy ===
/**
 * The technical-proposal tools: `write_technical_section`, which stores a generated section in
 * the RFP's technical proposal by replacing the section with the same id or appending a new one,
 * the section-name to prompt-template lookup, and the default section list of
 * `build_full_technical_proposal`.
 *
 * The language model is a function parameter from (template key, prompt) to text; the store is
 * read through parameters and written through the list of writes the tool returns.
 */
module TechnicalTools {
  import opened Wrappers
  import opened Collections
  import opened Text

  // ---------------------------------------------------------------------------
  // Section names
  // ---------------------------------------------------------------------------

  /** The nine sections of a full technical proposal, in document order. */
  const DefaultSections: seq<string> := [
    "Company Profile", "Past Successful Projects", "Executive Summary", "Technical Approach",
    "Solution Architecture", "Implementation Methodology", "Project Timeline",
    "Team Qualifications", "Past Experience"]

  /** The prompt template of each known section name. */
  const SectionTemplates: map<string, string> := map[
    "Company Profile" := "company_profile",
    "Past Successful Projects" := "past_successful_projects",
    "Executive Summary" := "executive_summary",
    "Technical Approach" := "technical_approach",
    "Solution Architecture" := "solution_architecture",
    "Implementation Methodology" := "implementation_methodology",
    "Project Timeline" := "project_timeline",
    "Team Qualifications" := "team_qualifications",
    "Past Experience" := "past_experience"]

  /** The id a section is stored under: the name lowercased, spaces turned into underscores. */
  function SectionId(name: string): (id: string)
    ensures |id| == |name|
    ensures forall i :: 0 <= i < |name| ==>
              id[i] == if name[i] == ' ' then '_' else LowerChar(name[i])
  {
    var lowered := Lower(name);
    seq(|lowered|, i requires 0 <= i < |lowered| => if lowered[i] == ' ' then '_' else lowered[i])
  }

  /** A section id has no spaces and is its own id. */
  lemma SectionIdNormal(name: string)
    ensures ' ' !in SectionId(name)
    ensures SectionId(SectionId(name)) == SectionId(name)
  {
    var id := SectionId(name);
    forall i | 0 <= i < |id| ensures id[i] != ' ' {
      assert LowerChar(name[i]) == ' ' ==> name[i] == ' ';
    }
    assert SectionId(id) == id;
  }

  /** The prompt template for a section name; unknown names use "general". */
  function TemplateKey(name: string): (key: string)
    ensures name in SectionTemplates ==> key == SectionTemplates[name]
    ensures key == "general" <==> name !in SectionTemplates
  {
    if name in SectionTemplates then SectionTemplates[name] else "general"
  }

  /** The names with a template of their own are exactly the default sections. */
  lemma DefaultTemplates(name: string)
    ensures name in DefaultSections <==> TemplateKey(name) != "general"
  {
  }

  /** `sections or DEFAULT_SECTIONS`: a missing or empty list means the nine defaults. */
  function SectionList(sections: Option<seq<string>>): (names: seq<string>)
    ensures |names| > 0
    ensures sections.Some? && sections.value != [] ==> names == sections.value
    ensures (sections.None? || sections.value == []) ==> names == DefaultSections
  {
    match sections
    case Some(s) => if s != [] then s else DefaultSections
    case None => DefaultSections
  }

  // ---------------------------------------------------------------------------
  // Word count
  // ---------------------------------------------------------------------------

  /** The length of the run of non-space characters that starts `s`. */
  function WordLen(s: string): (n: nat)
    ensures n <= |s|
    ensures forall i :: 0 <= i < n ==> !IsSpace(s[i])
    ensures n == |s| || IsSpace(s[n])
  {
    if s == [] || IsSpace(s[0]) then 0 else 1 + WordLen(s[1..])
  }

  /** Python's `str.split()` with no separator: the maximal runs of non-space characters. */
  function Words(s: string): (words: seq<string>)
    ensures forall w :: w in words ==> |w| > 0 && forall c :: c in w ==> !IsSpace(c)
    decreases |s|
  {
    if s == [] then []
    else if IsSpace(s[0]) then Words(s[1..])
    else
      var n := WordLen(s);
      [s[..n]] + Words(s[n..])
  }

  /** The number of places where a word starts: a non-space character that begins the text or
   *  follows a space (`inWord` says whether the character before `s` was a non-space one). */
  function WordStarts(s: string, inWord: bool): nat {
    if s == [] then 0
    else if IsSpace(s[0]) then WordStarts(s[1..], false)
    else (if inWord then 0 else 1) + WordStarts(s[1..], true)
  }

  lemma {:induction false} WordStartsInWord(s: string, k: nat)
    requires k <= WordLen(s)
    ensures WordStarts(s, true) == WordStarts(s[k..], true)
  {
    if k > 0 {
      WordStartsInWord(s[1..], k - 1);
      assert s[1..][k - 1..] == s[k..];
    }
  }

  /** The word count is the number of word starts. */
  lemma {:induction false} WordsCount(s: string)
    ensures |Words(s)| == WordStarts(s, false)
    decreases |s|
  {
    if s != [] {
      if IsSpace(s[0]) {
        WordsCount(s[1..]);
      } else {
        var n := WordLen(s);
        WordStartsInWord(s[1..], n - 1);
        assert s[1..][n - 1..] == s[n..];
        WordsCount(s[n..]);
      }
    }
  }

  /** The words, put back together, are the text without its whitespace. */
  lemma {:induction false} WordsConcat(s: string)
    ensures Concat(Words(s)) == Filter(NotSpace, s)
    decreases |s|
  {
    if s != [] {
      if IsSpace(s[0]) {
        WordsConcat(s[1..]);
        SpaceDropped(s);
      } else {
        WordsConcat(s[WordLen(s)..]);
        WordKept(s);
      }
    }
  }

  /** A leading space adds nothing to either side. */
  lemma SpaceDropped(s: string)
    requires s != [] && IsSpace(s[0])
    requires Concat(Words(s[1..])) == Filter(NotSpace, s[1..])
    ensures Concat(Words(s)) == Filter(NotSpace, s)
  {
    assert Words(s) == Words(s[1..]);
    assert s == [s[0]] + s[1..];
    FilterAppend(NotSpace, [s[0]], s[1..]);
    FilterSingle(NotSpace, s[0]);
  }

  /** A leading word is kept whole on both sides. */
  lemma WordKept(s: string)
    requires s != [] && !IsSpace(s[0])
    requires Concat(Words(s[WordLen(s)..])) == Filter(NotSpace, s[WordLen(s)..])
    ensures Concat(Words(s)) == Filter(NotSpace, s)
  {
    var n := WordLen(s);
    var word, rest := s[..n], s[n..];
    WordsHead(s);
    ConcatCons(word, Words(rest));
    FilterHead(s);
  }

  lemma WordsHead(s: string)
    requires s != [] && !IsSpace(s[0])
    ensures Words(s) == [s[..WordLen(s)]] + Words(s[WordLen(s)..])
  {
  }

  lemma FilterHead(s: string)
    ensures Filter(NotSpace, s) == s[..WordLen(s)] + Filter(NotSpace, s[WordLen(s)..])
  {
    var n := WordLen(s);
    var word, rest := s[..n], s[n..];
    assert s == word + rest;
    FilterAppend(NotSpace, word, rest);
    forall i | 0 <= i < |word| ensures NotSpace(word[i]) {
      assert word[i] == s[i];
    }
    FilterAll(NotSpace, word);
  }

  lemma ConcatCons(w: string, ws: seq<string>)
    ensures Concat([w] + ws) == w + Concat(ws)
  {
    assert ([w] + ws)[1..] == ws;
  }

  predicate NotSpace(c: char) { !IsSpace(c) }

  function Concat(words: seq<string>): string {
    if words == [] then [] else words[0] + Concat(words[1..])
  }

  /** `len(content.split())`. */
  function WordCount(s: string): nat { |Words(s)| }

  // ---------------------------------------------------------------------------
  // Replace-or-append of a section
  // ---------------------------------------------------------------------------

  /** A stored section; a section read back from the store may lack its id. */
  datatype Section = Section(sectionId: Option<string>, title: string, content: string, order: int)

  /** The index of the first section stored under `id`, if any. */
  function FirstWithId(sections: seq<Section>, id: string): (r: Option<nat>)
    ensures r.Some? ==> r.value < |sections| && sections[r.value].sectionId == Some(id)
    ensures r.Some? ==> forall j :: 0 <= j < r.value ==> sections[j].sectionId != Some(id)
    ensures r.None? ==> forall j :: 0 <= j < |sections| ==> sections[j].sectionId != Some(id)
  {
    if sections == [] then None
    else if sections[0].sectionId == Some(id) then Some(0)
    else match FirstWithId(sections[1..], id)
         case None => None
         case Some(k) => Some(k + 1)
  }

  /** The new section list: the first section with the same id is replaced in place (keeping its
   *  position as its order), otherwise the section is appended with the old length as order. */
  function Upsert(sections: seq<Section>, id: string, title: string, content: string): seq<Section> {
    match FirstWithId(sections, id)
    case Some(i) => sections[i := Section(Some(id), title, content, i)]
    case None => sections + [Section(Some(id), title, content, |sections|)]
  }

  /** The two outcomes of the upsert, stated element by element. */
  lemma UpsertShape(sections: seq<Section>, id: string, title: string, content: string)
    ensures var r := Upsert(sections, id, title, content);
      match FirstWithId(sections, id)
      case Some(i) =>
        && |r| == |sections|
        && r[i] == Section(Some(id), title, content, i)
        && (forall j :: 0 <= j < |r| && j != i ==> r[j] == sections[j])
      case None =>
        && |r| == |sections| + 1
        && r[..|sections|] == sections
        && r[|sections|] == Section(Some(id), title, content, |sections|)
  {
  }

  /** After the upsert the section is found under its id, holding the new title and content. */
  lemma UpsertFound(sections: seq<Section>, id: string, title: string, content: string)
    ensures var r := Upsert(sections, id, title, content);
      && FirstWithId(r, id).Some?
      && r[FirstWithId(r, id).value] == Section(Some(id), title, content, FirstWithId(r, id).value)
  {
    var r := Upsert(sections, id, title, content);
    match FirstWithId(sections, id)
    case Some(i) =>
      FirstWithIdAt(r, id, i);
    case None =>
      FirstWithIdAt(r, id, |sections|);
  }

  lemma FirstWithIdAt(sections: seq<Section>, id: string, i: nat)
    requires i < |sections| && sections[i].sectionId == Some(id)
    requires forall j :: 0 <= j < i ==> sections[j].sectionId != Some(id)
    ensures FirstWithId(sections, id) == Some(i)
  {
  }

  /** Writing the same section twice is the same as writing it once. */
  lemma UpsertIdempotent(sections: seq<Section>, id: string, title: string, content: string)
    ensures Upsert(Upsert(sections, id, title, content), id, title, content)
            == Upsert(sections, id, title, content)
  {
    UpsertFound(sections, id, title, content);
  }

  /** The loop of `write_technical_section` over `enumerate(sections)` with its `updated` flag. */
  method UpsertSection(sections: seq<Section>, id: string, title: string, content: string)
    returns (result: seq<Section>)
    ensures result == Upsert(sections, id, title, content)
  {
    result := sections;
    var updated := false;
    var i := 0;
    while i < |sections|
      invariant 0 <= i <= |sections|
      invariant forall j :: 0 <= j < i ==> sections[j].sectionId != Some(id)
    {
      if sections[i].sectionId == Some(id) {
        FirstWithIdAt(sections, id, i);
        result := result[i := Section(Some(id), title, content, i)];
        updated := true;
        break;
      }
      i := i + 1;
    }
    if !updated {
      result := result + [Section(Some(id), title, content, |result|)];
    }
  }

  // ---------------------------------------------------------------------------
  // write_technical_section
  // ---------------------------------------------------------------------------

  datatype ToolError = RfpNotFound

  /** The parts of a stored RFP the prompt names. */
  datatype RfpInfo = RfpInfo(title: string, client: string, sector: string)

  /** A technical proposal of the RFP, newest first, as the store lists them. */
  datatype StoredProposal = StoredProposal(id: string, sections: seq<Section>)

  datatype StoreWrite =
    | CreateProposal(rfpId: string, proposalType: string, title: string)
    | UpdateSections(proposalId: string, sections: seq<Section>)

  datatype SectionReply = SectionReply(sectionName: string, content: string, wordCount: nat, proposalId: string)

  const PromptTail: string :=
    "\nWrite 500-1000 words of formal proposal content. Do not include the section heading itself — just the body text."

  /** The user prompt: section, tender, client and sector, then the caller's extra context
   *  when there is any, then the length instruction. */
  function UserPrompt(sectionName: string, rfp: RfpInfo, context: string): string {
    "Write the '" + sectionName + "' section for a technical proposal.\n\n"
    + "Tender: " + rfp.title + "\nClient: " + rfp.client + "\nSector: " + rfp.sector + "\n"
    + (if context != [] then "\nAdditional context: " + context + "\n" else "")
    + PromptTail
  }

  /** The proposal the section goes to: the RFP's first technical proposal, or a new one with
   *  no sections. */
  function TargetProposal(proposals: seq<StoredProposal>, freshProposalId: string): StoredProposal {
    if proposals != [] then proposals[0] else StoredProposal(freshProposalId, [])
  }

  /**
   * Generates the section and stores it in the RFP's first technical proposal (a new one,
   * created first, when the RFP has none), replacing the section with the same id or
   * appending it; the reply carries the stripped text and its word count.
   */
  method WriteTechnicalSection(rfp: Option<RfpInfo>, rfpId: string, sectionName: string, context: string,
                               generate: (string, string) -> string, proposals: seq<StoredProposal>,
                               freshProposalId: string)
    returns (r: Result<(SectionReply, seq<StoreWrite>), ToolError>)
    ensures rfp.None? <==> r.Err?
    ensures rfp.Some? ==>
      var text := generate(TemplateKey(sectionName), UserPrompt(sectionName, rfp.value, context));
      var target := TargetProposal(proposals, freshProposalId);
      && r.value.0 == SectionReply(sectionName, Strip(text), WordCount(text), target.id)
      && r.value.1 == (if proposals != [] then []
                       else [CreateProposal(rfpId, "technical", "Technical Proposal — " + rfp.value.title)])
                      + [UpdateSections(target.id, Upsert(target.sections, SectionId(sectionName), sectionName, Strip(text)))]
  {
    if rfp.None? {
      return Err(RfpNotFound);
    }
    var info := rfp.value;
    var text := generate(TemplateKey(sectionName), UserPrompt(sectionName, info, context));
    var target := TargetProposal(proposals, freshProposalId);
    var writes: seq<StoreWrite> := [];
    if proposals == [] {
      writes := [CreateProposal(rfpId, "technical", "Technical Proposal — " + info.title)];
    }
    var content := Strip(text);
    var sections := UpsertSection(target.sections, SectionId(sectionName), sectionName, content);
    writes := writes + [UpdateSections(target.id, sections)];
    r := Ok((SectionReply(sectionName, content, WordCount(text), target.id), writes));
  }
}

=== FILE: text.dfy ===
/**
 * Python `str` operations used by the tools, on `string` = `seq<char>`:
 * `isspace`, `lower`, `strip`, `startswith`, `in`, `find`, `split(sep)` and `sep.join`.
 */
module Text {
  import opened Wrappers

  /** Python's `str.isspace` for one character: what `strip()` and `split()` remove. */
  predicate IsSpace(c: char) {
    var n := c as int;
    (9 <= n <= 13) || (28 <= n <= 32) || n == 0x85 || n == 0xA0 || n == 0x1680
    || (0x2000 <= n <= 0x200A) || n == 0x2028 || n == 0x2029 || n == 0x202F
    || n == 0x205F || n == 0x3000
  }

  /** `str.lower()` on one character, for the ASCII letters. */
  function LowerChar(c: char): char {
    if 'A' <= c <= 'Z' then (c as int + 32) as char else c
  }

  function Lower(s: string): (r: string)
    ensures |r| == |s|
    ensures forall i :: 0 <= i < |s| ==> r[i] == LowerChar(s[i])
  {
    seq(|s|, i requires 0 <= i < |s| => LowerChar(s[i]))
  }

  lemma LowerIdempotent(s: string)
    ensures Lower(Lower(s)) == Lower(s)
  {
  }

  lemma LowerAppend(a: string, b: string)
    ensures Lower(a + b) == Lower(a) + Lower(b)
  {
  }

  /** `s.startswith(p)`. */
  predicate StartsWith(s: string, p: string) {
    |p| <= |s| && s[..|p|] == p
  }

  /** `s.lstrip()`. */
  function LStrip(s: string): (r: string)
    ensures |r| <= |s| && r == s[|s| - |r|..]
    ensures r == [] || !IsSpace(r[0])
    ensures forall i :: 0 <= i < |s| - |r| ==> IsSpace(s[i])
  {
    if |s| > 0 && IsSpace(s[0]) then LStrip(s[1..]) else s
  }

  /** `s.rstrip()`. */
  function RStrip(s: string): (r: string)
    ensures |r| <= |s| && r == s[..|r|]
    ensures r == [] || !IsSpace(r[|r| - 1])
    ensures forall i :: |r| <= i < |s| ==> IsSpace(s[i])
  {
    if |s| > 0 && IsSpace(s[|s| - 1]) then RStrip(s[..|s| - 1]) else s
  }

  /** `s.strip()`: `s` without white space at either end. */
  function Strip(s: string): (r: string)
    ensures |r| <= |s|
    ensures r == [] || (!IsSpace(r[0]) && !IsSpace(r[|r| - 1]))
  {
    RStrip(LStrip(s))
  }

  /** Stripping keeps a contiguous run of the input: everything before it and everything after it
   *  is white space, so only a blank input strips to the empty string. */
  lemma StripSpan(s: string)
    ensures var a := |s| - |LStrip(s)|;
            && a + |Strip(s)| <= |s| && Strip(s) == s[a..a + |Strip(s)|]
            && (forall i :: 0 <= i < a ==> IsSpace(s[i]))
            && (forall i :: a + |Strip(s)| <= i < |s| ==> IsSpace(s[i]))
  {
    var l := LStrip(s);
    var r := RStrip(l);
    assert r == Strip(s);
    SpanOfSuffixPrefix(s, l, r);
    assert forall i :: 0 <= i < |s| - |l| ==> IsSpace(s[i]);
  }

  /** A prefix `r` of a suffix `l` of `s`, with only white space cut from the end of `l`. */
  lemma SpanOfSuffixPrefix(s: string, l: string, r: string)
    requires |l| <= |s| && l == s[|s| - |l|..]
    requires |r| <= |l| && r == l[..|r|]
    requires forall i :: |r| <= i < |l| ==> IsSpace(l[i])
    ensures var a := |s| - |l|;
            && a + |r| <= |s| && r == s[a..a + |r|]
            && (forall i :: a + |r| <= i < |s| ==> IsSpace(s[i]))
  {
    var a := |s| - |l|;
    forall i | a + |r| <= i < |s|
      ensures IsSpace(s[i])
    {
      assert s[i] == l[i - a];
    }
  }

  /** `pat` occurs in `s` starting at index `i`. */
  predicate OccursAt(s: string, pat: string, i: nat) {
    i + |pat| <= |s| && s[i..i + |pat|] == pat
  }

  lemma OccursAtTail(s: string, pat: string, k: nat)
    requires |s| > 0
    ensures OccursAt(s[1..], pat, k) <==> OccursAt(s, pat, k + 1)
  {
    if k + 1 + |pat| <= |s| {
      assert s[1..][k..k + |pat|] == s[k + 1..k + 1 + |pat|];
    }
  }

  lemma OccursAtShift(s: string, pat: string)
    requires |s| > 0
    ensures forall j: nat :: j > 0 ==> (OccursAt(s, pat, j) <==> OccursAt(s[1..], pat, j - 1))
  {
    forall j: nat | j > 0 ensures OccursAt(s, pat, j) <==> OccursAt(s[1..], pat, j - 1) {
      OccursAtTail(s, pat, j - 1);
    }
  }

  /** `s.find(pat)`, with `None` for Python's -1: the first index at which `pat` occurs. */
  function Find(s: string, pat: string): (r: Option<nat>)
    ensures r.Some? ==> OccursAt(s, pat, r.value)
    ensures r.Some? ==> forall j: nat :: j < r.value ==> !OccursAt(s, pat, j)
    ensures r.None? ==> forall j: nat :: !OccursAt(s, pat, j)
    decreases |s|
  {
    if |s| < |pat| then None
    else if s[..|pat|] == pat then Some(0)
    else
      var rest := Find(s[1..], pat);
      assert s[0..|pat|] == s[..|pat|];
      OccursAtShift(s, pat);
      match rest
      case None => None
      case Some(k) => Some(k + 1)
  }

  /** Python's `pat in s`. */
  predicate Contains(s: string, pat: string) {
    Find(s, pat).Some?
  }

  lemma ContainsAt(s: string, pat: string, i: nat)
    requires OccursAt(s, pat, i)
    ensures Contains(s, pat)
  {
  }

  /** A one-character pattern occurs exactly when that character does. */
  lemma ContainsChar(s: string, c: char)
    ensures Contains(s, [c]) <==> c in s
  {
    if c in s {
      var i :| 0 <= i < |s| && s[i] == c;
      assert OccursAt(s, [c], i);
    }
    if Contains(s, [c]) {
      var i := Find(s, [c]).value;
      assert s[i] == s[i..i + 1][0];
    }
  }

  /** An occurrence inside a prefix or a suffix is an occurrence in the whole. */
  lemma ContainsPrefix(s: string, n: nat, pat: string)
    requires n <= |s| && Contains(s[..n], pat)
    ensures Contains(s, pat)
  {
    var i := Find(s[..n], pat).value;
    assert s[..n][i..i + |pat|] == s[i..i + |pat|];
    ContainsAt(s, pat, i);
  }

  lemma ContainsSuffix(s: string, n: nat, pat: string)
    requires n <= |s| && Contains(s[n..], pat)
    ensures Contains(s, pat)
  {
    var i := Find(s[n..], pat).value;
    assert s[n..][i..i + |pat|] == s[n + i..n + i + |pat|];
    ContainsAt(s, pat, n + i);
  }

  /** When `pat` does not occur before index `i` of `s`, it does not occur in `s[..i]`. */
  lemma NoOccurrenceInPrefix(s: string, pat: string, i: nat)
    requires |pat| > 0 && i <= |s|
    requires forall j: nat :: j < i ==> !OccursAt(s, pat, j)
    ensures !Contains(s[..i], pat)
  {
    forall j: nat ensures !OccursAt(s[..i], pat, j) {
      if j + |pat| <= i {
        assert !OccursAt(s, pat, j);
        assert s[..i][j..j + |pat|] == s[j..j + |pat|];
      }
    }
  }

  /** `s.split(sep)` for a non-empty `sep`: the pieces between non-overlapping occurrences. */
  function Split(s: string, sep: string): (parts: seq<string>)
    requires |sep| > 0
    ensures |parts| >= 1
    decreases |s|
  {
    match Find(s, sep)
    case None => [s]
    case Some(i) => [s[..i]] + Split(s[i + |sep|..], sep)
  }

  /** `Split` yields a single piece exactly when the separator does not occur. */
  lemma SplitSingle(s: string, sep: string)
    requires |sep| > 0
    ensures |Split(s, sep)| == 1 <==> !Contains(s, sep)
  {
  }

  /** The first piece of `Split` is a prefix free of the separator, followed by the separator
   *  or by the end. */
  lemma SplitFirst(s: string, sep: string)
    requires |sep| > 0
    ensures var q := Split(s, sep)[0];
            |q| <= |s| && q == s[..|q|] && !Contains(q, sep) && (|q| == |s| || OccursAt(s, sep, |q|))
  {
    match Find(s, sep)
    case None =>
      assert s[..|s|] == s;
    case Some(i) =>
      NoOccurrenceInPrefix(s, sep, i);
  }

  /** `Split` when the separator is found at `i`. */
  lemma SplitFound(s: string, sep: string, i: nat)
    requires |sep| > 0 && Find(s, sep) == Some(i)
    ensures Split(s, sep) == [s[..i]] + Split(s[i + |sep|..], sep)
  {
  }

  /** No piece of `Split` contains the separator. */
  lemma {:induction false} SplitPiecesClear(s: string, sep: string)
    requires |sep| > 0
    ensures forall p :: p in Split(s, sep) ==> !Contains(p, sep)
    decreases |s|
  {
    match Find(s, sep)
    case None =>
    case Some(i) =>
      NoOccurrenceInPrefix(s, sep, i);
      SplitPiecesClear(s[i + |sep|..], sep);
  }

  /** `sep.join(parts)`. */
  function Join(parts: seq<string>, sep: string): string {
    if |parts| == 0 then ""
    else if |parts| == 1 then parts[0]
    else parts[0] + sep + Join(parts[1..], sep)
  }

  lemma JoinCons(p: string, parts: seq<string>, sep: string)
    requires |parts| >= 1
    ensures Join([p] + parts, sep) == p + sep + Join(parts, sep)
  {
    assert ([p] + parts)[1..] == parts;
  }

  /** Splitting and joining again with the same separator gives back the text. */
  lemma {:induction false} JoinSplit(s: string, sep: string)
    requires |sep| > 0
    ensures Join(Split(s, sep), sep) == s
    decreases |s|
  {
    match Find(s, sep)
    case None =>
    case Some(i) =>
      var rest := s[i + |sep|..];
      var parts := Split(rest, sep);
      JoinSplit(rest, sep);
      assert Split(s, sep) == [s[..i]] + parts;
      JoinCons(s[..i], parts, sep);
      assert s[i..i + |sep|] == sep;
      assert s == s[..i] + s[i..i + |sep|] + rest;
  }

  lemma FindAfterClearPrefix(p: string, sep: string, rest: string)
    requires |sep| == 1 && !Contains(p, sep)
    ensures Find(p + sep + rest, sep) == Some(|p|)
  {
    var s := p + sep + rest;
    assert s[|p|..|p| + 1] == sep;
    assert OccursAt(s, sep, |p|);
    forall j: nat | j < |p| ensures !OccursAt(s, sep, j) {
      assert !OccursAt(p, sep, j);
      assert s[j..j + 1] == p[j..j + 1];
    }
    var v := Find(s, sep);
    assert v.Some?;
    assert !(v.value < |p|);
    assert !(v.value > |p|);
  }

  /**
   * Joining pieces that do not contain a one-character separator and splitting again
   * gives back the pieces.
   */
  lemma {:induction false} SplitJoin(parts: seq<string>, sep: string)
    requires |sep| == 1 && |parts| >= 1
    requires forall p :: p in parts ==> !Contains(p, sep)
    ensures Split(Join(parts, sep), sep) == parts
    decreases |parts|
  {
    var p := parts[0];
    if |parts| > 1 {
      var rest := Join(parts[1..], sep);
      var s := p + sep + rest;
      FindAfterClearPrefix(p, sep, rest);
      assert Join(parts, sep) == s;
      assert s[..|p|] == p;
      assert s[|p| + 1..] == rest;
      assert Split(s, sep) == [p] + Split(rest, sep);
      assert forall q :: q in parts[1..] ==> q in parts;
      SplitJoin(parts[1..], sep);
      assert parts == [p] + parts[1..];
    } else {
      assert p in parts;
      assert Find(p, sep).None?;
      assert Split(p, sep) == [p];
    }
  }
}

=== FILE: wrappers.dfy ===
/** Failure-compatible wrappers shared by every module of the model. */
module Wrappers {

  /** A value that may be absent: Python's `None` or a missing dictionary key. */
  datatype Option<+T> = None | Some(value: T) {
    /** `d.get(key, default)` once the lookup has produced this option. */
    function GetOr(default: T): T {
      match this
      case Some(v) => v
      case None => default
    }
  }

  /** The outcome of an operation that raises in the source. */
  datatype Result<+R, +E> = Ok(value: R) | Err(error: E)
}
